=== FILE: README.md ===
# Retail management front-end — a Dafny model of its state logic

The system is a React/Redux front-end for a retail back office. It covers
products, branches, vendors, sales, purchases, a ledger, stock movements, audit
logs and authentication. Each resource has a Redux slice. Each slice has
asynchronous thunks that call the server, and reducers that fold the thunks'
`pending` / `fulfilled` / `rejected` actions into `{ data, loading, error }`.
Three slices wrap their requests in `withAuth`. After a `token_not_valid`
error it refreshes the access token once and retries the request once. The
pages on top of the slices do list pipelines:

- filter by search text;
- sort by a column;
- slice into pages, with Previous / Next / page buttons;
- count and sum for summary cards and charts.

Some forms keep line items with totals in step.

This project models that logic as pure functions over immutable data:

- every reducer as a function from a state and an action to a state;
- every thunk as a function from the server's replies to the action it ends
  with. Delete thunks are modelled as how their promise settles (`Settled`):
  fulfilled with a value or rejected with a payload. A per-slice
  `DeleteAction` turns that into the action its reducer sees. `registerUser`
  is modelled as the store once its actions are applied;
- `withAuth` as a function from the token pair and a scripted server to a run:
  the outcome, every call made in order, and the `setTokens` payload dispatched;
- every page computation as a function of the inputs the page holds in
  React state.

Contracts and lemmas state what each operation promises. Where the code
departs from what its authors evidently meant, both versions are modelled
(see "## Findings").

Modules, one per source unit, plus shared ones:

- `Wrappers`, `Seqs`, `Text` (lower/upper case, `includes`, `parseInt`),
  `Paging` (`slice`, `Math.ceil`, Previous/Next clamps), `Sorting`,
  `Grouping` (bucketing by key, as `Map`/object accumulation does), `Catalog`;
- `Http` and `TokenRefresh` (the reply shapes, `withAuth`, and the two ways a
  thunk settles its result);
- `ResourceSlice` (the shared reducer edits), then `ProductSlice`,
  `BranchSlice`, `VendorSlice`, `SaleSlice`, `PurchaseSlice`, `LedgerSlice`,
  `StockSlice`, `AuditLogsSlice`, `AuthSlice`;
- pages and forms: `Pagination`, `PosCart`, `SaleForm`, `AddOrder`,
  `PurchaseForm`, `OrdersPage`, `BranchesPage`, `LedgerTable`, `BranchStock`,
  `AuditLogsTable`, `ProductsTable`, `VendorPurchasePage`,
  `SalesPurchasePage`, `SalesPurchasesChart`.

Modelling conventions:

- The server, the clock, the random invoice number and `localStorage`
  (outside the auth slice) are parameters.
- Money is whole numbers of the smallest currency unit.
- `NaN` from `parseInt` / `parseFloat` is `None`.
- A missing (`undefined`) field is `None`.

## Model

| member | source | states |
|---|---|---|
| TokenRefresh.WithAuth | store/newproductSlice.js:9-27 | The first call is always the request with the stored access token. There is at most one refresh and at most two requests. A dispatched `setTokens` keeps the old refresh token. A success returns the reply with no further call. A failure that is not `token_not_valid`-with-a-refresh-token rejects with the error body or "Request failed." after that single call. Otherwise the run continues as `RefreshAndRetry`. |
| TokenRefresh.RefreshAndRetry | store/newproductSlice.js:15-23 | The refresh call comes first. A failed refresh ends at once with "Refresh token expired, login required." and dispatches nothing. A successful refresh dispatches (new access, old refresh) and retries once with the new token. A failed retry gives the same expiry message. |
| TokenRefresh.RefreshIff | store/slices/branchSlice.js:17-24 | A refresh happens if and only if the first request failed with `token_not_valid` and a refresh token was present. |
| TokenRefresh.ResolvedIsLastReply | store/slices/vendorSlice.js:18-33 | A resolved value is the reply to the last request made. Every rejection after a refresh is the expiry message. |
| TokenRefresh.RefreshedTokenReused | store/slices/vendorSlice.js:24-30 | After a refresh the stored refresh token is unchanged. The next wrapped call with the new access token goes straight through, with no second refresh. |
| TokenRefresh.ExpiredAccessScenario | store/slices/branchSlice.js:14-29 | On a concrete script, a stale access token with a refresh token gives request, refresh, retry and the dispatched (new, old) pair. Without a refresh token it rejects with the error body after one call. |
| TokenRefresh.Settle | store/slices/vendorSlice.js:42-52 | Returning `withAuth`'s result from the payload creator fulfils exactly when it resolved, and otherwise rejects with the `rejectWithValue` payload. |
| TokenRefresh.SettleThen | store/newproductSlice.js:33-36 | Chaining `.then` after `withAuth` always fulfils. On a rejection the value is what the callback gives for the rejection object. |
| TokenRefresh.DeleteThenId | store/slices/branchSlice.js:75-85 | The product and branch deletes, as written, fulfil with the requested id whatever the server answered. |
| TokenRefresh.DeleteSettled | store/slices/vendorSlice.js:72-85 | Corrected delete: it fulfils, with the requested id, exactly when the server accepted, and otherwise rejects with the payload. |
| TokenRefresh.SettleAgreesOnSuccess | store/slices/branchSlice.js:39-45 | The two settling styles agree whenever the request succeeded. They disagree on every rejection: only `Settle` rejects. |
| Http.SettleReply | store/slices/purchaseSlice.js:11-21 | A one-request thunk fulfils if and only if the reply succeeded. A failure rejects with the error body, or with the thunk's fallback when there is no body. |
| Http.DetailOr | store/slices/stockSlice.js:25-29 | The rejection message is the body's `detail` when truthy, else the error message when non-empty, else the fallback. It is never empty when the fallback is not. |
| Http.NormaliseAgreesAcrossForms | store/slices/stockSlice.js:21-23 | A paginated (`results`) body and a bare array of the same records give the same list, and an object without `results` gives `[]`. |
| Http.Normalise | store/slices/stockSlice.js:21-23 | An array body is returned as is. An object body gives its `results` when present, and `[]` otherwise. |
| ResourceSlice.RemoveId | store/newproductSlice.js:87 | The `filter` delete keeps exactly the records with another id, each as often as before and in the same order. An unknown id changes nothing. |
| ResourceSlice.FindIndex | store/newproductSlice.js:94 | `findIndex` gives the first index with the id, and -1 exactly when no record has it. |
| ResourceSlice.ReplaceById | store/newproductSlice.js:94-95 | The update replaces the first record with the payload's id and nothing else. Length and ids are kept, and an unknown id changes nothing. |
| ResourceSlice.RemoveIdGone | store/slices/vendorSlice.js:116-118 | After a delete by id, no record carries that id. |
| ResourceSlice.RemoveIdAfterAppend | store/slices/branchSlice.js:109-126 | Appending a record with a new id and then deleting that id restores the list. |
| ResourceSlice.RemoveIdKeepsUnique | store/slices/saleSlice.js:118-121 | Deleting keeps ids unique. |
| ResourceSlice.ReplaceKeepsUnique | store/slices/branchSlice.js:114-119 | Replacing by id keeps ids unique. |
| ResourceSlice.AppendKeepsUniqueIff | store/slices/branchSlice.js:109-111 | Appending keeps ids unique if and only if the new id is not already present. |
| ResourceSlice.RemoveIdIsRemoveAt | store/slices/ledgerSlice.js:71-76 | With unique ids, deleting by the id at index `j` is removing index `j`. |
| ProductSlice.Reduce | store/newproductSlice.js:76-97 | Every `pending` sets loading and clears the error. Every `rejected` keeps the data and records the payload. A fetch replaces the data with the payload or `[]`. An add appends. A delete removes exactly that id and keeps every other record, as often as before and in order. An update replaces in place by id. |
| ProductSlice.FetchAsWritten | store/newproductSlice.js:30-37 | The fetch always fulfils. An accepted request fulfils with exactly the list the server sent; a rejected `withAuth` fulfils with no list. |
| ProductSlice.DeleteRefusedRemovesLocally | store/newproductSlice.js:56-87 | A delete the server refused still removes the product, and no error is recorded. |
| ProductSlice.FetchFailureLooksEmpty | store/newproductSlice.js:36-77 | A failed fetch empties the list and leaves the error null. |
| ProductSlice.FetchIntended | store/newproductSlice.js:30-37 | Corrected fetch: an accepted request fulfils with exactly the server's list, as written does, and a refusal rejects with its payload. |
| ProductSlice.IntendedKeepsListOnRefusal | store/newproductSlice.js:78-88 | With the corrected thunks, a refusal keeps the list and records the refusal in `error`. |
| ProductSlice.EditsKeepIdsUnique | store/newproductSlice.js:86-97 | Deletes, updates and flag-only actions keep product ids unique. |
| BranchSlice.Reduce | store/slices/branchSlice.js:95-126 | Only the fetch has `pending` and `rejected` cases. Add, update and delete never change `loading` or `error`. A fetch replaces the data with the payload, with no fallback. An add appends. An update replaces in place by id, and an unknown id changes nothing. A delete removes exactly that id and keeps every other record, as often as before and in order. |
| BranchSlice.RefusedDeleteDropsBranch | store/slices/branchSlice.js:84-126 | A refused delete, as written, still drops the branch and records no error. |
| BranchSlice.IntendedDeleteRemovesIffAccepted | store/slices/branchSlice.js:75-126 | With the corrected settling, a listed branch is removed if and only if the server accepted. A refusal leaves the state unchanged. |
| BranchSlice.AddThenDelete | store/slices/branchSlice.js:109-126 | Adding a branch with a new id and then deleting it restores the state. |
| VendorSlice.Reduce | store/slices/vendorSlice.js:97-118 | Fetch `pending` sets loading and clears the error. Fetch `rejected` stores the payload. A fetch replaces the vendors. An add appends. A delete removes exactly that id and keeps every other record, as often as before and in order. Other thunks' `pending` and `rejected` change nothing. |
| VendorSlice.DeleteRequest | store/slices/vendorSlice.js:76-81 | The request function succeeds exactly when the server accepts, and then returns the vendor id. |
| VendorSlice.DeleteThunk | store/slices/vendorSlice.js:72-85 | The thunk fulfils with the vendor's id exactly when `withAuth` resolved, and otherwise rejects with its payload. |
| VendorSlice.DeleteOnlyWhenAccepted | store/slices/vendorSlice.js:80-118 | An accepted delete removes the vendor. A refused one leaves the state exactly as it was. |
| SaleSlice.ShapePayload | store/slices/saleSlice.js:28-45 | The create body has exactly the listed header fields. Each item is cut down to product, quantity and unit price, in the same order. |
| SaleSlice.ShapeIgnoresExtras | store/slices/saleSlice.js:28-45 | Inputs that differ only in unlisted fields give the same body. |
| SaleSlice.RejectionPayload | store/slices/saleSlice.js:18 | The rejection is the error body when there is one, and the error message otherwise. |
| SaleSlice.Reduce | store/slices/saleSlice.js:90-125 | Every `pending` sets loading, but only the fetch's clears the error. Every `rejected` records the payload and keeps the sales. A fetch replaces. A create appends. A delete removes exactly that id and keeps every other record, as often as before and in order. |
| SaleSlice.DeleteThunk | store/slices/saleSlice.js:62-77 | The delete fulfils with the requested id exactly when the server accepted, and otherwise rejects with the body or the message. |
| SaleSlice.ErrorSurvivesCreate | store/slices/saleSlice.js:90-109 | An earlier error survives a create's `pending` and `fulfilled`. Only a fetch clears it. |
| PurchaseSlice.Reduce | store/slices/purchaseSlice.js:70-112 | Every `pending` sets loading and clears the error. Every `rejected` records the payload and keeps the purchases. A fetch replaces. An add appends. A delete removes exactly that id and keeps every other record, as often as before and in order. |
| PurchaseSlice.Finish | store/slices/purchaseSlice.js:20-54 | A thunk ends with its success action exactly when the reply succeeded. Otherwise it rejects with the body or "Something went wrong". |
| PurchaseSlice.FailureKeepsList | store/slices/purchaseSlice.js:78-112 | Any failure keeps the list, ends loading, and records the body or the fallback message. |
| PurchaseSlice.DeleteAccepted | store/slices/purchaseSlice.js:99-108 | An accepted delete after its `pending` removes the id, with no error and loading over. |
| LedgerSlice.Reduce | store/slices/ledgerSlice.js:53-80 | Both `pending` cases set loading and clear the error. Both `rejected` cases record the payload. A fetch replaces the entries. A delete removes exactly that id and keeps every other record, as often as before and in order. |
| LedgerSlice.FetchThunk | store/slices/ledgerSlice.js:8-22 | The fetch gives the entries, or rejects with the body or "Error fetching ledger". |
| LedgerSlice.DeleteThunk | store/slices/ledgerSlice.js:25-42 | The delete fulfils with the id on acceptance, or rejects with the body or "Error deleting ledger entry". |
| LedgerSlice.DeleteRoundTrip | store/slices/ledgerSlice.js:34-80 | The entry is gone exactly when the server accepted. On failure the entries are kept and an error is set. |
| StockSlice.Reduce | store/slices/stockSlice.js:68-103 | `clearStock` empties the list, clears the error and ends loading. `pending` sets loading and clears the error. `rejected` stores the payload, or a fixed fallback when the payload is an empty message. A delete removes the movements whose id is the response body's `id` and keeps the others as often as before and in order, and none when the body has no `id`. |
| StockSlice.FetchThunk | store/slices/stockSlice.js:5-32 | The fetch fulfils with the normalised list, or rejects with `detail`, the message, or "Failed to fetch stock movements". |
| StockSlice.DeleteThunk | store/slices/stockSlice.js:34-58 | The delete fulfils with the server's response body, not the requested id. |
| StockSlice.AcceptedDeleteWithEmptyBodyKeepsMovement | store/slices/stockSlice.js:49-98 | A delete accepted with a body without `id` leaves the deleted movement in the list. |
| StockSlice.DeleteThunkIntended | store/slices/stockSlice.js:34-58 | Corrected delete: fulfils with the requested id on acceptance, and fails as written otherwise. |
| StockSlice.IntendedDeleteRemoves | store/slices/stockSlice.js:94-98 | With the corrected thunk, an accepted delete always removes the movement. |
| StockSlice.ThunkMessageReachesState | store/slices/stockSlice.js:84-86 | The thunks' rejections always carry a non-empty message, so the reducer's own fallback is never what is stored. |
| AuditLogsSlice.Reduce | store/slices/auditLogsSlice.js:45-66 | `clearAuditLogs` resets to the initial state. `pending` sets loading and clears the error. `fulfilled` replaces the logs. `rejected` stores the message or the fallback. |
| AuditLogsSlice.FetchThunk | store/slices/auditLogsSlice.js:20-32 | The fetch fulfils with the normalised list, or rejects with a non-empty message: `detail`, the error message, or "Failed to fetch audit logs". |
| AuditLogsSlice.FetchCycle | store/slices/auditLogsSlice.js:53-66 | After `pending` and the outcome, loading is over. Either the logs are the normalised response with no error, or the old logs are kept with the error set. |
| AuditLogsSlice.ClearForgets | store/slices/auditLogsSlice.js:45-49 | Clearing after any action gives the same state as clearing directly. |
| AuthSlice.Stored | store/slices/authSlice.js:67-68 | `setItem` stores a present token as is, and an absent one as the text "undefined". |
| AuthSlice.ReadKey | store/slices/authSlice.js:53-54 | A stored key reads as a token exactly when it is present and non-empty. |
| AuthSlice.ErrorOf | store/slices/authSlice.js:93-105 | A rejection records the body's `detail` when truthy, and the whole payload otherwise. |
| AuthSlice.Reduce | store/slices/authSlice.js:64-106 | `setTokens` overwrites both tokens and writes both storage keys. `setUser` changes only the user. `logout` nulls both tokens and the user and removes both keys. `pending` sets loading and clears the error. `fulfilled` ends loading. `rejected` records `ErrorOf`. |
| AuthSlice.ReloadAfterSetTokens | store/slices/authSlice.js:52-69 | Non-empty tokens written by `setTokens` are the tokens the next load starts from. |
| AuthSlice.ReloadAfterLogout | store/slices/authSlice.js:52-79 | After `logout`, the next load starts with no tokens. |
| AuthSlice.MissingAccessSurvivesReload | store/slices/authSlice.js:53-67 | A `setTokens` without an access token stores "undefined", which the next load reads back as a present token. |
| AuthSlice.RefreshDispatchKeepsRefreshToken | store/slices/branchSlice.js:22-23 | The `setTokens` dispatched after a refresh changes only the access token, to the refreshed one. Refresh token, user and flags stay. |
| AuthSlice.LoginUser | store/slices/authSlice.js:12-33 | Login dispatches `pending`, then `setTokens` with the response's pair before fetching the user, then `setUser` and `fulfilled`. A failure at either request ends in `rejected` with the body or "Login failed". |
| AuthSlice.RegisterUser | store/slices/authSlice.js:36-50 | After `registerUser` settles, tokens, user and storage are unchanged and loading is over. The error is cleared exactly when the server accepted. A refusal records the body or "Signup failed". |
| AuthSlice.LoginUserFetchFailureKeepsTokens | store/slices/authSlice.js:20-30 | When the user fetch fails, the new tokens stay in the state and in storage, the error is set and no user is set. |
| AuthSlice.LoginSuccess | store/slices/authSlice.js:17-90 | A full login ends with the tokens and the user set, no error and loading over. |
| AuthSlice.LoginRefusedKeepsTokens | store/slices/authSlice.js:17-94 | A refused login changes neither the tokens nor storage, and records the error. |
| Pagination.HandlePageChange | src/pages/branches/Pagination.jsx:16-21 | A page outside `[1, totalPages]` changes nothing and calls nothing. An in-range page moves the internal page only when uncontrolled, and is passed to the callback when there is one. |
| Pagination.CurrentPageStaysInRange | src/pages/branches/Pagination.jsx:13-19 | Uncontrolled, the current page stays in range once it is there. Controlled, it changes only when the parent changes it. |
| Pagination.CompactPages | src/pages/branches/Pagination.jsx:24-29 | Compact rows: `1..T` when `T <= 3`; `[1,2,…,T]` on page 1; `[1,…,T-1,T]` on the last page; `[1,…,c,…,T]` otherwise. |
| Pagination.VisiblePages | src/pages/branches/Pagination.jsx:23-41 | The loop builds exactly the reference row: page 1, an optional ellipsis, the pages within 2 of the current one, an optional ellipsis, and the last page. The compact branch gives the compact row. |
| Pagination.FullPagesEnds | src/pages/branches/Pagination.jsx:36-39 | In range, the row starts with 1 and ends with `T`. It opens with an ellipsis if and only if `c-2 > 2`, and closes with one if and only if `c+2 < T-1`. |
| Pagination.FullPagesAt | src/pages/branches/Pagination.jsx:33-39 | The position of every entry: page 1, the optional ellipsis, the consecutive pages from `max(2,c-2)`, the optional ellipsis, and `T`. |
| Pagination.FullPagesOrdered | src/pages/branches/Pagination.jsx:33-39 | In range, the page numbers lie in `[1,T]`. Adjacent numbers are consecutive. Every ellipsis stands between two numbers with at least one page skipped. |
| Pagination.CurrentPageShown | src/pages/branches/Pagination.jsx:26-39 | The current page always has a button, in the full row and in the compact row when `T > 3`. |
| Pagination.CompactEllipsisBetweenNeighbours | src/pages/branches/Pagination.jsx:28 | Example: on page 2 of 5 the compact row puts an ellipsis between pages 1 and 2, where nothing is skipped. |
| PosCart.AddToCart | src/components/layout/POS.jsx:19-31 | A new product is appended with qty 1. A product already in the cart gets qty + 1 on its line only. Length and other lines are unchanged. |
| PosCart.RemoveFromCart | src/components/layout/POS.jsx:33-35 | The lines with that id are removed, and the others kept as often as before and in order. |
| PosCart.UpdateQty | src/components/layout/POS.jsx:37-45 | Only the matching line changes. Its qty becomes `qty + delta` when that is at least 1, and exactly 1 otherwise. An absent id leaves the cart unchanged. |
| PosCart.AddToCartTotal | src/components/layout/POS.jsx:19-47 | The total rises by the product's price for a new line, or by the line's stored price for an existing one. |
| PosCart.RemoveFromCartTotal | src/components/layout/POS.jsx:33-47 | The total falls by exactly the removed line's price × qty. |
| PosCart.UpdateQtyTotal | src/components/layout/POS.jsx:37-47 | The total changes by the price times the change in qty. |
| PosCart.AddToCartKeepsValid | src/components/layout/POS.jsx:19-31 | Adding keeps one line per id and every qty at least 1. |
| PosCart.RemoveFromCartKeepsValid | src/components/layout/POS.jsx:33-35 | Removing keeps one line per id and every qty at least 1. |
| PosCart.UpdateQtyKeepsValid | src/components/layout/POS.jsx:37-45 | Any step keeps one line per id and every qty at least 1. |
| SaleForm.InitialForm | src/components/layout/Sales/SaleForm.jsx:18-29 | The form starts with one blank row, zero totals, and totals consistent with the rows. |
| SaleForm.Recalc | src/components/layout/Sales/SaleForm.jsx:38-45 | After a recalculation, subtotal = Σ quantity × price, with an unparsable price counting 0, and total = subtotal − discount with no clamping. |
| SaleForm.AddItem | src/components/layout/Sales/SaleForm.jsx:48-52 | Appends the blank row and keeps the totals consistent. |
| SaleForm.UpdateItem | src/components/layout/Sales/SaleForm.jsx:55-68 | Only the given field of the given row changes, apart from the price a chosen product fills in. The totals stay consistent. |
| SaleForm.RemoveItem | src/components/layout/Sales/SaleForm.jsx:71-75 | Drops exactly that index, keeps the others in order, and keeps the totals consistent. |
| SaleForm.SetDiscount | src/components/layout/Sales/SaleForm.jsx:38-44 | A new discount keeps the rows and recomputes the total from it. |
| SaleForm.ChoosingProductSetsPrice | src/components/layout/Sales/SaleForm.jsx:59-64 | Choosing a catalogue product copies its `unit_cost`, or 0 when it has none. A value naming no product changes only the product field. |
| SaleForm.AddItemKeepsSubtotal | src/components/layout/Sales/SaleForm.jsx:48-52 | A blank row adds nothing to the subtotal or the total. |
| SaleForm.RemoveItemSubtotal | src/components/layout/Sales/SaleForm.jsx:71-75 | Removing a row takes exactly its amount off the subtotal and the total. |
| SaleForm.UpdateItemSubtotal | src/components/layout/Sales/SaleForm.jsx:55-68 | Editing a row changes the subtotal by the change in that row's amount. |
| SaleForm.Submit | src/components/layout/Sales/SaleForm.jsx:78-104 | Submit is refused, with nothing sent, if and only if paid > total. Otherwise the body carries the form's header and totals and one parsed item per row, in order. |
| SaleForm.SubmittedTotalsAgree | src/components/layout/Sales/SaleForm.jsx:80-101 | A submitted sale never records more paid than owed. Its subtotal is the sum over the rows, and its total is subtotal − discount. |
| Catalog.FindProduct | src/components/layout/vendors/PurchaseForm.jsx:46-48 | `find` returns the first catalogue product whose id is `parseInt(value)`: every product before it has another id. It returns none only when no product has that id. |
| AddOrder.InitialOrder | src/pages/order/AddOrder.jsx:7-15 | The order starts with no items, total 0, status "Pending" and payment "Cash". |
| AddOrder.AddItem | src/pages/order/AddOrder.jsx:21-27 | An empty name or a price ≤ 0 changes nothing. Otherwise the draft is appended, the draft resets to the blank item, and the other order fields are kept. |
| AddOrder.RemoveItem | src/pages/order/AddOrder.jsx:29-33 | Drops exactly that index and keeps the other fields. |
| AddOrder.AddItemKeepsInvariant | src/pages/order/AddOrder.jsx:21-27 | total = Σ qty × price and every item's guard are preserved. A valid add raises the total by the new item's amount. |
| AddOrder.RemoveItemKeepsInvariant | src/pages/order/AddOrder.jsx:29-33 | total = Σ qty × price is preserved. Removing takes off the removed item's amount. An out-of-range index changes nothing. |
| PurchaseForm.InitialForm | src/components/layout/vendors/PurchaseForm.jsx:24-29 | Empty vendor and invoice, today's date, and one blank row. |
| PurchaseForm.HandleItemChange | src/components/layout/vendors/PurchaseForm.jsx:40-55 | Only the named field of the row at that index changes, apart from the cost a chosen product fills in. The other rows and the header fields are kept. |
| PurchaseForm.ChoosingProductSetsCost | src/components/layout/vendors/PurchaseForm.jsx:45-52 | A known product sets the row's cost to its `unit_cost`, or to "" when it has none. An unknown product changes only the product field. |
| PurchaseForm.AddItemRow | src/components/layout/vendors/PurchaseForm.jsx:57-62 | Appends the blank row and leaves the other fields unchanged. |
| PurchaseForm.Payload | src/components/layout/vendors/PurchaseForm.jsx:66-75 | The body has the vendor parsed to a number and one parsed item per row, in order. |
| PurchaseForm.BlankRowLine | src/components/layout/vendors/PurchaseForm.jsx:60-74 | A blank row sends no product, quantity 1 and no cost. |
| PurchaseForm.AddItemRowPayload | src/components/layout/vendors/PurchaseForm.jsx:57-75 | A new row sends one more item, the blank line, after the existing ones. |
| PurchaseForm.PayloadAppend | src/components/layout/vendors/PurchaseForm.jsx:70-74 | Appending a row appends its line to the body. |
| PurchaseForm.AfterSubmit | src/components/layout/vendors/PurchaseForm.jsx:77-89 | On success the form resets to an empty vendor and invoice number, today's date and a single blank row. On failure it is kept as it was. |
| PurchaseForm.ResetPayload | src/components/layout/vendors/PurchaseForm.jsx:80-85 | After an accepted purchase the form would send no vendor and one blank item, however many rows it had. |
| OrdersPage.Filtered | src/pages/order/OrdersPage.jsx:85-92 | An order is listed if and only if its status matches (or the filter is "All") and the search occurs case-insensitively in its id, customer or payment. The list keeps the orders' order and multiplicity. |
| OrdersPage.NoFilterKeepsAll | src/pages/order/OrdersPage.jsx:85-92 | The initial filter lists every order. |
| OrdersPage.CurrentOrders | src/pages/order/OrdersPage.jsx:95-97 | The page shows at most 5 orders: filtered `[(p-1)·5, p·5)`, clipped to the list. |
| OrdersPage.Previous | src/pages/order/OrdersPage.jsx:311 | Previous goes back exactly one page from any page after the first, and lands on page 1 otherwise; status and search are kept. |
| OrdersPage.Next | src/pages/order/OrdersPage.jsx:318 | Next goes forward exactly one page while that page exists, and lands on `totalPages` otherwise; status and search are kept. |
| OrdersPage.PagingStaysInRange | src/pages/order/OrdersPage.jsx:311-318 | From a page in range, Previous and Next stay in range. |
| OrdersPage.ShowingMatchesRows | src/pages/order/OrdersPage.jsx:303-305 | On a page in range, "Showing a to b" has a ≤ b, b − a + 1 rows shown, and the first shown row is row a. |
| OrdersPage.SetQuery | src/pages/order/OrdersPage.jsx:179 | As written, typing a search keeps the page. |
| OrdersPage.StalePageAfterSearch | src/pages/order/OrdersPage.jsx:95-98 | On page 2, a search that leaves one page of results shows no rows, and the line reads a > b. |
| OrdersPage.SetQueryIntended | src/pages/order/OrdersPage.jsx:179 | Corrected search: the page goes back to 1. |
| OrdersPage.IntendedSearchShowsResults | src/pages/order/OrdersPage.jsx:303-307 | After the corrected search, any results are shown from the first, and the line is well formed. |
| OrdersPage.CountStatus | src/pages/order/OrdersPage.jsx:155-159 | A status card counts exactly the orders with that status. |
| OrdersPage.CardsAgree | src/pages/order/OrdersPage.jsx:155-164 | The Paid and Pending cards together never exceed the number of orders. The revenue does not depend on the order of the list. |
| BranchesPage.Filtered | src/pages/branches/BranchesComponent.jsx:41-47 | A branch is listed if and only if its name, address or manager contains the term case-insensitively, a missing field reading as "". The list keeps the branches' order, and each listed branch occurs as often as in the input. |
| BranchesPage.EmptySearchKeepsAll | src/pages/branches/BranchesComponent.jsx:45-46 | An empty term lists every branch. |
| BranchesPage.BlankBranchOnlyForEmptySearch | src/pages/branches/BranchesComponent.jsx:42-46 | A branch with none of the three fields is found exactly by the empty term. |
| BranchesPage.CurrentBranches | src/pages/branches/BranchesComponent.jsx:50-53 | The page is at most 4 branches: filtered `[(p-1)·4, p·4)`, clipped to the list. |
| BranchesPage.HandlePageChange | src/pages/branches/BranchesComponent.jsx:55-57 | A page outside `[1, totalPages]` is ignored. |
| BranchesPage.PageChangesStayInRange | src/pages/branches/BranchesComponent.jsx:55-57 | From a page in range, no sequence of page changes leaves the range. |
| BranchesPage.Values | src/pages/branches/BranchesComponent.jsx:60-62 | `map` gives one value per branch, in order. |
| BranchesPage.CountDistinct | src/pages/branches/BranchesComponent.jsx:60-62 | `[...new Set(values)].length` is the number of distinct values. |
| BranchesPage.CardCountsDistinct | src/pages/branches/BranchesComponent.jsx:60-62 | Each card is the number of distinct values of its field over the branches, a missing value counting once. |
| LedgerTable.SearchThenTypeIsListed | src/components/layout/LedgerEntry/LedgerTable.jsx:26-45 | Searching and then applying the type filter equals one filter by the combined condition. |
| LedgerTable.Filtered | src/components/layout/LedgerEntry/LedgerTable.jsx:26-45 | An entry is listed if and only if its description or reference contains the search case-insensitively and, for "sale" / "purchase", its type is "sal" / "pur" or its reference contains that tag. "all" adds nothing. Order is kept, and each listed entry occurs as often as in the input. |
| LedgerTable.EntryWithoutTextHidden | src/components/layout/LedgerEntry/LedgerTable.jsx:28-29 | An entry with neither description nor reference is never listed, even for an empty search. |
| LedgerTable.CurrentEntries | src/components/layout/LedgerEntry/LedgerTable.jsx:48-53 | The page is at most 10 entries: filtered `[(p-1)·10, p·10)`, clipped. |
| LedgerTable.SetSearch | src/components/layout/LedgerEntry/LedgerTable.jsx:79-82 | A new search resets the page to 1 and keeps the filter. |
| LedgerTable.SetFilterType | src/components/layout/LedgerEntry/LedgerTable.jsx:88-91 | A new filter resets the page to 1 and keeps the search. |
| LedgerTable.LastPage | src/components/layout/LedgerEntry/LedgerTable.jsx:174-179 | The displayed page count and the Next bound are `totalPages`, or 1 when nothing is listed. |
| LedgerTable.PagingStaysInRange | src/components/layout/LedgerEntry/LedgerTable.jsx:160-179 | Prev and Next keep the page between 1 and the displayed count, an empty list included. |
| LedgerTable.ResetShowsFirstRows | src/components/layout/LedgerEntry/LedgerTable.jsx:79-91 | After a new search or filter, the table shows the first matching rows. |
| BranchStock.Filtered | src/pages/branchStock/BranchStock.jsx:45-58 | A movement is listed if and only if the search matches its product, branch or reason, and the type filter is "ALL" or equals its upper-cased type. Order is kept, and each listed movement occurs as often as in the input. |
| BranchStock.DisplayNamePreferred | src/pages/branchStock/BranchStock.jsx:46-47 | The display name wins over the raw field, and an empty display name falls back to it. |
| BranchStock.TypeFilterExact | src/pages/branchStock/BranchStock.jsx:53-56 | A type filter other than "ALL" lists only movements with a type whose upper case is the filter. |
| BranchStock.PageRows | src/pages/branchStock/BranchStock.jsx:60-64 | The page is at most 6 movements: filtered `[(p-1)·6, p·6)`, clipped. |
| BranchStock.PageIds | src/pages/branchStock/BranchStock.jsx:77 | The page's ids, one per row, in order. |
| BranchStock.ToggleSelect | src/pages/branchStock/BranchStock.jsx:67-71 | A selected id is removed, every copy of it, and the other ids kept as often as before and in order. An unselected id is appended. |
| BranchStock.ToggleTwice | src/pages/branchStock/BranchStock.jsx:67-71 | Toggling twice restores the selected set, and restores the exact selection when the id was unselected. |
| BranchStock.ToggleKeepsNoDup | src/pages/branchStock/BranchStock.jsx:67-71 | Toggling keeps the selection free of duplicates. |
| BranchStock.ToggleSelectAll | src/pages/branchStock/BranchStock.jsx:73-79 | As written, the selection is cleared when its size equals the page's row count, and set to the page's ids otherwise. |
| BranchStock.SelectAllClearsForeignSelection | src/pages/branchStock/BranchStock.jsx:74-75 | Example: called with one row selected from another page while the page holds one other row, the handler clears the selection instead of selecting that row. |
| BranchStock.ToggleSelectAllIntended | src/pages/branchStock/BranchStock.jsx:73-79 | Corrected: clear when every row of the page is selected, and select the page otherwise. |
| BranchStock.IntendedSelectAllSelectsPage | src/pages/branchStock/BranchStock.jsx:73-79 | With the corrected toggle, a page not fully selected ends fully selected. |
| StockSlice.AcceptedIds | src/pages/branchStock/BranchStock.jsx:93-96 | An id counts as deleted by a bulk delete exactly when one of the requests for it was accepted. |
| StockSlice.BulkDelete | src/pages/branchStock/BranchStock.jsx:92-98 | Each selected id's delete is dispatched in order, and its `pending` and outcome reach the stock reducer. A non-empty bulk delete ends with loading over and never adds a movement. |
| StockSlice.BulkDeleteIntended | src/pages/branchStock/BranchStock.jsx:92-98 | With the corrected delete thunk, a movement survives the bulk delete if and only if no request for its id was accepted. |
| StockSlice.BulkDeleteEmptyBodiesKeepList | src/pages/branchStock/BranchStock.jsx:92-98 | As written, a bulk delete whose every request was accepted with an empty body leaves the list exactly as it was. |
| AuditLogsTable.InitialView | src/components/layout/auditlogtable/AuditLogsTable.jsx:9-13 | Page 1, ascending, and a page size among the offered ones. |
| AuditLogsTable.Kept | src/components/layout/auditlogtable/AuditLogsTable.jsx:47-54 | A log is kept, as often as it occurs, if and only if its user name, action or model contains the search case-insensitively (a missing user name matches nothing) and the action filter is empty or equals its action. |
| AuditLogsTable.FilteredLogs | src/components/layout/auditlogtable/AuditLogsTable.jsx:47-59 | The listed logs are a permutation of the kept ones, ordered by timestamp ascending when `sortAsc` and descending otherwise. |
| AuditLogsTable.TimeOrdered | src/components/layout/auditlogtable/AuditLogsTable.jsx:55-59 | Rows sorted by the comparator have their timestamps in the chosen order. |
| AuditLogsTable.NoFilterListsAll | src/components/layout/auditlogtable/AuditLogsTable.jsx:50-53 | With no search and no action filter, every log is listed as often as it occurs. |
| AuditLogsTable.SortOrderKeepsRows | src/components/layout/auditlogtable/AuditLogsTable.jsx:55-59 | Flipping the sort order lists the same logs. |
| AuditLogsTable.PaginatedLogs | src/components/layout/auditlogtable/AuditLogsTable.jsx:61-65 | A page has at most `pageSize` listed logs, and at least one on every page in range. |
| AuditLogsTable.EveryLogOnSomePage | src/components/layout/auditlogtable/AuditLogsTable.jsx:61-65 | Listed log `i` is row `i % size` of page `i / size + 1`, which is in range. |
| AuditLogsTable.PagingStaysInRange | src/components/layout/auditlogtable/AuditLogsTable.jsx:188-202 | Previous and Next keep a page in range in range, and never show an empty page while logs are listed. |
| AuditLogsTable.UniqueActions | src/components/layout/auditlogtable/AuditLogsTable.jsx:67 | The action options have no duplicates and are exactly the actions that occur. |
| AuditLogsTable.ActionOptionSelects | src/components/layout/auditlogtable/AuditLogsTable.jsx:53-67 | Choosing an offered action lists exactly the searched logs with that action, and at least one when the search is empty. |
| ProductsTable.HandleSort | src/components/layout/Products/ProductsTable.jsx:29-36 | Sorting on the current field flips the direction. Sorting on another field switches to it, ascending. |
| ProductsTable.HandleSortTwice | src/components/layout/Products/ProductsTable.jsx:29-36 | Two clicks on the sorted header restore the state. Going to another header and back lands on ascending. |
| ProductsTable.FilteredProducts | src/components/layout/Products/ProductsTable.jsx:38-54 | The rows are the products whose lower-cased name contains the lower-cased search, each as often as in the store, sorted by the chosen field in the chosen direction, strings compared case-insensitively. |
| ProductsTable.EmptySearchListsAll | src/components/layout/Products/ProductsTable.jsx:38-41 | An empty search lists every product, as a permutation of the store list. |
| ProductsTable.NameOrderIgnoresCase | src/components/layout/Products/ProductsTable.jsx:46-52 | In the initial name sort, adjacent rows are ordered by lower-cased name. |
| VendorPurchasePage.CurrentVendors | src/pages/VendorPurchasePage.jsx:42-44 | The page is at most 6 vendors, row `j` being vendor `(p-1)·6 + j`, and non-empty on every page in range. |
| VendorPurchasePage.RowNumbersRunOn | src/pages/VendorPurchasePage.jsx:42-94 | Vendor `i` appears on page `i/6 + 1`, row `i % 6`, numbered `i + 1`, so numbering is consecutive across pages. |
| VendorPurchasePage.PageButtons | src/pages/VendorPurchasePage.jsx:157-169 | The buttons are exactly `1..totalPages`. |
| VendorPurchasePage.ControlsShown | src/pages/VendorPurchasePage.jsx:146 | The controls are shown if and only if there are more than 6 vendors. |
| VendorPurchasePage.Previous | src/pages/VendorPurchasePage.jsx:151-152 | Previous is disabled on page 1, and otherwise goes back one page. |
| VendorPurchasePage.Next | src/pages/VendorPurchasePage.jsx:174-175 | Next is disabled on the last page, and otherwise goes forward one page. |
| VendorPurchasePage.ClicksStayInRange | src/pages/VendorPurchasePage.jsx:148-176 | From a page in range, every click keeps the page in range and showing at least one vendor. |
| SalesPurchasePage.NewTransaction | src/pages/SalesPurchasePage.jsx:30-53 | The new transaction has the handler's type ("sale" or "purchase"), today's date and the given id, with its amount and quantity parsed. |
| SalesPurchasePage.Submit | src/pages/SalesPurchasePage.jsx:28-56 | The new transaction is prepended, the earlier ones follow unchanged, and the form is cleared. |
| SalesPurchasePage.Entries | src/pages/SalesPurchasePage.jsx:64-75 | One chart entry per transaction, in order: its day, whether it is a sale, and its amount. |
| SalesPurchasePage.KindTotal | src/pages/SalesPurchasePage.jsx:58-59 | A type's total is `NaN` if and only if some amount of that type is, and otherwise the sum of that type's amounts. |
| SalesPurchasePage.NetProfit | src/pages/SalesPurchasePage.jsx:60 | The net profit is sales − purchases, and `NaN` when either is. |
| SalesPurchasePage.KindTotalPrepend | src/pages/SalesPurchasePage.jsx:39-59 | A prepended transaction adds its amount to its own type's total, or makes that total `NaN`, and leaves the other total alone. |
| SalesPurchasePage.SubmitUpdatesTotals | src/pages/SalesPurchasePage.jsx:39-60 | Recording a sale or purchase changes only its own type's total, by its amount. |
| SalesPurchasePage.DayPoints | src/pages/SalesPurchasePage.jsx:63-81 | One point per day on which something was recorded, no day twice, each with that day's sale and purchase sums. Anything not a sale counts as a purchase. |
| SalesPurchasePage.DayPointsSums | src/pages/SalesPurchasePage.jsx:64-75 | When no amount is `NaN`, the points' sums equal the day buckets' sums. |
| SalesPurchasePage.ChartData | src/pages/SalesPurchasePage.jsx:62-83 | The chart is a permutation of the day points: distinct days, exactly the recorded ones, each with its sums, in order of the day's instant. |
| SalesPurchasePage.ChartAgreesWithTotals | src/pages/SalesPurchasePage.jsx:58-75 | When the sales total is a number, every day's sales is a number and they add up to it. The same holds for purchases. |
| SalesPurchasePage.NumericTotalUnpoisoned | src/pages/SalesPurchasePage.jsx:58-73 | A numeric total means no amount of that type is `NaN` on any day. |
| SalesPurchasesChart.Category | src/components/layout/DashboardPage/SalesPurchasesChart.jsx:25-34 | An item without a category, or with an empty one, is filed under "Others". |
| SalesPurchasesChart.ItemEntries | src/components/layout/DashboardPage/SalesPurchasesChart.jsx:24-38 | A document without items contributes nothing. Otherwise it contributes one `quantity × price` amount per item, under its category. |
| SalesPurchasesChart.DocEntries | src/components/layout/DashboardPage/SalesPurchasesChart.jsx:23-32 | Every amount from the sales is a sale, and every amount from the purchases is a purchase. |
| SalesPurchasesChart.Slices | src/components/layout/DashboardPage/SalesPurchasesChart.jsx:41-45 | Each category gives exactly two slices, "(Sales)" then "(Purchases)", with its two totals. |
| SalesPurchasesChart.MergedData | src/components/layout/DashboardPage/SalesPurchasesChart.jsx:20-48 | There are two slices per category. |
| SalesPurchasesChart.OnePairPerCategory | src/components/layout/DashboardPage/SalesPurchasesChart.jsx:23-45 | The categories are exactly those some item falls under, each once. Its slices hold the sum of `quantity × unit_price` over its sale items and of `quantity × unit_cost` over its purchase items. |
| SalesPurchasesChart.SlicesSum | src/components/layout/DashboardPage/SalesPurchasesChart.jsx:41-45 | The slices add up to all bucketed sales plus purchases. |
| SalesPurchasesChart.PieIsEverything | src/components/layout/DashboardPage/SalesPurchasesChart.jsx:20-48 | The whole pie is the sum over every sale and purchase item of `quantity × price`. |
| SalesPurchasesChart.EmptyDocContributesNothing | src/components/layout/DashboardPage/SalesPurchasesChart.jsx:24-33 | A sale or purchase without items, or with an empty list, changes nothing in the pie. |
| Grouping.Group | src/pages/SalesPurchasePage.jsx:63-75 | Bucketing by key gives one bucket per distinct key, in order of first appearance, each holding exactly the amounts filed under its key. |
| Grouping.GroupTotals | src/components/layout/DashboardPage/SalesPurchasesChart.jsx:21-39 | Bucketing loses and duplicates nothing: the buckets' totals equal the entries' totals. |
| Paging.JsSlice | src/pages/order/OrdersPage.jsx:97 | `slice` gives the window between the normalised bounds, element by element: its length is their difference (or 0), and row `j` is input row `start + j`. |
| Paging.TotalPages | src/pages/order/OrdersPage.jsx:98 | `Math.ceil(n / size)` is the least page count whose pages hold `n` rows. |
| Paging.Page | src/pages/branches/BranchesComponent.jsx:52-53 | A page holds at most `size` rows, row `j` being row `(p-1)·size + j`, and is non-empty on every page in range. |
| Paging.RowOnPage | src/pages/VendorPurchasePage.jsx:42-45 | Row `i` is row `i % size` of page `i / size + 1`, which is within `totalPages`. |
| Paging.PrevPage | src/components/layout/auditlogtable/AuditLogsTable.jsx:188 | `Math.max(p - 1, 1)` goes back one page from any page after the first, and gives 1 from page 1 or below. |
| Paging.NextPage | src/components/layout/auditlogtable/AuditLogsTable.jsx:202 | `Math.min(p + 1, totalPages)` goes forward one page while that page exists, and gives `totalPages` otherwise, so the last page stays put. |
| Text.IncludesIff | src/pages/order/OrdersPage.jsx:88-90 | `includes` holds exactly when the needle occurs at some position. |
| Text.ContainsCIEmpty | src/pages/branches/BranchesComponent.jsx:45-46 | Every text contains the empty search. |
| Text.LowerStrIdempotent | src/components/layout/Products/ProductsTable.jsx:40 | Lower-casing twice is lower-casing once. |
| Text.ParseShowInt | src/components/layout/vendors/PurchaseForm.jsx:46-48 | `parseInt(String(n))` is `n`, so an option value names the id it was made from. |
| Text.ParseDigits | src/components/layout/vendors/PurchaseForm.jsx:67-73 | `parseInt` of a run of digits is its decimal value. |
| Sorting.SortBy | src/components/layout/Products/ProductsTable.jsx:42-54 | The sort returns a permutation of its input in which no row goes strictly before the row preceding it. |

## Left out

- HTTP transport, endpoints and headers are left out. A request is modelled by its reply (`Ok` / `Fail` with the error body and message), and the server is a function parameter.
- `localStorage` is modelled only in the auth slice, as a map. The sale, purchase and ledger thunks read the token from it only to build a header, which is left out.
- Concurrency is left out: interleaved thunks, a fetch racing a delete, concurrent refreshes. Every operation is one sequential call.
- Rendering, routing, hooks and toasts are left out, as are the files that only render, copy form fields or show demo data. These include `App.jsx`, `main.jsx`, the layout and header components, `Products/POS.jsx`, `FormProduct.jsx`, `ProductUpdate.jsx`, `AddBranches.jsx`, `UpdateBranch.jsx`, `AddVendor.jsx`, `Login.jsx`, `SignUp.jsx`, `Reports.jsx`, the dashboard pages, `TablesDemo.jsx`, `SalesPage.jsx`, `PurchasePage.jsx`, `WeeklyCombinedChart.jsx`, `CircularProgress.jsx` and `store/store.js`.
- Floating point is left out. Money is whole numbers, `parseFloat` reads like `parseInt`, and `NaN` is `None`. Fractional prices and rounding are not modelled.
- Dates are left out. `new Date(...)`, `toLocaleDateString` and `Date.now()` become parameters: the day text, the id and the `dayTime` instant. An unparsable date, which makes the comparator return `NaN`, is not modelled.
- Non-ASCII case mapping is left out. `toLowerCase` / `toUpperCase` change only `A`–`Z` / `a`–`z`. String `<` compares characters, which agrees with UTF-16 code units only outside surrogate pairs.
- Sorting.SortBy is a stable insertion sort and its contract states order and permutation. The exact order of rows the comparator calls equal may differ from the engine's `Array.prototype.sort`.
- Text.ParseInt reads decimal text only. JS `parseInt` without a radix reads a `0x` / `0X` prefix as hexadecimal ("0x1A" is 26); here it gives 0. The values parsed come from select options and number inputs.
- TokenRefresh.WithAuth models the server as a function of the access token sent, so a retry with an unchanged token gets the same reply as the first request. A real server may answer the two differently; that is not modelled.
- ProductsTable.SortKey lower-cases each string value on its own. The source lower-cases both sides when the first is a string and throws when the second is not. Mixed-type columns and the `<` coercions between a string and a number are not modelled: such pairs never compare as less. A field present with the value `null` reads as missing, though JS `<` converts `null` to 0 (`null < 5` holds), so rows with null values may sort differently.
- SalesPurchasesChart.ItemEntries assumes every category is an own key of a fresh map. The source's `categoryTotals` is a plain `{}` tested with `!categoryTotals[cat]`. A category named after an inherited property, such as "constructor", "toString" or "__proto__", finds that property, gets no entry of its own, and is missing from `Object.entries` and the pie. That case is not modelled.
- SalesPurchasesChart.ItemEntries takes quantity and price as whole numbers. A missing `quantity`, `unit_price` or `unit_cost` makes the source's product `NaN`, which then poisons that category's slice. That `NaN` is not modelled here, unlike in SalesPurchasePage.
- SalesPurchasesChart.Slices keeps categories in first-appearance order. `Object.entries` puts integer-like keys first in ascending order; that ordering is not modelled.
- The product add/update and branch add/update thunks also chain `.then((res) => res.data)`. On a rejection they fulfil with `undefined`, which the reducer then pushes or looks up. Only the fetch and delete effect is modelled, as a finding; the `undefined` record is not.
- BranchSlice.Reduce takes the fetched list as given. A fetch rejected inside `withAuth` fulfils with `undefined` here too, and the source stores that as `data`. The model has no `undefined` list.
- StockSlice.Reduce assumes the delete body is an object. A `null` body, which would throw inside the reducer, is not modelled.
- AuditLogsTable.UniqueActions does not state the order of the options. `new Set` keeps first-appearance order; the contract states only no duplicates and exactly the occurring actions.
- AuditLogsTable.UniqueActions takes the logs as a list. The page itself keeps the raw response, and `logs.map` throws when the server sends the paginated object form.
- AuditLogsTable: changing the page size does not reset the page. The model takes the page as chosen, and the range lemmas assume it is in range.
- BranchesPage: a new search does not reset the page. The range lemmas assume a page in range.
- VendorPurchasePage: the page is not clamped after a delete. The range lemmas assume a page in range.
- SaleForm.Item holds the quantity as the number the input shows. The input's text, and `parseInt` of it at submit, are not modelled.
- BranchStock: the single-row delete's `if (deleteTarget)` skips an id of 0. That delete, the refetch after a delete, the toasts, and the clearing of the selection and the dialog are not modelled. The bulk delete is modelled only by its effect on the stock slice.
- `console.log` calls and the invoice number's `Math.random()` are left out.

## Findings

| source | as written | input that shows it | evidently intended | confidence | as-written member | corrected member |
|---|---|---|---|---|---|---|
| store/newproductSlice.js:30-57 | `await withAuth(...).then(...)` applies the callback to the `rejectWithValue` result too, so fetch and delete always fulfil | delete of product 5 refused by the server (403): 5 is removed locally and no error is set; a refused fetch empties the catalogue with `error` null | a refusal rejects the thunk and keeps the list, as the vendor thunks do | not executed | ProductSlice.DeleteRefusedRemovesLocally | ProductSlice.IntendedKeepsListOnRefusal |
| store/slices/branchSlice.js:84 | `.then(() => id)` turns every settled delete into a fulfilled one | delete of branch 3 refused by the server: branch 3 disappears from the list until the next fetch | a refused delete rejects and the list is kept | not executed | BranchSlice.RefusedDeleteDropsBranch | BranchSlice.IntendedDeleteRemovesIffAccepted |
| store/slices/stockSlice.js:49-98 | the delete fulfils with the response body and the reducer filters on `body.id` | the server answers `204 No Content` (empty body) to deleting movement 9: movement 9 stays in the list | remove the movement whose id was requested | not executed | StockSlice.AcceptedDeleteWithEmptyBodyKeepsMovement | StockSlice.IntendedDeleteRemoves |
| src/pages/order/OrdersPage.jsx:179 | typing a search keeps the current page | the page's seven fixed orders: Next to page 2, then the search "card", which matches ORD-002, ORD-005 and ORD-006: no rows are shown and the line reads "Showing 6 to 3 of 3 results" | reset to page 1 on a new search, as the ledger table does. The status select (OrdersPage.jsx:188) has the same missing reset and is not modelled separately | not executed | OrdersPage.StalePageAfterSearch | OrdersPage.IntendedSearchShowsResults |
| src/pages/branchStock/BranchStock.jsx:74 | `toggleSelectAll` compares only the number of selected ids with the number of rows on the page. The defect is latent: no control calls the handler, since the only checkbox (BranchStock.jsx:182-184) calls `toggleSelect` | a direct call of `toggleSelectAll()` with `selectedMovements` = [1] while `paginatedData` holds only movement 7: the selection is cleared and 7 is not selected | clear only when every row of the page is selected, and otherwise select the page | not executed | BranchStock.SelectAllClearsForeignSelection | BranchStock.IntendedSelectAllSelectsPage |

=== FILE: add_order.dfy ===
/**
 * The new-order page: a draft item (name, quantity, price) that is added to
 * the order only when it has a name and a positive price, removal of an item
 * by position, and the order total kept equal to the sum of quantity times
 * price.
 */
module AddOrder {
  import opened Seqs

  datatype OrderItem = OrderItem(name: string, qty: int, price: int)

  /** The order being written; its date and time come from the clock and are
      not modelled. */
  datatype Order = Order(customer: string, status: string, payment: string, items: seq<OrderItem>, total: int)

  /** The draft the item inputs start from and are reset to. */
  const BlankDraft: OrderItem := OrderItem("", 1, 0)

  function Amount(item: OrderItem): int {
    item.qty * item.price
  }

  /** The page's starting order: no items, total 0. */
  function InitialOrder(): (o: Order)
    ensures o.items == [] && o.total == 0 && o.status == "Pending" && o.payment == "Cash"
    ensures Consistent(o)
  {
    Order("", "Pending", "Cash", [], 0)
  }

  /** The total is the sum of quantity times price over the items. */
  ghost predicate Consistent(o: Order) {
    o.total == Sum(o.items, Amount)
  }

  /** Every item was accepted by the add guard. */
  ghost predicate Accepted(o: Order) {
    forall i :: 0 <= i < |o.items| ==> o.items[i].name != "" && o.items[i].price > 0
  }

  /** `handleAddItem()`: the new order and the new draft. */
  function AddItem(o: Order, draft: OrderItem): (r: (Order, OrderItem))
    ensures draft.name == "" || draft.price <= 0 ==> r == (o, draft)
    ensures draft.name != "" && draft.price > 0 ==>
      r.0.items == o.items + [draft] && r.1 == BlankDraft &&
      r.0.customer == o.customer && r.0.status == o.status && r.0.payment == o.payment
  {
    if draft.name == "" || draft.price <= 0 then (o, draft)
    else
      var items := o.items + [draft];
      (o.(items := items, total := Sum(items, Amount)), BlankDraft)
  }

  /** `handleRemoveItem(index)` */
  function RemoveItem(o: Order, index: int): (r: Order)
    ensures r.items == RemoveAt(o.items, index)
    ensures r.customer == o.customer && r.status == o.status && r.payment == o.payment
  {
    var items := RemoveAt(o.items, index);
    o.(items := items, total := Sum(items, Amount))
  }

  /** Adding keeps the total equal to the sum and accepts only named,
      positively priced items; a valid add raises the total by the new item's
      amount. */
  lemma AddItemKeepsInvariant(o: Order, draft: OrderItem)
    requires Consistent(o) && Accepted(o)
    ensures Consistent(AddItem(o, draft).0) && Accepted(AddItem(o, draft).0)
    ensures draft.name != "" && draft.price > 0 ==> AddItem(o, draft).0.total == o.total + Amount(draft)
  {
    SumSnoc(o.items, draft, Amount);
  }

  /** Removing keeps the total equal to the sum, and takes off exactly the
      removed item's amount. */
  lemma RemoveItemKeepsInvariant(o: Order, index: int)
    requires Consistent(o) && Accepted(o)
    ensures Consistent(RemoveItem(o, index)) && Accepted(RemoveItem(o, index))
    ensures 0 <= index < |o.items| ==> RemoveItem(o, index).total == o.total - Amount(o.items[index])
    ensures !(0 <= index < |o.items|) ==> RemoveItem(o, index) == o
  {
    if 0 <= index < |o.items| {
      SumRemoveAt(o.items, index, Amount);
    }
  }
}

=== FILE: audit_logs_slice.dfy ===
/**
 * The audit-log slice: one fetch thunk that normalises the response to a
 * list, the `clearAuditLogs` reducer, and the fetch reducers over
 * `{ logs, loading, error }`.
 */
module AuditLogsSlice {
  import opened Wrappers
  import opened Text
  import opened Http
  import opened ResourceSlice

  const FetchFallback: string := "Failed to fetch audit logs"

  datatype Action<L> =
    | FetchPending
    | FetchFailed(message: string)
    | Fetched(list: seq<L>)
    | ClearAuditLogs

  function Reduce<L>(s: State<L>, a: Action<L>): (r: State<L>)
    ensures a.FetchPending? ==> r.data == s.data && r.loading && r.error.None?
    ensures a.FetchFailed? ==>
      r.data == s.data && !r.loading &&
      r.error == Some(Message(if a.message != "" then a.message else FetchFallback))
    ensures a.Fetched? ==> r.data == a.list && !r.loading && r.error == s.error
    ensures a.ClearAuditLogs? ==> r == Initial()
  {
    match a
    case FetchPending => SetPending(s, true)
    case FetchFailed(m) => SetRejected(s, Message(OrElse(Some(m), FetchFallback)))
    case Fetched(list) => s.(loading := false, data := list)
    case ClearAuditLogs => State([], false, None)
  }

  /** `fetchAuditLogs()`: the normalised list, or a rejection with
      `detail || message || "Failed to fetch audit logs"`. */
  function FetchThunk<L>(reply: Reply<Listing<L>>): (a: Action<L>)
    ensures reply.Ok? ==> a == Fetched(Normalise(reply.data))
    ensures reply.Fail? ==> a == FetchFailed(DetailOr(reply.err, FetchFallback))
    ensures a.FetchFailed? ==> a.message != ""
  {
    match reply
    case Ok(body) => Fetched(Normalise(body))
    case Fail(err) => FetchFailed(DetailOr(err, FetchFallback))
  }

  /** A full fetch: after `pending` and the thunk's outcome, loading is over and
      either the logs are the normalised response or the error is set and the
      old logs are kept. */
  lemma FetchCycle<L>(s: State<L>, reply: Reply<Listing<L>>)
    ensures var r := Reduce(Reduce(s, FetchPending), FetchThunk(reply));
      !r.loading &&
      (reply.Ok? ==> r.data == Normalise(reply.data) && r.error.None?) &&
      (reply.Fail? ==> r.data == s.data && r.error == Some(Message(DetailOr(reply.err, FetchFallback))))
  {
  }

  /** Clearing forgets everything a fetch did. */
  lemma ClearForgets<L>(s: State<L>, a: Action<L>)
    ensures Reduce(Reduce(s, a), ClearAuditLogs) == Reduce(s, ClearAuditLogs)
  {
  }
}

=== FILE: audit_logs_table.dfy ===
/**
 * The audit-log table: a case-insensitive search over user name, action and
 * model, an action filter chosen from the actions present, a sort on the
 * timestamp in either direction, a page size of the user's choice, and
 * Previous and Next.
 *
 * Timestamps are held as the instants `new Date(...)` gives, in
 * milliseconds; parsing the date text is not modelled.
 */
module AuditLogsTable {
  import opened Wrappers
  import opened Text
  import opened Seqs
  import opened Paging
  import opened Sorting

  /** A log row; the user, and the user's name, may be missing. */
  datatype Log = Log(id: int, username: Option<string>, action: string, modelName: string, timestamp: int)

  /** The page sizes the select offers; the first is the initial one. */
  const PageSizes: seq<nat> := [5, 10, 20, 50]

  /** What the user has chosen. An empty action filter means every action. */
  datatype View = View(search: string, actionFilter: string, sortAsc: bool, page: int, pageSize: nat)

  function InitialView(): (v: View)
    ensures v.pageSize in PageSizes && v.page == 1 && v.sortAsc
  {
    View("", "", true, 1, 5)
  }

  /** The filter callback: `log.user?.username?...includes(...)` is falsy for
      a missing name, and an empty action filter is falsy too. */
  predicate Matches(l: Log, search: string, actionFilter: string) {
    ((l.username.Some? && ContainsCI(l.username.value, search)) ||
     ContainsCI(l.action, search) || ContainsCI(l.modelName, search)) &&
    (actionFilter == "" || l.action == actionFilter)
  }

  function Kept(logs: seq<Log>, v: View): (r: seq<Log>)
    ensures forall l :: multiset(r)[l] == if Matches(l, v.search, v.actionFilter) then multiset(logs)[l] else 0
  {
    var keep := (l: Log) => Matches(l, v.search, v.actionFilter);
    FilterMultiset(logs, keep);
    Filter(logs, keep)
  }

  function TimeKey(l: Log): Key {
    Num(l.timestamp)
  }

  /** `filteredLogs`: the kept logs, each as often as in the list, ordered by
      timestamp, oldest first when `sortAsc` and newest first otherwise. */
  function FilteredLogs(logs: seq<Log>, v: View): (r: seq<Log>)
    ensures multiset(r) == multiset(Kept(logs, v))
    ensures forall l :: l in r <==> l in logs && Matches(l, v.search, v.actionFilter)
    ensures v.sortAsc ==> forall i :: 0 <= i < |r| - 1 ==> r[i].timestamp <= r[i + 1].timestamp
    ensures !v.sortAsc ==> forall i :: 0 <= i < |r| - 1 ==> r[i].timestamp >= r[i + 1].timestamp
  {
    var k := Kept(logs, v);
    var r := SortBy(k, TimeKey, v.sortAsc);
    TimeOrdered(r, v.sortAsc);
    PermutationMembers(r, k);
    r
  }

  /** Rows sorted on `TimeKey` have their timestamps in order. */
  lemma TimeOrdered(r: seq<Log>, asc: bool)
    requires SortedBy(r, TimeKey, asc)
    ensures asc ==> forall i :: 0 <= i < |r| - 1 ==> r[i].timestamp <= r[i + 1].timestamp
    ensures !asc ==> forall i :: 0 <= i < |r| - 1 ==> r[i].timestamp >= r[i + 1].timestamp
  {
    forall i | 0 <= i < |r| - 1
      ensures asc ==> r[i].timestamp <= r[i + 1].timestamp
      ensures !asc ==> r[i].timestamp >= r[i + 1].timestamp
    {
      assert !Before(TimeKey(r[i + 1]), TimeKey(r[i]), asc);
    }
  }

  /** With no search and no action filter every log is listed, as often as it
      occurs. */
  lemma NoFilterListsAll(logs: seq<Log>, v: View)
    requires v.search == "" && v.actionFilter == ""
    ensures multiset(FilteredLogs(logs, v)) == multiset(logs)
  {
    forall l | true ensures Matches(l, "", "") {
      ContainsCIEmpty(l.action);
    }
  }

  /** Flipping the sort order lists the same logs. */
  lemma SortOrderKeepsRows(logs: seq<Log>, v: View)
    ensures multiset(FilteredLogs(logs, v.(sortAsc := !v.sortAsc))) == multiset(FilteredLogs(logs, v))
  {
  }

  /** `totalPages` */
  function TotalPagesOf(logs: seq<Log>, v: View): nat
    requires v.pageSize > 0
  {
    TotalPages(|FilteredLogs(logs, v)|, v.pageSize)
  }

  /** `paginatedLogs`: at most a page of the sorted logs, none of them
      unlisted, and at least one on every page up to the last. */
  function PaginatedLogs(logs: seq<Log>, v: View): (r: seq<Log>)
    requires v.pageSize > 0
    ensures |r| <= v.pageSize
    ensures forall l :: l in r ==> l in FilteredLogs(logs, v)
    ensures 1 <= v.page <= TotalPagesOf(logs, v) ==> |r| > 0
  {
    var f := FilteredLogs(logs, v);
    WindowBounds(|f|, v.page, v.pageSize);
    Page(f, v.page, v.pageSize)
  }

  /** Every listed log is on exactly the page its position gives. */
  lemma EveryLogOnSomePage(logs: seq<Log>, v: View, i: int)
    requires v.pageSize > 0 && 0 <= i < |FilteredLogs(logs, v)|
    ensures var w := v.(page := i / v.pageSize + 1);
      1 <= w.page <= TotalPagesOf(logs, v) &&
      i % v.pageSize < |PaginatedLogs(logs, w)| &&
      PaginatedLogs(logs, w)[i % v.pageSize] == FilteredLogs(logs, v)[i]
  {
    RowOnPage(FilteredLogs(logs, v), i, v.pageSize);
    var w := v.(page := i / v.pageSize + 1);
    assert FilteredLogs(logs, w) == FilteredLogs(logs, v);
  }

  function Previous(v: View): View {
    v.(page := PrevPage(v.page))
  }

  function Next(logs: seq<Log>, v: View): View
    requires v.pageSize > 0
  {
    v.(page := NextPage(v.page, TotalPagesOf(logs, v)))
  }

  /** Previous and Next keep a page that is in range in range, and never show
      an empty page while there are logs. */
  lemma PagingStaysInRange(logs: seq<Log>, v: View)
    requires v.pageSize > 0 && 1 <= v.page <= TotalPagesOf(logs, v)
    ensures 1 <= Previous(v).page <= TotalPagesOf(logs, v)
    ensures 1 <= Next(logs, v).page <= TotalPagesOf(logs, v)
    ensures |PaginatedLogs(logs, Previous(v))| > 0 && |PaginatedLogs(logs, Next(logs, v))| > 0
  {
    assert FilteredLogs(logs, Previous(v)) == FilteredLogs(logs, v);
    assert FilteredLogs(logs, Next(logs, v)) == FilteredLogs(logs, v);
  }

  /** `uniqueActions`: the actions of all the logs, each once. */
  function UniqueActions(logs: seq<Log>): (r: seq<string>)
    ensures NoDup(r)
    ensures forall a :: a in r <==> exists l :: l in logs && l.action == a
  {
    var actions := seq(|logs|, i requires 0 <= i < |logs| => logs[i].action);
    forall a | a in actions ensures exists l :: l in logs && l.action == a {
      var i :| 0 <= i < |logs| && actions[i] == a;
      assert logs[i] in logs;
    }
    forall l | l in logs ensures l.action in actions {
      var i :| 0 <= i < |logs| && logs[i] == l;
      assert actions[i] == l.action;
    }
    Distinct(actions)
  }

  /** Choosing an action from the select lists exactly the searched logs with
      that action, and at least one log when the search is empty. An empty
      action would read as "All Actions". */
  lemma ActionOptionSelects(logs: seq<Log>, v: View, a: string)
    requires a in UniqueActions(logs) && v.actionFilter == a
    ensures a != "" ==> forall l :: l in FilteredLogs(logs, v) <==>
      l in logs && l.action == a && Matches(l, v.search, "")
    ensures v.search == "" ==> |FilteredLogs(logs, v)| > 0
  {
    var f := FilteredLogs(logs, v);
    if a != "" {
      forall l ensures Matches(l, v.search, a) <==> l.action == a && Matches(l, v.search, "") {
      }
    }
    if v.search == "" {
      var l :| l in logs && l.action == a;
      ContainsCIEmpty(l.action);
      assert Matches(l, v.search, a);
      assert l in f;
    }
  }
}

=== FILE: auth_slice.dfy ===
/**
 * The auth slice: the token pair and user, mirrored into `localStorage`; the
 * `setTokens`, `setUser` and `logout` reducers; the login and register thunks
 * with their `pending`/`fulfilled`/`rejected` reducers.
 *
 * `localStorage` is a map from keys to strings. A reducer's storage writes are
 * part of its result.
 */
module AuthSlice {
  import opened Wrappers
  import opened Text
  import opened Http
  import opened TokenRefresh

  const AccessKey: string := "accessToken"
  const RefreshKey: string := "refreshToken"
  const LoginFallback: string := "Login failed"
  const SignupFallback: string := "Signup failed"

  type Storage = map<string, string>

  datatype AuthState<U> = AuthState(tokens: Tokens, user: Option<U>, loading: bool, error: Option<ErrorValue>)

  /** The auth state together with the storage it mirrors its tokens into. */
  datatype Store<U> = Store(auth: AuthState<U>, storage: Storage)

  /** `localStorage.removeItem` of both token keys. */
  function ClearTokens(m: Storage): Storage {
    m - {AccessKey, RefreshKey}
  }

  /** `localStorage.setItem(key, value)` stores `String(value)`: an absent
      token is stored as the text `"undefined"`. */
  function Stored(o: Option<string>): (v: string)
    ensures o.Some? ==> v == o.value
    ensures o.None? ==> v == "undefined"
  {
    o.GetOr("undefined")
  }

  /** `localStorage.getItem(key) || null` */
  function ReadKey(storage: Storage, key: string): (o: Option<string>)
    ensures o.Some? <==> key in storage && storage[key] != ""
    ensures o.Some? ==> o.value == storage[key]
  {
    if key in storage && storage[key] != "" then Some(storage[key]) else None
  }

  /** The slice's `initialState`, read from storage when the app loads. */
  function InitialState<U>(storage: Storage): AuthState<U> {
    AuthState(Tokens(ReadKey(storage, AccessKey), ReadKey(storage, RefreshKey)), None, false, None)
  }

  datatype Op = Login | Register

  datatype Action<U> =
    | SetTokens(tokens: Tokens)
    | SetUser(user: U)
    | Logout
    | Pending(op: Op)
    | Succeeded(op: Op)
    | Failed(op: Op, payload: ErrorValue)

  /** `action.payload.detail || action.payload`, the error a rejection records. */
  function ErrorOf(payload: ErrorValue): (e: ErrorValue)
    ensures payload.Data? && Truthy(payload.body.detail) ==> e == Message(payload.body.detail.value)
    ensures !(payload.Data? && Truthy(payload.body.detail)) ==> e == payload
  {
    if payload.Data? && Truthy(payload.body.detail) then Message(payload.body.detail.value) else payload
  }

  function Reduce<U>(st: Store<U>, a: Action<U>): (r: Store<U>)
    ensures a.SetTokens? ==>
      r.auth == st.auth.(tokens := a.tokens) &&
      r.storage == st.storage[AccessKey := Stored(a.tokens.access)][RefreshKey := Stored(a.tokens.refresh)]
    ensures a.SetUser? ==> r.auth == st.auth.(user := Some(a.user)) && r.storage == st.storage
    ensures a.Logout? ==>
      r.auth.tokens == Tokens(None, None) && r.auth.user.None? &&
      r.auth.loading == st.auth.loading && r.auth.error == st.auth.error &&
      r.storage == ClearTokens(st.storage)
    ensures a.Pending? ==>
      r.auth == st.auth.(loading := true, error := None) && r.storage == st.storage
    ensures a.Succeeded? ==> r.auth == st.auth.(loading := false) && r.storage == st.storage
    ensures a.Failed? ==>
      r.auth == st.auth.(loading := false, error := Some(ErrorOf(a.payload))) && r.storage == st.storage
  {
    match a
    case SetTokens(t) =>
      Store(st.auth.(tokens := t),
            st.storage[AccessKey := Stored(t.access)][RefreshKey := Stored(t.refresh)])
    case SetUser(u) => st.(auth := st.auth.(user := Some(u)))
    case Logout =>
      Store(st.auth.(tokens := Tokens(None, None), user := None), ClearTokens(st.storage))
    case Pending(_) => st.(auth := st.auth.(loading := true, error := None))
    case Succeeded(_) => st.(auth := st.auth.(loading := false))
    case Failed(_, p) => st.(auth := st.auth.(loading := false, error := Some(ErrorOf(p))))
  }

  /** Dispatches a list of actions in order. */
  function ReduceAll<U>(st: Store<U>, actions: seq<Action<U>>): Store<U>
    decreases |actions|
  {
    if |actions| == 0 then st else ReduceAll(Reduce(st, actions[0]), actions[1..])
  }

  /** Helper of the login lemmas: dispatching two to four actions, unfolded
      step by step. */
  lemma ReduceAllSteps<U>(st: Store<U>, actions: seq<Action<U>>)
    requires 2 <= |actions| <= 4
    ensures var s2 := Reduce(Reduce(st, actions[0]), actions[1]);
      ReduceAll(st, actions) ==
        if |actions| == 2 then s2
        else if |actions| == 3 then Reduce(s2, actions[2])
        else Reduce(Reduce(s2, actions[2]), actions[3])
  {
    var s1 := Reduce(st, actions[0]);
    var s2 := Reduce(s1, actions[1]);
    assert ReduceAll(st, actions) == ReduceAll(s1, actions[1..]);
    assert actions[1..][1..] == actions[2..];
    assert ReduceAll(s1, actions[1..]) == ReduceAll(s2, actions[2..]);
    if |actions| >= 3 {
      var s3 := Reduce(s2, actions[2]);
      assert actions[2..][1..] == actions[3..];
      assert ReduceAll(s2, actions[2..]) == ReduceAll(s3, actions[3..]);
      if |actions| == 4 {
        assert actions[3..][1..] == [];
        assert ReduceAll(s3, actions[3..]) == ReduceAll(Reduce(s3, actions[3]), []);
      }
    }
  }

  /** Tokens written by `setTokens` are the tokens the next load starts from,
      when both are present and non-empty. */
  lemma ReloadAfterSetTokens<U>(st: Store<U>, t: Tokens)
    requires Truthy(t.access) && Truthy(t.refresh)
    ensures InitialState<U>(Reduce(st, SetTokens(t)).storage).tokens == t
  {
  }

  /** After `logout` the next load starts signed out. */
  lemma ReloadAfterLogout<U>(st: Store<U>)
    ensures InitialState<U>(Reduce(st, Logout).storage).tokens == Tokens(None, None)
  {
  }

  /** A refresh reply without `access` is stored as the text `"undefined"`,
      which the next load reads back as a present access token. */
  lemma MissingAccessSurvivesReload<U>(st: Store<U>, refresh: Option<string>)
    ensures InitialState<U>(Reduce(st, SetTokens(Tokens(None, refresh))).storage).tokens.access == Some("undefined")
  {
  }

  /** The `setTokens` that `withAuth` dispatches after a refresh changes only
      the access token; the refresh token, the user and the flags stay. */
  lemma RefreshDispatchKeepsRefreshToken<U, V>(st: Store<U>, request: Option<string> -> Reply<V>,
                                               refresh: string -> RefreshReply)
    requires WithAuth(st.auth.tokens, request, refresh).dispatched.Some?
    ensures var t := WithAuth(st.auth.tokens, request, refresh).dispatched.value;
      var r := Reduce(st, SetTokens(t));
      r.auth.tokens.refresh == st.auth.tokens.refresh &&
      r.auth.tokens.access == refresh(st.auth.tokens.refresh.value).access &&
      r.auth.user == st.auth.user && r.auth.loading == st.auth.loading && r.auth.error == st.auth.error
  {
    var t := st.auth.tokens;
    var run := WithAuth(t, request, refresh);
    assert request(t.access).Fail? && TokenNotValid(request(t.access).err) && Truthy(t.refresh);
  }

  // ---------------------------------------------------------------------
  // Thunks

  /** The body of a successful login: the token pair. */
  datatype LoginBody = LoginBody(access: Option<string>, refresh: Option<string>)

  /** `loginUser(...)`: the actions it dispatches, in order. The tokens are
      stored before the user is fetched with the new access token. */
  function LoginUser<U>(login: Reply<LoginBody>, fetchUser: Option<string> -> Reply<U>): (actions: seq<Action<U>>)
    ensures |actions| >= 2 && actions[0] == Pending(Login)
    ensures login.Fail? ==> actions == [Pending(Login), Failed(Login, DataOr(login.err, LoginFallback))]
    ensures login.Ok? ==> actions[1] == SetTokens(Tokens(login.data.access, login.data.refresh))
    ensures login.Ok? && fetchUser(login.data.access).Ok? ==>
      actions == [Pending(Login), actions[1], SetUser(fetchUser(login.data.access).data), Succeeded(Login)]
    ensures login.Ok? && fetchUser(login.data.access).Fail? ==>
      actions == [Pending(Login), actions[1], Failed(Login, DataOr(fetchUser(login.data.access).err, LoginFallback))]
  {
    match login
    case Fail(err) => [Pending(Login), Failed(Login, DataOr(err, LoginFallback))]
    case Ok(body) =>
      var store := SetTokens(Tokens(body.access, body.refresh));
      match fetchUser(body.access)
      case Ok(u) => [Pending(Login), store, SetUser(u), Succeeded(Login)]
      case Fail(err) => [Pending(Login), store, Failed(Login, DataOr(err, LoginFallback))]
  }

  /** `registerUser(...)`: pending, then fulfilled or rejected with
      `err.response?.data || "Signup failed"`. */
  function RegisterActions<U, D>(reply: Reply<D>): seq<Action<U>> {
    match reply
    case Ok(_) => [Pending(Register), Succeeded(Register)]
    case Fail(err) => [Pending(Register), Failed(Register, DataOr(err, SignupFallback))]
  }

  /** The store once `registerUser` has settled: registering signs nobody in,
      ends loading, and records the refusal or clears the error. */
  function RegisterUser<U, D>(st: Store<U>, reply: Reply<D>): (r: Store<U>)
    ensures r.auth.tokens == st.auth.tokens && r.auth.user == st.auth.user && r.storage == st.storage
    ensures !r.auth.loading
    ensures reply.Ok? <==> r.auth.error.None?
    ensures reply.Fail? ==> r.auth.error == Some(ErrorOf(DataOr(reply.err, SignupFallback)))
  {
    var actions := RegisterActions<U, D>(reply);
    ReduceAllSteps(st, actions);
    ReduceAll(st, actions)
  }

  /** A login whose user fetch fails still leaves the new tokens in the state
      and in storage, with the error recorded and no user set. */
  lemma LoginUserFetchFailureKeepsTokens<U>(st: Store<U>, body: LoginBody, fetchUser: Option<string> -> Reply<U>)
    requires fetchUser(body.access).Fail?
    ensures var r := ReduceAll(st, LoginUser(Ok(body), fetchUser));
      r.auth.tokens == Tokens(body.access, body.refresh) &&
      AccessKey in r.storage && r.storage[AccessKey] == Stored(body.access) &&
      RefreshKey in r.storage && r.storage[RefreshKey] == Stored(body.refresh) &&
      r.auth.user == st.auth.user && r.auth.error.Some? && !r.auth.loading
  {
    var actions := LoginUser(Ok(body), fetchUser);
    ReduceAllSteps(st, actions);
  }

  /** A successful login ends signed in: tokens and user set, no error. */
  lemma LoginSuccess<U>(st: Store<U>, body: LoginBody, fetchUser: Option<string> -> Reply<U>)
    requires fetchUser(body.access).Ok?
    ensures var r := ReduceAll(st, LoginUser(Ok(body), fetchUser));
      r.auth.tokens == Tokens(body.access, body.refresh) &&
      r.auth.user == Some(fetchUser(body.access).data) && r.auth.error.None? && !r.auth.loading
  {
    var actions := LoginUser(Ok(body), fetchUser);
    ReduceAllSteps(st, actions);
  }

  /** A login refused by the server changes neither the tokens nor storage. */
  lemma LoginRefusedKeepsTokens<U>(st: Store<U>, err: HttpError, fetchUser: Option<string> -> Reply<U>)
    ensures var r := ReduceAll(st, LoginUser(Fail(err), fetchUser));
      r.auth.tokens == st.auth.tokens && r.storage == st.storage &&
      r.auth.error == Some(ErrorOf(DataOr(err, LoginFallback)))
  {
    var actions := LoginUser(Fail(err), fetchUser);
    ReduceAllSteps(st, actions);
  }
}

=== FILE: branch_slice.dfy ===
/**
 * The branch slice: `withAuth` thunks for fetch, add, update and delete, and
 * reducers over `{ data, loading, error }`. Only the fetch thunk has
 * `pending`/`rejected` cases; the other thunks' `pending` and `rejected`
 * actions reach the reducer and change nothing.
 */
module BranchSlice {
  import opened Wrappers
  import opened Seqs
  import opened Http
  import opened TokenRefresh
  import opened ResourceSlice

  datatype Op = Fetch | Add | Update | Delete

  datatype Action<A> =
    | Pending(op: Op)
    | Failed(op: Op, payload: ErrorValue)
    | Fetched(list: seq<Record<A>>)
    | Added(rec: Record<A>)
    | Updated(rec: Record<A>)
    | Deleted(id: int)

  function Reduce<A(==,!new)>(s: State<Record<A>>, a: Action<A>): (r: State<Record<A>>)
    ensures a.Pending? && a.op == Fetch ==> r.data == s.data && r.loading && r.error.None?
    ensures a.Failed? && a.op == Fetch ==> r.data == s.data && !r.loading && r.error == Some(a.payload)
    ensures (a.Pending? || a.Failed?) && a.op != Fetch ==> r == s
    ensures a.Fetched? ==> r.data == a.list && !r.loading && r.error == s.error
    ensures a.Added? || a.Updated? || a.Deleted? ==> r.loading == s.loading && r.error == s.error
    ensures a.Added? ==> r.data == s.data + [a.rec]
    ensures a.Updated? ==>
      |r.data| == |s.data| && Ids(r.data) == Ids(s.data) &&
      (a.rec.id in Ids(s.data) ==> r.data[FindIndex(s.data, a.rec.id)] == a.rec) &&
      (forall j :: 0 <= j < |s.data| && s.data[j].id != a.rec.id ==> r.data[j] == s.data[j]) &&
      (a.rec.id !in Ids(s.data) ==> r.data == s.data)
    ensures a.Deleted? ==>
      (forall x :: x in r.data <==> x in s.data && x.id != a.id) && Subseq(r.data, s.data) &&
      (forall x :: multiset(r.data)[x] == if x.id != a.id then multiset(s.data)[x] else 0) &&
      (a.id !in Ids(s.data) ==> r.data == s.data)
  {
    match a
    case Pending(op) => if op == Fetch then SetPending(s, true) else s
    case Failed(op, p) => if op == Fetch then SetRejected(s, p) else s
    case Fetched(list) => s.(loading := false, data := list)
    case Added(rec) => s.(data := s.data + [rec])
    case Updated(rec) => s.(data := ReplaceById(s.data, rec))
    case Deleted(id) => s.(data := RemoveId(s.data, id))
  }

  /** The action a settled delete dispatches. `deleteBranch` is written as
      `DeleteThenId`; `DeleteSettled` is the evidently intended settling. */
  function DeleteAction<A>(st: Settled<int>): Action<A> {
    match st
    case Fulfilled(id) => Deleted(id)
    case Rejected(p) => Failed(Delete, p)
  }

  /** As written, a delete the server refused still drops the branch from the
      list. */
  lemma RefusedDeleteDropsBranch<A(!new)>(s: State<Record<A>>, id: int, refusal: ErrorValue)
    requires id in Ids(s.data)
    ensures var r := Reduce(s, DeleteAction(DeleteThenId(RejectedWith(refusal), id)));
      id !in Ids(r.data) && r.error == s.error
  {
    RemoveIdGone(s.data, id);
  }

  /** Settled as intended, deleting a listed branch removes it exactly when the
      server accepted, and a refusal leaves the state as it was. */
  lemma IntendedDeleteRemovesIffAccepted<A(!new)>(s: State<Record<A>>, id: int, o: Outcome<()>)
    requires id in Ids(s.data)
    ensures var r := Reduce(s, DeleteAction(DeleteSettled(o, id)));
      (id !in Ids(r.data) <==> o.Resolved?) && (o.RejectedWith? ==> r == s)
  {
    RemoveIdGone(s.data, id);
  }

  /** Adding a branch and then deleting it restores the list, when its id was new. */
  lemma AddThenDelete<A(!new)>(s: State<Record<A>>, rec: Record<A>)
    requires rec.id !in Ids(s.data)
    ensures Reduce(Reduce(s, Added(rec)), Deleted(rec.id)) == s
  {
    RemoveIdAfterAppend(s.data, rec);
  }
}

=== FILE: branch_stock.dfy ===
/**
 * The stock-movement table: a case-insensitive search over product, branch
 * and reason, a movement-type filter, six movements per page, row selection
 * by checkbox, and bulk delete of the selection. The page also defines a
 * `toggleSelectAll` handler that no control calls; it is modelled as the
 * function it is, and its defect is latent.
 */
module BranchStock {
  import opened Wrappers
  import opened Text
  import opened Seqs
  import opened Paging

  /** A movement as listed: the display names are preferred to the raw fields
      when present. */
  datatype Movement = Movement(
    id: int, productName: Option<string>, product: Option<string>,
    branchName: Option<string>, branch: Option<string>,
    reason: Option<string>, movementType: Option<string>)

  const PageSize: nat := 6
  const AllTypes: string := "ALL"

  /** `mov.product_name || mov.product || ""` and the like. */
  function ProductText(m: Movement): string {
    OrElse(m.productName, OrElse(m.product, ""))
  }

  function BranchText(m: Movement): string {
    OrElse(m.branchName, OrElse(m.branch, ""))
  }

  function ReasonText(m: Movement): string {
    OrElse(m.reason, "")
  }

  predicate Matches(m: Movement, search: string, filterType: string) {
    (ContainsCI(ProductText(m), search) || ContainsCI(BranchText(m), search) ||
     ContainsCI(ReasonText(m), search)) &&
    (filterType == AllTypes || (Truthy(m.movementType) && UpperStr(m.movementType.value) == filterType))
  }

  /** `filteredData` */
  function Filtered(ms: seq<Movement>, search: string, filterType: string): (r: seq<Movement>)
    ensures forall m :: m in r <==> m in ms && Matches(m, search, filterType)
    ensures Subseq(r, ms)
    ensures forall m :: multiset(r)[m] == if Matches(m, search, filterType) then multiset(ms)[m] else 0
  {
    var keep := (m: Movement) => Matches(m, search, filterType);
    FilterMultiset(ms, keep);
    Filter(ms, keep)
  }

  /** The display name wins over the raw field, and an empty display name
      falls back to it. */
  lemma DisplayNamePreferred(m: Movement)
    ensures Truthy(m.productName) ==> ProductText(m) == m.productName.value
    ensures !Truthy(m.productName) && Truthy(m.product) ==> ProductText(m) == m.product.value
    ensures !Truthy(m.productName) && !Truthy(m.product) ==> ProductText(m) == ""
  {
  }

  /** A type filter other than "ALL" never lists a movement without a type,
      and lists only movements whose upper-cased type is the filter. */
  lemma TypeFilterExact(ms: seq<Movement>, search: string, filterType: string)
    requires filterType != AllTypes
    ensures forall m :: m in Filtered(ms, search, filterType) ==>
      m.movementType.Some? && UpperStr(m.movementType.value) == filterType
  {
  }

  /** `paginatedData` */
  function PageRows(ms: seq<Movement>, search: string, filterType: string, page: int): (r: seq<Movement>)
    ensures |r| <= PageSize
    ensures page >= 1 ==>
      var f := Filtered(ms, search, filterType);
      r == f[Min((page - 1) * PageSize, |f|)..Min(page * PageSize, |f|)]
  {
    Page(Filtered(ms, search, filterType), page, PageSize)
  }

  function PageIds(rows: seq<Movement>): (ids: seq<int>)
    ensures |ids| == |rows|
    ensures forall i :: 0 <= i < |rows| ==> ids[i] == rows[i].id
  {
    seq(|rows|, i requires 0 <= i < |rows| => rows[i].id)
  }

  // ---------------------------------------------------------------------
  // Selection

  /** `toggleSelect(id)` */
  function ToggleSelect(sel: seq<int>, id: int): (r: seq<int>)
    ensures id in sel ==> (forall x :: x in r <==> x in sel && x != id) && Subseq(r, sel)
    ensures id in sel ==> forall x :: multiset(r)[x] == if x == id then 0 else multiset(sel)[x]
    ensures id !in sel ==> r == sel + [id]
  {
    if id in sel then
      var keep := (x: int) => x != id;
      FilterMultiset(sel, keep);
      Filter(sel, keep)
    else sel + [id]
  }

  /** Toggling a row twice gives back the same set of selected rows, and the
      very same selection when the row was not selected. */
  lemma ToggleTwice(sel: seq<int>, id: int)
    ensures forall x :: x in ToggleSelect(ToggleSelect(sel, id), id) <==> x in sel
    ensures id !in sel ==> ToggleSelect(ToggleSelect(sel, id), id) == sel
  {
    if id in sel {
      var once := ToggleSelect(sel, id);
      assert id !in once;
      assert ToggleSelect(once, id) == once + [id];
    } else {
      ToggleUnselected(sel, id);
    }
  }

  /** Helper of ToggleTwice: toggling an id that was just appended removes
      exactly that last element. */
  lemma ToggleUnselected(sel: seq<int>, id: int)
    requires id !in sel
    ensures ToggleSelect(sel + [id], id) == sel
  {
    var once := sel + [id];
    assert id in once;
    forall k | 0 <= k < |once| && k != |sel| ensures once[k] != id {
      assert once[k] == sel[k];
    }
    FilterDropsOne(once, (x: int) => x != id, |sel|);
    assert RemoveAt(once, |sel|) == sel;
  }

  /** Toggling keeps a selection free of duplicates. */
  lemma ToggleKeepsNoDup(sel: seq<int>, id: int)
    requires NoDup(sel)
    ensures NoDup(ToggleSelect(sel, id))
  {
    if id in sel {
      SubseqNoDup(ToggleSelect(sel, id), sel);
    }
  }

  /** `toggleSelectAll()` as written: it compares only the number of selected
      rows with the number of rows on the page. No control of the page calls
      it; the row checkboxes call `toggleSelect`. */
  function ToggleSelectAll(sel: seq<int>, pageRows: seq<Movement>): (r: seq<int>)
    ensures |sel| == |pageRows| ==> r == []
    ensures |sel| != |pageRows| ==> r == PageIds(pageRows)
  {
    if |sel| == |pageRows| then [] else PageIds(pageRows)
  }

  /** A call of `toggleSelectAll` with row 1 selected while the page holds
      only row 7: the selection is cleared and row 7 is not selected. */
  lemma SelectAllClearsForeignSelection()
    ensures var pageRows := [Movement(7, None, None, None, None, None, None)];
      ToggleSelectAll([1], pageRows) == [] && 7 !in ToggleSelectAll([1], pageRows)
  {
  }

  /** `toggleSelectAll()` as evidently intended: clear when every row of the
      page is selected, and otherwise select the page's rows. */
  function ToggleSelectAllIntended(sel: seq<int>, pageRows: seq<Movement>): (r: seq<int>)
    ensures (forall i :: 0 <= i < |pageRows| ==> pageRows[i].id in sel) ==> r == []
    ensures !(forall i :: 0 <= i < |pageRows| ==> pageRows[i].id in sel) ==> r == PageIds(pageRows)
  {
    if forall i :: 0 <= i < |pageRows| ==> pageRows[i].id in sel then [] else PageIds(pageRows)
  }

  /** With the intended toggle, a page not fully selected always ends fully
      selected. */
  lemma IntendedSelectAllSelectsPage(sel: seq<int>, pageRows: seq<Movement>)
    ensures var r := ToggleSelectAllIntended(sel, pageRows);
      (exists i :: 0 <= i < |pageRows| && pageRows[i].id !in sel) ==>
        forall i :: 0 <= i < |pageRows| ==> pageRows[i].id in r
  {
  }
}

=== FILE: branches_page.dfy ===
/**
 * The branches page: a case-insensitive search over name, address and
 * manager (a missing field reads as empty), four branches per page, a page
 * change that ignores pages out of range, and the distinct city, country
 * and manager counts.
 */
module BranchesPage {
  import opened Wrappers
  import opened Text
  import opened Seqs
  import opened Paging

  /** A branch as listed; any field may be missing. */
  datatype Branch = Branch(name: Option<string>, address: Option<string>, manager: Option<string>,
                           city: Option<string>, country: Option<string>)

  const PageSize: nat := 4

  /** `branch?.field?.toLowerCase() || ''` before the search: a missing field
      searches like an empty one. */
  function SearchText(o: Option<string>): string {
    o.GetOr("")
  }

  predicate Matches(b: Branch, term: string) {
    ContainsCI(SearchText(b.name), term) || ContainsCI(SearchText(b.address), term) ||
    ContainsCI(SearchText(b.manager), term)
  }

  /** `filteredBranches` */
  function Filtered(branches: seq<Branch>, term: string): (r: seq<Branch>)
    ensures forall b :: b in r <==> b in branches && Matches(b, term)
    ensures Subseq(r, branches)
    ensures forall b :: multiset(r)[b] == if Matches(b, term) then multiset(branches)[b] else 0
  {
    var keep := (b: Branch) => Matches(b, term);
    FilterMultiset(branches, keep);
    Filter(branches, keep)
  }

  /** An empty search lists every branch, missing fields and all. */
  lemma EmptySearchKeepsAll(branches: seq<Branch>)
    ensures Filtered(branches, "") == branches
  {
    forall b | true ensures Matches(b, "") {
      ContainsCIEmpty(SearchText(b.name));
    }
    FilterAll(branches, (b: Branch) => Matches(b, ""));
  }

  /** A branch with no name, address or manager is found only by the empty
      search. */
  lemma BlankBranchOnlyForEmptySearch(b: Branch, term: string)
    requires b.name.None? && b.address.None? && b.manager.None?
    ensures Matches(b, term) <==> term == ""
  {
    if term == "" {
      ContainsCIEmpty("");
    } else {
      assert !IsPrefix(LowerStr(term), "");
    }
  }

  /** `currentBranches` */
  function CurrentBranches(branches: seq<Branch>, term: string, page: int): (r: seq<Branch>)
    ensures |r| <= PageSize
    ensures page >= 1 ==>
      var f := Filtered(branches, term);
      r == f[Min((page - 1) * PageSize, |f|)..Min(page * PageSize, |f|)]
  {
    Page(Filtered(branches, term), page, PageSize)
  }

  /** `handlePageChange(page)`: the new current page. */
  function HandlePageChange(current: int, page: int, totalPages: int): (r: int)
    ensures 1 <= page <= totalPages ==> r == page
    ensures !(1 <= page <= totalPages) ==> r == current
  {
    if page >= 1 && page <= totalPages then page else current
  }

  /** Starting on a page in range, no sequence of page changes leaves it. */
  lemma {:induction false} PageChangesStayInRange(current: int, pages: seq<int>, totalPages: int)
    requires 1 <= current <= totalPages
    ensures 1 <= PageAfter(current, pages, totalPages) <= totalPages
    decreases |pages|
  {
    if |pages| > 0 {
      PageChangesStayInRange(HandlePageChange(current, pages[0], totalPages), pages[1..], totalPages);
    }
  }

  function PageAfter(current: int, pages: seq<int>, totalPages: int): int
    decreases |pages|
  {
    if |pages| == 0 then current
    else PageAfter(HandlePageChange(current, pages[0], totalPages), pages[1..], totalPages)
  }

  // ---------------------------------------------------------------------
  // Summary cards

  /** `branches.map(field)` */
  function Values(branches: seq<Branch>, field: Branch -> Option<string>): (r: seq<Option<string>>)
    ensures |r| == |branches|
    ensures forall i :: 0 <= i < |branches| ==> r[i] == field(branches[i])
  {
    seq(|branches|, i requires 0 <= i < |branches| => field(branches[i]))
  }

  /** `[...new Set(values)].length` */
  function CountDistinct(values: seq<Option<string>>): (n: nat)
    ensures n == |set v | v in values|
  {
    DistinctCount(values);
    |Distinct(values)|
  }

  /** Each card counts the distinct values of its field over the branches, a
      missing value counting as one more value. */
  lemma CardCountsDistinct(branches: seq<Branch>, field: Branch -> Option<string>)
    ensures CountDistinct(Values(branches, field)) == |set b | b in branches :: field(b)|
  {
    var vs := Values(branches, field);
    forall v | v in vs ensures v in (set b | b in branches :: field(b)) {
      var i :| 0 <= i < |branches| && vs[i] == v;
      assert branches[i] in branches;
    }
    forall b | b in branches ensures field(b) in vs {
      var i :| 0 <= i < |branches| && branches[i] == b;
      assert vs[i] == field(b);
    }
    assert (set v | v in vs) == (set b | b in branches :: field(b));
  }
}

=== FILE: catalog.dfy ===
/**
 * The product catalogue as the entry forms see it: an id and a unit cost, and
 * the lookup of the product an `<option>` value names.
 */
module Catalog {
  import opened Wrappers
  import opened Text

  /** A product of the catalogue, as far as the forms use it; `unitCost` is
      the text of its `unit_cost`, absent when the server sends none. */
  datatype CatalogProduct = CatalogProduct(id: int, unitCost: Option<string>)

  /** `products.find((p) => p.id === parseInt(value))`: the first product whose
      id the value spells, if any. */
  function FindProduct(products: seq<CatalogProduct>, value: string): (o: Option<CatalogProduct>)
    ensures o.Some? ==> o.value in products && Some(o.value.id) == ParseInt(value)
    ensures o.None? ==> forall p :: p in products ==> Some(p.id) != ParseInt(value)
    ensures o.Some? ==>
      exists k :: 0 <= k < |products| && products[k] == o.value &&
        (forall j :: 0 <= j < k ==> Some(products[j].id) != ParseInt(value))
  {
    if |products| == 0 then None
    else if Some(products[0].id) == ParseInt(value) then Some(products[0])
    else
      var rest := FindProduct(products[1..], value);
      if rest.Some? then
        var k :| 0 <= k < |products[1..]| && products[1..][k] == rest.value &&
          (forall j :: 0 <= j < k ==> Some(products[1..][j].id) != ParseInt(value));
        assert products[k + 1] == rest.value;
        rest
      else rest
  }
}

=== FILE: grouping.dfy ===
/**
 * Grouping of sale and purchase amounts into per-key buckets, as the charts do
 * with a `Map` or a plain object: the first amount for a key creates its bucket
 * `{ sales: 0, purchases: 0 }`, every amount is then added to its bucket, and
 * the buckets come out in the order their keys first appeared.
 */
module Grouping {
  import opened Seqs

  /** One amount to be bucketed: a sale or a purchase, under a key. */
  datatype Entry<K> = Entry(key: K, isSale: bool, amount: int)

  datatype Bucket<K> = Bucket(key: K, sales: int, purchases: int)

  function SaleAmount<K>(e: Entry<K>): int { if e.isSale then e.amount else 0 }

  function PurchaseAmount<K>(e: Entry<K>): int { if e.isSale then 0 else e.amount }

  function BucketSales<K>(b: Bucket<K>): int { b.sales }

  function BucketPurchases<K>(b: Bucket<K>): int { b.purchases }

  /** The keys of the buckets, in order. */
  function Keys<K>(bs: seq<Bucket<K>>): (ks: seq<K>)
    ensures |ks| == |bs|
    ensures forall i :: 0 <= i < |bs| ==> ks[i] == bs[i].key
  {
    seq(|bs|, i requires 0 <= i < |bs| => bs[i].key)
  }

  /** The keys of the entries, in order. */
  function EntryKeys<K>(es: seq<Entry<K>>): (ks: seq<K>)
    ensures |ks| == |es|
    ensures forall i :: 0 <= i < |es| ==> ks[i] == es[i].key
  {
    seq(|es|, i requires 0 <= i < |es| => es[i].key)
  }

  /** Reference definition: the sale amounts filed under key `k`. */
  function SalesFor<K(==)>(es: seq<Entry<K>>, k: K): int {
    if |es| == 0 then 0
    else SalesFor(es[..|es| - 1], k) + (if es[|es| - 1].key == k then SaleAmount(es[|es| - 1]) else 0)
  }

  /** Reference definition: the purchase amounts filed under key `k`. */
  function PurchasesFor<K(==)>(es: seq<Entry<K>>, k: K): int {
    if |es| == 0 then 0
    else PurchasesFor(es[..|es| - 1], k) + (if es[|es| - 1].key == k then PurchaseAmount(es[|es| - 1]) else 0)
  }

  /** A key no entry carries has nothing filed under it. */
  lemma {:induction false} AbsentKeyIsZero<K>(es: seq<Entry<K>>, k: K)
    requires k !in EntryKeys(es)
    ensures SalesFor(es, k) == 0 && PurchasesFor(es, k) == 0
  {
    if |es| > 0 {
      assert EntryKeys(es[..|es| - 1]) == EntryKeys(es)[..|es| - 1];
      AbsentKeyIsZero(es[..|es| - 1], k);
    }
  }

  /** Adds an entry's amount to the bucket carrying its key. */
  function Bump<K(==)>(bs: seq<Bucket<K>>, e: Entry<K>): (r: seq<Bucket<K>>)
    ensures |r| == |bs| && Keys(r) == Keys(bs)
    ensures forall i :: 0 <= i < |bs| ==>
      r[i].sales == bs[i].sales + (if bs[i].key == e.key then SaleAmount(e) else 0) &&
      r[i].purchases == bs[i].purchases + (if bs[i].key == e.key then PurchaseAmount(e) else 0)
  {
    seq(|bs|, i requires 0 <= i < |bs| =>
      if bs[i].key == e.key
      then Bucket(bs[i].key, bs[i].sales + SaleAmount(e), bs[i].purchases + PurchaseAmount(e))
      else bs[i])
  }

  /** Files one entry: into the bucket of its key, or into a new bucket at the end
      (`if (!map.has(key)) map.set(key, { sales: 0, purchases: 0 })`). */
  function Credit<K(==)>(bs: seq<Bucket<K>>, e: Entry<K>): (r: seq<Bucket<K>>)
    ensures Keys(r) == if e.key in Keys(bs) then Keys(bs) else Keys(bs) + [e.key]
    ensures forall i :: 0 <= i < |bs| ==>
      r[i].sales == bs[i].sales + (if bs[i].key == e.key then SaleAmount(e) else 0) &&
      r[i].purchases == bs[i].purchases + (if bs[i].key == e.key then PurchaseAmount(e) else 0)
    ensures e.key !in Keys(bs) ==> r[|bs|] == Bucket(e.key, SaleAmount(e), PurchaseAmount(e))
  {
    if e.key in Keys(bs) then Bump(bs, e)
    else
      var r := bs + [Bucket(e.key, SaleAmount(e), PurchaseAmount(e))];
      assert Keys(r) == Keys(bs) + [e.key];
      r
  }

  /** Bumping a key no bucket carries changes nothing. */
  lemma BumpAbsent<K>(bs: seq<Bucket<K>>, e: Entry<K>)
    requires e.key !in Keys(bs)
    ensures Bump(bs, e) == bs
  {
    assert forall i :: 0 <= i < |bs| ==> bs[i].key != e.key by {
      forall i | 0 <= i < |bs| ensures bs[i].key != e.key {
        assert Keys(bs)[i] == bs[i].key;
      }
    }
  }

  /** With distinct keys, bumping adds the entry's amounts to the totals exactly once. */
  lemma {:induction false} BumpTotals<K>(bs: seq<Bucket<K>>, e: Entry<K>)
    requires NoDup(Keys(bs)) && e.key in Keys(bs)
    ensures Sum(Bump(bs, e), BucketSales) == Sum(bs, BucketSales) + SaleAmount(e)
    ensures Sum(Bump(bs, e), BucketPurchases) == Sum(bs, BucketPurchases) + PurchaseAmount(e)
  {
    var n := |bs|;
    var init := bs[..n - 1];
    var last := bs[n - 1];
    var r := Bump(bs, e);
    assert Keys(init) == Keys(bs)[..n - 1];
    assert r[..n - 1] == Bump(init, e);
    if last.key == e.key {
      assert e.key !in Keys(init) by {
        forall i | 0 <= i < n - 1 ensures Keys(init)[i] != e.key {
          assert Keys(bs)[i] != Keys(bs)[n - 1];
        }
      }
      BumpAbsent(init, e);
    } else {
      assert e.key in Keys(init) by {
        var j :| 0 <= j < n && Keys(bs)[j] == e.key;
        assert j < n - 1;
        assert Keys(init)[j] == e.key;
      }
      BumpTotals(init, e);
    }
  }

  /** Crediting an entry adds its amounts to the bucket totals. */
  lemma CreditTotals<K>(bs: seq<Bucket<K>>, e: Entry<K>)
    requires NoDup(Keys(bs))
    ensures Sum(Credit(bs, e), BucketSales) == Sum(bs, BucketSales) + SaleAmount(e)
    ensures Sum(Credit(bs, e), BucketPurchases) == Sum(bs, BucketPurchases) + PurchaseAmount(e)
  {
    if e.key in Keys(bs) {
      BumpTotals(bs, e);
    } else {
      var b := Bucket(e.key, SaleAmount(e), PurchaseAmount(e));
      SumSnoc(bs, b, BucketSales);
      SumSnoc(bs, b, BucketPurchases);
    }
  }

  /** Buckets every entry: one bucket per distinct key, in order of first
      appearance, each holding the sums filed under its key. */
  function Group<K(==,!new)>(es: seq<Entry<K>>): (r: seq<Bucket<K>>)
    ensures NoDup(Keys(r))
    ensures forall k :: k in Keys(r) <==> k in EntryKeys(es)
    ensures forall i :: 0 <= i < |r| ==>
      r[i].sales == SalesFor(es, r[i].key) && r[i].purchases == PurchasesFor(es, r[i].key)
  {
    if |es| == 0 then []
    else
      var init := es[..|es| - 1];
      var e := es[|es| - 1];
      var prev := Group(init);
      assert EntryKeys(es) == EntryKeys(init) + [e.key];
      var r := Credit(prev, e);
      assert forall i :: 0 <= i < |r| ==>
        r[i].sales == SalesFor(es, r[i].key) && r[i].purchases == PurchasesFor(es, r[i].key) by {
        forall i | 0 <= i < |r|
          ensures r[i].sales == SalesFor(es, r[i].key) && r[i].purchases == PurchasesFor(es, r[i].key)
        {
          if i < |prev| {
            assert Keys(r)[i] == Keys(prev)[i];
          } else {
            assert e.key !in EntryKeys(init);
            AbsentKeyIsZero(init, e.key);
          }
        }
      }
      r
  }

  /** The bucket sales add up to all the sale amounts, and the purchases likewise. */
  lemma {:induction false} GroupTotals<K(!new)>(es: seq<Entry<K>>)
    ensures Sum(Group(es), BucketSales) == Sum(es, SaleAmount)
    ensures Sum(Group(es), BucketPurchases) == Sum(es, PurchaseAmount)
  {
    if |es| > 0 {
      GroupTotals(es[..|es| - 1]);
      CreditTotals(Group(es[..|es| - 1]), es[|es| - 1]);
    }
  }
}

=== FILE: http.dfy ===
/**
 * The shapes the client sees from the server, with the transport itself left
 * out: a reply is the response body, or an error carrying the body of the
 * error response (`err.response?.data`) and the error's message.
 */
module Http {
  import opened Wrappers
  import opened Text

  /** The fields of an error response body the client reads. */
  datatype ErrorBody = ErrorBody(code: Option<string>, detail: Option<string>)

  /** A failed request: the error response body (`None` when there was no
      response, or its body was empty) and `err.message`. */
  datatype HttpError = HttpError(data: Option<ErrorBody>, message: string)

  /** The reply to one request. */
  datatype Reply<D> = Ok(data: D) | Fail(err: HttpError)

  /** A `rejectWithValue` payload: an error response body or a message string. */
  datatype ErrorValue = Data(body: ErrorBody) | Message(text: string)

  /** A settled thunk: the payload of its `fulfilled` or `rejected` action. */
  datatype Settled<W> = Fulfilled(value: W) | Rejected(payload: ErrorValue)

  /** A thunk that makes one request and, on failure, rejects with
      `err.response?.data || fallback`. */
  function SettleReply<D>(reply: Reply<D>, fallback: string): (s: Settled<D>)
    ensures s.Fulfilled? <==> reply.Ok?
    ensures reply.Ok? ==> s.value == reply.data
    ensures reply.Fail? ==> s.payload == DataOr(reply.err, fallback)
  {
    match reply
    case Ok(d) => Fulfilled(d)
    case Fail(err) => Rejected(DataOr(err, fallback))
  }

  /** `err.response?.data || fallback` */
  function DataOr(err: HttpError, fallback: string): (v: ErrorValue)
    ensures v.Data? <==> err.data.Some?
    ensures v.Data? ==> v.body == err.data.value
    ensures v.Message? ==> v.text == fallback
  {
    match err.data
    case Some(body) => Data(body)
    case None => Message(fallback)
  }

  /** `err.response?.data?.detail || err.message || fallback` */
  function DetailOr(err: HttpError, fallback: string): (m: string)
    ensures fallback != "" ==> m != ""
    ensures err.data.Some? && Truthy(err.data.value.detail) ==> m == err.data.value.detail.value
    ensures !(err.data.Some? && Truthy(err.data.value.detail)) && err.message != "" ==> m == err.message
    ensures !(err.data.Some? && Truthy(err.data.value.detail)) && err.message == "" ==> m == fallback
  {
    var detail := if err.data.Some? then err.data.value.detail else None;
    OrElse(detail, OrElse(Some(err.message), fallback))
  }

  /** A list endpoint's body: a bare array, or an object that may carry a
      `results` array (the paginated form). */
  datatype Listing<R> = Array(items: seq<R>) | Object(results: Option<seq<R>>)

  /** The list a paginated or unpaginated response carries; anything else is `[]`. */
  function Normalise<R>(body: Listing<R>): (rs: seq<R>)
    ensures body.Array? ==> rs == body.items
    ensures body.Object? && body.results.Some? ==> rs == body.results.value
    ensures body.Object? && body.results.None? ==> rs == []
  {
    match body
    case Array(items) => items
    case Object(results) => results.GetOr([])
  }

  /** The server may page a list or not: either form of the same records gives
      the same list, and a body that carries no list gives none. */
  lemma NormaliseAgreesAcrossForms<R>(xs: seq<R>)
    ensures Normalise(Array(xs)) == Normalise(Object(Some(xs))) == xs
    ensures Normalise(Listing<R>.Object(None)) == []
  {
  }
}

=== FILE: ledger_slice.dfy ===
/**
 * The ledger slice: fetch and delete thunks, each with its own fallback
 * message, and reducers over `{ entries, loading, error }`.
 */
module LedgerSlice {
  import opened Wrappers
  import opened Seqs
  import opened Http
  import opened ResourceSlice

  const FetchFallback: string := "Error fetching ledger"
  const DeleteFallback: string := "Error deleting ledger entry"

  datatype Op = Fetch | Delete

  datatype Action<A> =
    | Pending(op: Op)
    | Failed(op: Op, payload: ErrorValue)
    | Fetched(list: seq<Record<A>>)
    | Deleted(id: int)

  function Reduce<A(==,!new)>(s: State<Record<A>>, a: Action<A>): (r: State<Record<A>>)
    ensures a.Pending? ==> r.data == s.data && r.loading && r.error.None?
    ensures a.Failed? ==> r.data == s.data && !r.loading && r.error == Some(a.payload)
    ensures a.Fetched? || a.Deleted? ==> !r.loading && r.error == s.error
    ensures a.Fetched? ==> r.data == a.list
    ensures a.Deleted? ==>
      (forall x :: x in r.data <==> x in s.data && x.id != a.id) && Subseq(r.data, s.data) &&
      (forall x :: multiset(r.data)[x] == if x.id != a.id then multiset(s.data)[x] else 0) &&
      (a.id !in Ids(s.data) ==> r.data == s.data)
  {
    match a
    case Pending(_) => SetPending(s, true)
    case Failed(_, p) => SetRejected(s, p)
    case Fetched(list) => s.(loading := false, data := list)
    case Deleted(id) => s.(loading := false, data := RemoveId(s.data, id))
  }

  /** `fetchLedger()`: the entries, or a rejection with the body or its fallback. */
  function FetchThunk<A>(reply: Reply<seq<Record<A>>>): (a: Action<A>)
    ensures reply.Ok? ==> a == Fetched(reply.data)
    ensures reply.Fail? ==> a == Failed(Fetch, DataOr(reply.err, FetchFallback))
  {
    match SettleReply(reply, FetchFallback)
    case Fulfilled(list) => Fetched(list)
    case Rejected(p) => Failed(Fetch, p)
  }

  /** `deleteLedgerEntry(id)`: fulfils with the id it was given once the server accepts. */
  function DeleteThunk(id: int, reply: Reply<()>): (st: Settled<int>)
    ensures st.Fulfilled? <==> reply.Ok?
    ensures st.Fulfilled? ==> st.value == id
    ensures st.Rejected? ==> st.payload == DataOr(reply.err, DeleteFallback)
  {
    match SettleReply(reply, DeleteFallback)
    case Fulfilled(_) => Fulfilled(id)
    case Rejected(p) => Rejected(p)
  }

  /** The action a settled delete dispatches. */
  function DeleteAction<A>(st: Settled<int>): Action<A> {
    match st
    case Fulfilled(id) => Deleted(id)
    case Rejected(p) => Failed(Delete, p)
  }

  /** A delete round trip: the entry is gone exactly when the server accepted,
      and otherwise the entries are kept and the error names the failure. */
  lemma DeleteRoundTrip<A(!new)>(s: State<Record<A>>, id: int, reply: Reply<()>)
    requires id in Ids(s.data)
    ensures var r := Reduce(Reduce(s, Pending(Delete)), DeleteAction(DeleteThunk(id, reply)));
      (id !in Ids(r.data) <==> reply.Ok?) && !r.loading &&
      (reply.Fail? ==> r.data == s.data && r.error.Some?)
  {
    RemoveIdGone(s.data, id);
  }
}

=== FILE: ledger_table.dfy ===
/**
 * The ledger table: a case-insensitive search over description and
 * reference, a sale/purchase filter keyed on the transaction type or the
 * reference, ten entries per page, and a page that goes back to 1 whenever
 * the search or the filter changes.
 */
module LedgerTable {
  import opened Wrappers
  import opened Text
  import opened Seqs
  import opened Paging

  /** A ledger entry as listed; each text field may be missing. */
  datatype Entry = Entry(description: Option<string>, reference: Option<string>, transactionType: Option<string>)

  const PageSize: nat := 10
  const SaleTag: string := "sal"
  const PurchaseTag: string := "pur"

  datatype View = View(search: string, filterType: string, page: int)

  /** `field?.toLowerCase().includes(term)`: a missing field is `undefined`,
      which matches nothing. */
  predicate FieldContains(o: Option<string>, term: string) {
    o.Some? && ContainsCI(o.value, term)
  }

  predicate SearchMatch(e: Entry, search: string) {
    FieldContains(e.description, search) || FieldContains(e.reference, search)
  }

  /** The sale or purchase test: the lower-cased type is the tag, or the
      lower-cased reference contains it. */
  predicate TypeMatch(e: Entry, tag: string) {
    (e.transactionType.Some? && LowerStr(e.transactionType.value) == tag) ||
    (e.reference.Some? && Includes(LowerStr(e.reference.value), tag))
  }

  /** Whether an entry is listed under the chosen filter; any filter other
      than "sale" and "purchase" adds no condition. */
  predicate Listed(e: Entry, v: View) {
    SearchMatch(e, v.search) &&
    (v.filterType == "sale" ==> TypeMatch(e, SaleTag)) &&
    (v.filterType == "purchase" ==> TypeMatch(e, PurchaseTag))
  }

  /** The search filter, then the type filter, as the page applies them. */
  function SearchThenType(entries: seq<Entry>, v: View): seq<Entry> {
    var searched := Filter(entries, (e: Entry) => SearchMatch(e, v.search));
    if v.filterType == "sale" then Filter(searched, (e: Entry) => TypeMatch(e, SaleTag))
    else if v.filterType == "purchase" then Filter(searched, (e: Entry) => TypeMatch(e, PurchaseTag))
    else searched
  }

  lemma SearchThenTypeIsListed(entries: seq<Entry>, v: View)
    ensures SearchThenType(entries, v) == Filter(entries, (e: Entry) => Listed(e, v))
  {
    var listed := (e: Entry) => Listed(e, v);
    var search := (e: Entry) => SearchMatch(e, v.search);
    if v.filterType == "sale" {
      FilterFilter(entries, search, (e: Entry) => TypeMatch(e, SaleTag), listed);
    } else if v.filterType == "purchase" {
      FilterFilter(entries, search, (e: Entry) => TypeMatch(e, PurchaseTag), listed);
    } else {
      FilterSame(entries, search, listed);
    }
  }

  /** `filteredEntries` */
  function Filtered(entries: seq<Entry>, v: View): (r: seq<Entry>)
    ensures forall e :: e in r <==> e in entries && Listed(e, v)
    ensures Subseq(r, entries)
    ensures forall e :: multiset(r)[e] == if Listed(e, v) then multiset(entries)[e] else 0
  {
    SearchThenTypeIsListed(entries, v);
    FilterMultiset(entries, (e: Entry) => Listed(e, v));
    SearchThenType(entries, v)
  }

  /** An entry with neither description nor reference is never listed, not
      even with an empty search. */
  lemma EntryWithoutTextHidden(entries: seq<Entry>, e: Entry, v: View)
    requires e.description.None? && e.reference.None?
    ensures e !in Filtered(entries, v)
  {
  }

  /** `currentEntries` */
  function CurrentEntries(entries: seq<Entry>, v: View): (r: seq<Entry>)
    ensures |r| <= PageSize
    ensures v.page >= 1 ==>
      var f := Filtered(entries, v);
      r == f[Min((v.page - 1) * PageSize, |f|)..Min(v.page * PageSize, |f|)]
  {
    Page(Filtered(entries, v), v.page, PageSize)
  }

  /** The search input and the filter select both go back to page 1. */
  function SetSearch(v: View, search: string): (r: View)
    ensures r.search == search && r.filterType == v.filterType && r.page == 1
  {
    View(search, v.filterType, 1)
  }

  function SetFilterType(v: View, filterType: string): (r: View)
    ensures r.filterType == filterType && r.search == v.search && r.page == 1
  {
    View(v.search, filterType, 1)
  }

  /** `totalPages || 1`: the last page the buttons allow and the page count
      shown; 1 when nothing is listed. */
  function LastPage(entries: seq<Entry>, v: View): (n: int)
    ensures n >= 1
    ensures n == Max(TotalPages(|Filtered(entries, v)|, PageSize), 1)
  {
    var t := TotalPages(|Filtered(entries, v)|, PageSize);
    if t == 0 then 1 else t
  }

  function Previous(v: View): View {
    v.(page := PrevPage(v.page))
  }

  function Next(entries: seq<Entry>, v: View): View {
    v.(page := NextPage(v.page, LastPage(entries, v)))
  }

  /** Previous and Next keep the page between 1 and the displayed page count,
      an empty list included; the searched rows do not change. */
  lemma PagingStaysInRange(entries: seq<Entry>, v: View)
    requires 1 <= v.page <= LastPage(entries, v)
    ensures 1 <= Previous(v).page <= LastPage(entries, v)
    ensures 1 <= Next(entries, v).page <= LastPage(entries, v)
    ensures Filtered(entries, Previous(v)) == Filtered(entries, v)
    ensures Filtered(entries, Next(entries, v)) == Filtered(entries, v)
  {
  }

  /** After a new search or filter, the table shows the first rows that match. */
  lemma ResetShowsFirstRows(entries: seq<Entry>, v: View, search: string, filterType: string)
    ensures var w := SetFilterType(SetSearch(v, search), filterType);
      var f := Filtered(entries, w);
      CurrentEntries(entries, w) == f[..Min(PageSize, |f|)]
  {
  }
}

=== FILE: orders_page.dfy ===
/**
 * The orders page: a status filter and a case-insensitive search over id,
 * customer and payment method, five orders per page with Previous and Next,
 * the "Showing a to b of n results" line, and the summary cards.
 */
module OrdersPage {
  import opened Text
  import opened Seqs
  import opened Paging

  datatype Order = Order(id: string, customer: string, payment: string, status: string, total: int)

  const PageSize: nat := 5
  const AllStatuses: string := "All"

  /** What the user has chosen: the status filter, the search text and the page. */
  datatype View = View(status: string, query: string, page: int)

  function InitialView(): View {
    View(AllStatuses, "", 1)
  }

  /** The filter callback of `filteredOrders`. */
  predicate Matches(o: Order, status: string, query: string) {
    (status == AllStatuses || o.status == status) &&
    (ContainsCI(o.id, query) || ContainsCI(o.customer, query) || ContainsCI(o.payment, query))
  }

  /** `filteredOrders` */
  function Filtered(orders: seq<Order>, v: View): (r: seq<Order>)
    ensures forall o :: o in r <==> o in orders && Matches(o, v.status, v.query)
    ensures Subseq(r, orders)
    ensures forall o :: multiset(r)[o] == if Matches(o, v.status, v.query) then multiset(orders)[o] else 0
  {
    var keep := (o: Order) => Matches(o, v.status, v.query);
    FilterMultiset(orders, keep);
    Filter(orders, keep)
  }

  /** With every status and an empty search, every order is listed. */
  lemma NoFilterKeepsAll(orders: seq<Order>)
    ensures Filtered(orders, InitialView()) == orders
  {
    forall o | true ensures Matches(o, AllStatuses, "") {
      ContainsCIEmpty(o.id);
    }
    FilterAll(orders, (o: Order) => Matches(o, AllStatuses, ""));
  }

  /** `currentOrders` */
  function CurrentOrders(orders: seq<Order>, v: View): (r: seq<Order>)
    ensures |r| <= PageSize
    ensures v.page >= 1 ==> r == Filtered(orders, v)[Min((v.page - 1) * PageSize, |Filtered(orders, v)|)..Min(v.page * PageSize, |Filtered(orders, v)|)]
  {
    Page(Filtered(orders, v), v.page, PageSize)
  }

  function TotalPagesOf(orders: seq<Order>, v: View): nat {
    TotalPages(|Filtered(orders, v)|, PageSize)
  }

  /** The Previous and Next buttons. */
  function Previous(v: View): (r: View)
    ensures r.page >= 1 && r.status == v.status && r.query == v.query
    ensures v.page > 1 ==> r.page == v.page - 1
    ensures v.page <= 1 ==> r.page == 1
  {
    v.(page := PrevPage(v.page))
  }

  function Next(orders: seq<Order>, v: View): (r: View)
    ensures r.page <= TotalPagesOf(orders, v) && r.status == v.status && r.query == v.query
    ensures v.page + 1 <= TotalPagesOf(orders, v) ==> r.page == v.page + 1
    ensures v.page + 1 > TotalPagesOf(orders, v) ==> r.page == TotalPagesOf(orders, v)
  {
    v.(page := NextPage(v.page, TotalPagesOf(orders, v)))
  }

  /** Previous and Next keep a page that is in range in range. */
  lemma PagingStaysInRange(orders: seq<Order>, v: View)
    requires 1 <= v.page <= TotalPagesOf(orders, v)
    ensures 1 <= Previous(v).page <= TotalPagesOf(orders, v)
    ensures 1 <= Next(orders, v).page <= TotalPagesOf(orders, v)
  {
  }

  /** The first and last row numbers of the "Showing a to b of n" line. */
  function ShowingFrom(v: View): int {
    (v.page - 1) * PageSize + 1
  }

  function ShowingTo(orders: seq<Order>, v: View): int {
    Min(v.page * PageSize, |Filtered(orders, v)|)
  }

  /** On a page in range the line names exactly the rows the table shows. */
  lemma ShowingMatchesRows(orders: seq<Order>, v: View)
    requires 1 <= v.page <= TotalPagesOf(orders, v)
    ensures ShowingFrom(v) <= ShowingTo(orders, v)
    ensures ShowingTo(orders, v) - ShowingFrom(v) + 1 == |CurrentOrders(orders, v)|
    ensures CurrentOrders(orders, v)[0] == Filtered(orders, v)[ShowingFrom(v) - 1]
  {
    WindowBounds(|Filtered(orders, v)|, v.page, PageSize);
  }

  /** Changing the search text, as written: the page stays where it was. */
  function SetQuery(v: View, query: string): (r: View)
    ensures r.query == query && r.status == v.status && r.page == v.page
  {
    v.(query := query)
  }

  /** A search that narrows the results while the user is on a later page
      leaves the page past the end: no rows are shown, and the line reads
      "Showing a to b" with a greater than b, though results exist. */
  lemma StalePageAfterSearch(orders: seq<Order>, v: View, query: string)
    requires v.page == 2 && 2 <= TotalPagesOf(orders, v)
    requires 0 < |Filtered(orders, SetQuery(v, query))| <= PageSize
    ensures CurrentOrders(orders, SetQuery(v, query)) == []
    ensures ShowingFrom(SetQuery(v, query)) > ShowingTo(orders, SetQuery(v, query))
  {
  }

  /** Changing the search text as evidently intended: back to the first page,
      as the ledger table does. */
  function SetQueryIntended(v: View, query: string): (r: View)
    ensures r.query == query && r.status == v.status && r.page == 1
  {
    v.(query := query, page := 1)
  }

  /** After the intended change any results are shown from the first on, and
      the line is well formed. */
  lemma IntendedSearchShowsResults(orders: seq<Order>, v: View, query: string)
    requires |Filtered(orders, SetQueryIntended(v, query))| > 0
    ensures var w := SetQueryIntended(v, query);
      |CurrentOrders(orders, w)| == Min(PageSize, |Filtered(orders, w)|) &&
      CurrentOrders(orders, w)[0] == Filtered(orders, w)[0] &&
      ShowingFrom(w) == 1 <= ShowingTo(orders, w)
  {
  }

  // ---------------------------------------------------------------------
  // Summary cards

  function Revenue(orders: seq<Order>): int {
    Sum(orders, (o: Order) => o.total)
  }

  function CountStatus(orders: seq<Order>, status: string): (n: nat)
    ensures n == Count(orders, (o: Order) => o.status == status)
  {
    var r := Filter(orders, (o: Order) => o.status == status);
    FilterLength(orders, (o: Order) => o.status == status);
    |r|
  }

  /** The Paid and Pending cards never count more orders than there are, and
      the revenue card is the order totals summed in any order. */
  lemma CardsAgree(orders: seq<Order>, reordered: seq<Order>)
    requires multiset(reordered) == multiset(orders)
    ensures CountStatus(orders, "Paid") + CountStatus(orders, "Pending") <= |orders|
    ensures Revenue(reordered) == Revenue(orders)
  {
    CountExclusive(orders, (o: Order) => o.status == "Paid", (o: Order) => o.status == "Pending");
    SumPermutation(reordered, orders, (o: Order) => o.total);
  }
}

=== FILE: pagination.dfy ===
/**
 * The shared pagination control: `handlePageChange`, which works in
 * controlled mode (the parent owns the current page) or uncontrolled mode
 * (the control keeps its own), and `getVisiblePages`, the page buttons with
 * ellipses for the pages left out.
 */
module Pagination {
  import opened Wrappers
  import opened Paging

  /** One entry of the button row: a page number or an ellipsis. */
  datatype Item = PageNo(n: int) | Ellipsis

  /** How many pages either side of the current one get a button. */
  const Delta: int := 2

  /** The control's page state: the `currentPage` prop, if the parent passes
      one, and the page it keeps itself. */
  datatype Pager = Pager(external: Option<int>, internal: int)

  /** `isControlled ? externalCurrentPage : internalCurrentPage` */
  function CurrentPage(p: Pager): int {
    p.external.GetOr(p.internal)
  }

  /** `handlePageChange(page)`: the new page state, and the page passed to
      `onPageChange` if the parent gave one. */
  function HandlePageChange(p: Pager, totalPages: int, page: int, hasCallback: bool): (r: (Pager, Option<int>))
    ensures page < 1 || page > totalPages ==> r == (p, None)
    ensures 1 <= page <= totalPages ==>
      r.0.external == p.external &&
      r.0.internal == (if p.external.None? then page else p.internal) &&
      r.1 == (if hasCallback then Some(page) else None)
  {
    if page < 1 || page > totalPages then (p, None)
    else
      var next := if p.external.None? then p.(internal := page) else p;
      (next, if hasCallback then Some(page) else None)
  }

  /** Whatever page is asked for, an uncontrolled control's current page stays
      within `[1, totalPages]` once it is there, and a controlled control's
      current page only changes when the parent changes it. */
  lemma CurrentPageStaysInRange(p: Pager, totalPages: int, page: int, hasCallback: bool)
    ensures var q := HandlePageChange(p, totalPages, page, hasCallback).0;
      (p.external.None? && 1 <= CurrentPage(p) <= totalPages ==> 1 <= CurrentPage(q) <= totalPages) &&
      (p.external.Some? ==> CurrentPage(q) == CurrentPage(p))
  {
  }

  /** The page buttons from `lo` to `hi` inclusive. */
  function Span(lo: int, hi: int): (s: seq<Item>)
    ensures |s| == if lo <= hi then hi - lo + 1 else 0
    ensures forall i :: 0 <= i < |s| ==> s[i] == PageNo(lo + i)
  {
    if lo <= hi then seq(hi - lo + 1, i requires 0 <= i <= hi - lo => PageNo(lo + i)) else []
  }

  /** The compact button row. */
  function CompactPages(c: int, t: int): (items: seq<Item>)
    ensures t <= 3 ==> items == Span(1, t)
    ensures t > 3 && c == 1 ==> items == [PageNo(1), PageNo(2), Ellipsis, PageNo(t)]
    ensures t > 3 && c != 1 && c == t ==> items == [PageNo(1), Ellipsis, PageNo(t - 1), PageNo(t)]
    ensures t > 3 && c != 1 && c != t ==> items == [PageNo(1), Ellipsis, PageNo(c), Ellipsis, PageNo(t)]
  {
    if t <= 3 then Span(1, t)
    else if c == 1 then [PageNo(1), PageNo(2), Ellipsis, PageNo(t)]
    else if c == t then [PageNo(1), Ellipsis, PageNo(t - 1), PageNo(t)]
    else [PageNo(1), Ellipsis, PageNo(c), Ellipsis, PageNo(t)]
  }

  function Lo(c: int): int { Max(2, c - Delta) }
  function Hi(c: int, t: int): int { Min(t - 1, c + Delta) }

  /** Reference definition of the full button row: page 1, an ellipsis if pages
      are skipped after it, the pages within `Delta` of the current one, an
      ellipsis if pages are skipped before the last, and the last page. */
  function FullPages(c: int, t: int): seq<Item> {
    [PageNo(1)]
    + (if c - Delta > 2 then [Ellipsis] else [])
    + Span(Lo(c), Hi(c, t))
    + (if c + Delta < t - 1 then [Ellipsis] else [])
    + (if t != 1 then [PageNo(t)] else [])
  }

  /** `getVisiblePages()` */
  method VisiblePages(compact: bool, c: int, t: int) returns (items: seq<Item>)
    ensures compact ==> items == CompactPages(c, t)
    ensures !compact ==> items == FullPages(c, t)
  {
    if compact {
      return CompactPages(c, t);
    }
    var lo := Max(2, c - Delta);
    var hi := Min(t - 1, c + Delta);
    var range: seq<Item> := [];
    var i := lo;
    while i <= hi
      invariant lo <= i && (if lo <= hi then i <= hi + 1 else i == lo)
      invariant range == Span(lo, i - 1)
      decreases hi - i
    {
      range := range + [PageNo(i)];
      i := i + 1;
    }
    assert range == Span(lo, hi);
    if c - Delta > 2 {
      range := [Ellipsis] + range;
    }
    if c + Delta < t - 1 {
      range := range + [Ellipsis];
    }
    range := [PageNo(1)] + range;
    if t != 1 {
      range := range + [PageNo(t)];
    }
    items := range;
  }

  /** In range, the full row starts at page 1, ends at the last page, opens
      with an ellipsis exactly when `c - 2 > 2` and closes with one exactly
      when `c + 2 < t - 1`. */
  lemma FullPagesEnds(c: int, t: int)
    requires 1 <= c <= t && t >= 2
    ensures var items := FullPages(c, t);
      |items| >= 2 && items[0] == PageNo(1) && items[|items| - 1] == PageNo(t) &&
      (items[1] == Ellipsis <==> c - Delta > 2) &&
      (items[|items| - 2] == Ellipsis <==> c + Delta < t - 1)
  {
    var lead := if c - Delta > 2 then [Ellipsis] else [];
    var span := Span(Lo(c), Hi(c, t));
    var trail := if c + Delta < t - 1 then [Ellipsis] else [];
    var items := FullPages(c, t);
    assert items == [PageNo(1)] + lead + span + trail + [PageNo(t)];
    if c - Delta > 2 || c + Delta < t - 1 {
      assert |span| > 0;
    }
  }

  /** Where each entry of the full row sits: page 1, then `a` ellipses, then
      the `m` pages from `Lo(c)`, then `b` ellipses, then the last page. */
  lemma FullPagesAt(c: int, t: int, k: int)
    requires 1 <= c <= t && 0 <= k < |FullPages(c, t)|
    ensures var items := FullPages(c, t);
      var a := if c - Delta > 2 then 1 else 0;
      var m := |Span(Lo(c), Hi(c, t))|;
      var b := if c + Delta < t - 1 then 1 else 0;
      |items| == 1 + a + m + b + (if t != 1 then 1 else 0) &&
      (k == 0 ==> items[k] == PageNo(1)) &&
      (1 <= k < 1 + a ==> items[k] == Ellipsis) &&
      (1 + a <= k < 1 + a + m ==> items[k] == PageNo(Lo(c) + k - 1 - a)) &&
      (1 + a + m <= k < 1 + a + m + b ==> items[k] == Ellipsis) &&
      (1 + a + m + b <= k ==> items[k] == PageNo(t))
  {
    var lead := if c - Delta > 2 then [Ellipsis] else [];
    var span := Span(Lo(c), Hi(c, t));
    var trail := if c + Delta < t - 1 then [Ellipsis] else [];
    var last := if t != 1 then [PageNo(t)] else [];
    var items := FullPages(c, t);
    assert items == [PageNo(1)] + lead + span + trail + last;
    if 1 + |lead| <= k < 1 + |lead| + |span| {
      assert items[k] == span[k - 1 - |lead|];
    }
  }

  /** In range, the full row lists page numbers in increasing order, each in
      `[1, t]`; neighbouring numbers are consecutive, and an ellipsis always
      stands between two numbers with at least one page left out between them. */
  lemma FullPagesOrdered(c: int, t: int)
    requires 1 <= c <= t
    ensures var items := FullPages(c, t);
      (forall k :: 0 <= k < |items| && items[k].PageNo? ==> 1 <= items[k].n <= t) &&
      (forall k :: 0 <= k < |items| - 1 && items[k].PageNo? && items[k + 1].PageNo? ==>
        items[k + 1].n == items[k].n + 1) &&
      (forall k :: 0 <= k < |items| && items[k].Ellipsis? ==>
        0 < k < |items| - 1 && items[k - 1].PageNo? && items[k + 1].PageNo? &&
        items[k + 1].n >= items[k - 1].n + 2)
  {
    FullPagesInRange(c, t);
    FullPagesConsecutive(c, t);
    FullPagesGaps(c, t);
  }

  lemma FullPagesInRange(c: int, t: int)
    requires 1 <= c <= t
    ensures var items := FullPages(c, t);
      forall k :: 0 <= k < |items| && items[k].PageNo? ==> 1 <= items[k].n <= t
  {
    var items := FullPages(c, t);
    forall k | 0 <= k < |items| && items[k].PageNo?
      ensures 1 <= items[k].n <= t
    {
      FullPagesAt(c, t, k);
    }
  }

  lemma FullPagesConsecutive(c: int, t: int)
    requires 1 <= c <= t
    ensures var items := FullPages(c, t);
      forall k :: 0 <= k < |items| - 1 && items[k].PageNo? && items[k + 1].PageNo? ==>
        items[k + 1].n == items[k].n + 1
  {
    var items := FullPages(c, t);
    forall k | 0 <= k < |items| - 1 && items[k].PageNo? && items[k + 1].PageNo?
      ensures items[k + 1].n == items[k].n + 1
    {
      FullPagesAt(c, t, k);
      FullPagesAt(c, t, k + 1);
    }
  }

  lemma FullPagesGaps(c: int, t: int)
    requires 1 <= c <= t
    ensures var items := FullPages(c, t);
      forall k :: 0 <= k < |items| && items[k].Ellipsis? ==>
        0 < k < |items| - 1 && items[k - 1].PageNo? && items[k + 1].PageNo? &&
        items[k + 1].n >= items[k - 1].n + 2
  {
    var items := FullPages(c, t);
    forall k | 0 <= k < |items| && items[k].Ellipsis?
      ensures 0 < k < |items| - 1 && items[k - 1].PageNo? && items[k + 1].PageNo?
      ensures items[k + 1].n >= items[k - 1].n + 2
    {
      FullPagesAt(c, t, k);
      FullPagesAt(c, t, k - 1);
      FullPagesAt(c, t, k + 1);
    }
  }

  /** In range, the current page always has a button. */
  lemma CurrentPageShown(c: int, t: int)
    requires 1 <= c <= t
    ensures PageNo(c) in FullPages(c, t)
    ensures t > 3 ==> PageNo(c) in CompactPages(c, t)
  {
    var lo, hi := Lo(c), Hi(c, t);
    var lead := if c - Delta > 2 then [Ellipsis] else [];
    var span := Span(lo, hi);
    var trail := if c + Delta < t - 1 then [Ellipsis] else [];
    var last := if t != 1 then [PageNo(t)] else [];
    var items := FullPages(c, t);
    assert items == [PageNo(1)] + lead + span + trail + last;
    if c != 1 && c != t {
      assert span[c - lo] == PageNo(c);
      assert items[1 + |lead| + (c - lo)] == PageNo(c);
    } else if c == t && t != 1 {
      assert items[|items| - 1] == PageNo(t);
    }
  }

  /** The compact row at page 2 puts an ellipsis between pages 1 and 2, where
      no page is left out. */
  lemma CompactEllipsisBetweenNeighbours()
    ensures CompactPages(2, 5) == [PageNo(1), Ellipsis, PageNo(2), Ellipsis, PageNo(5)]
  {
  }
}

=== FILE: paging.dfy ===
/**
 * The pagination arithmetic every table page repeats: `Array.prototype.slice`,
 * the page window `slice((page - 1) * size, page * size)`,
 * `Math.ceil(n / size)`, and the clamped Previous/Next buttons.
 */
module Paging {

  function Min(a: int, b: int): int { if a <= b then a else b }
  function Max(a: int, b: int): int { if a >= b then a else b }

  /** Normalises a `slice` bound: negative counts from the end, then clamp to `[0, n]`. */
  function SliceBound(i: int, n: nat): (b: nat)
    ensures b <= n
    ensures 0 <= i <= n ==> b == i
    ensures i > n ==> b == n
  {
    if i < 0 then Max(n + i, 0) else Min(i, n)
  }

  /** `s.slice(start, end)` */
  function JsSlice<T>(s: seq<T>, start: int, end: int): (r: seq<T>)
    ensures |r| <= |s|
    ensures forall x :: x in r ==> x in s
    ensures |r| == Max(0, SliceBound(end, |s|) - SliceBound(start, |s|))
    ensures forall j :: 0 <= j < |r| ==> r[j] == s[SliceBound(start, |s|) + j]
  {
    var a := SliceBound(start, |s|);
    var b := SliceBound(end, |s|);
    if a < b then s[a..b] else []
  }

  /** `Math.ceil(n / size)` for a non-negative count. */
  function TotalPages(n: nat, size: nat): (t: nat)
    requires size > 0
    ensures (t - 1) * size < n <= t * size || (n == 0 && t == 0)
    ensures t == 0 <==> n == 0
  {
    (n + size - 1) / size
  }

  /** The index of the first row of page `page`: `(page - 1) * size`. */
  function Start(page: int, size: nat): (i: int)
    ensures page >= 1 ==> i >= 0
  {
    (page - 1) * size
  }

  /** The window bounds of page `page`: `size` apart, and starting inside the
      list on every page up to the last. */
  lemma WindowBounds(n: nat, page: int, size: nat)
    requires size > 0
    ensures page * size == Start(page, size) + size
    ensures 1 <= page <= TotalPages(n, size) ==> Start(page, size) < n
  {
    var t := TotalPages(n, size);
    if 1 <= page <= t {
      assert (page - 1) * size <= (t - 1) * size;
    }
  }

  /** Rows shown on page `page` (1-based): `s.slice((page - 1) * size, page * size)`. */
  function Page<T>(s: seq<T>, page: int, size: nat): (r: seq<T>)
    requires size > 0
    ensures |r| <= size
    ensures forall x :: x in r ==> x in s
    ensures page >= 1 ==> r == s[Min(Start(page, size), |s|)..Min(Start(page, size) + size, |s|)]
    ensures 1 <= page <= TotalPages(|s|, size) ==> |r| > 0
  {
    WindowBounds(|s|, page, size);
    JsSlice(s, (page - 1) * size, page * size)
  }

  /** Row `j` of page `page` is row `(page - 1) * size + j` of the whole list, so the
      row number `first + index + 1` runs on without a gap from page to page. */
  lemma PageRow<T>(s: seq<T>, page: int, size: nat, j: int)
    requires size > 0 && page >= 1
    requires 0 <= j < |Page(s, page, size)|
    ensures Start(page, size) + j < |s|
    ensures Page(s, page, size)[j] == s[Start(page, size) + j]
  {
  }

  /** Every row is on exactly the page its index says: row `i` is row `i % size`
      of page `i / size + 1`, and that page is in range. */
  lemma RowOnPage<T>(s: seq<T>, i: int, size: nat)
    requires size > 0 && 0 <= i < |s|
    ensures 1 <= i / size + 1 <= TotalPages(|s|, size)
    ensures i % size < |Page(s, i / size + 1, size)|
    ensures Page(s, i / size + 1, size)[i % size] == s[i]
  {
    var q := i / size;
    var t := TotalPages(|s|, size);
    var first := Start(q + 1, size);
    assert first + i % size == i;
    if q >= t {
      MulMonotone(t, q, size);
      assert false;
    }
    var page := Page(s, q + 1, size);
    assert page == s[first..Min(first + size, |s|)];
    assert page[i % size] == s[first + i % size];
  }

  lemma MulMonotone(a: int, b: int, c: nat)
    requires a <= b
    ensures a * c <= b * c
  {
  }

  /** The Previous button: `Math.max(prev - 1, 1)`. */
  function PrevPage(p: int): (q: int)
    ensures q >= 1
    ensures p > 1 ==> q == p - 1
    ensures p <= 1 ==> q == 1
  {
    Max(p - 1, 1)
  }

  /** The Next button: `Math.min(prev + 1, totalPages)`. */
  function NextPage(p: int, total: int): (q: int)
    ensures q <= total
    ensures p + 1 <= total ==> q == p + 1
    ensures p + 1 > total ==> q == total
    ensures 1 <= p <= total ==> 1 <= q
  {
    Min(p + 1, total)
  }
}

=== FILE: pos_cart.dfy ===
/**
 * The point-of-sale cart: adding a product (a new line with quantity 1, or one
 * more of a line already there), removing a line, changing a quantity by a
 * step that never goes below 1, and the cart total.
 *
 * A cart line is a record: the product's id, and its name, price and the
 * quantity. Prices are whole amounts of the smallest currency unit.
 */
module PosCart {
  import opened Seqs
  import opened ResourceSlice
  import opened Paging

  datatype Product = Product(id: int, name: string, price: int)

  /** `{ ...product, qty }` without the id. */
  datatype Line = Line(name: string, price: int, qty: int)

  type Cart = seq<Record<Line>>

  function Amount(item: Record<Line>): int {
    item.attrs.price * item.attrs.qty
  }

  /** `cart.reduce((sum, item) => sum + item.price * item.qty, 0)` */
  function Total(cart: Cart): int {
    Sum(cart, Amount)
  }

  /** What every cart the operations build satisfies: one line per product id,
      and every quantity at least 1. */
  ghost predicate Valid(cart: Cart) {
    UniqueIds(cart) && forall i :: 0 <= i < |cart| ==> cart[i].attrs.qty >= 1
  }

  function WithQty(item: Record<Line>, qty: int): Record<Line> {
    item.(attrs := item.attrs.(qty := qty))
  }

  /** `addToCart(product)` */
  function AddToCart(cart: Cart, p: Product): (r: Cart)
    ensures p.id !in Ids(cart) ==> r == cart + [Record(p.id, Line(p.name, p.price, 1))]
    ensures p.id in Ids(cart) ==>
      |r| == |cart| &&
      forall i :: 0 <= i < |cart| ==>
        r[i] == if cart[i].id == p.id then WithQty(cart[i], cart[i].attrs.qty + 1) else cart[i]
  {
    if p.id in Ids(cart) then
      seq(|cart|, i requires 0 <= i < |cart| =>
        if cart[i].id == p.id then WithQty(cart[i], cart[i].attrs.qty + 1) else cart[i])
    else cart + [Record(p.id, Line(p.name, p.price, 1))]
  }

  /** `removeFromCart(id)` */
  function RemoveFromCart(cart: Cart, id: int): (r: Cart)
    ensures forall x :: x in r <==> x in cart && x.id != id
    ensures forall x :: multiset(r)[x] == if x.id != id then multiset(cart)[x] else 0
    ensures Subseq(r, cart)
    ensures id !in Ids(r)
  {
    RemoveIdGone(cart, id);
    RemoveId(cart, id)
  }

  /** `updateQty(id, delta)` */
  function UpdateQty(cart: Cart, id: int, delta: int): (r: Cart)
    ensures |r| == |cart| && Ids(r) == Ids(cart)
    ensures forall i :: 0 <= i < |cart| && cart[i].id != id ==> r[i] == cart[i]
    ensures forall i :: 0 <= i < |cart| && cart[i].id == id ==>
      r[i].attrs.name == cart[i].attrs.name && r[i].attrs.price == cart[i].attrs.price &&
      r[i].attrs.qty >= 1 &&
      (cart[i].attrs.qty + delta >= 1 ==> r[i].attrs.qty == cart[i].attrs.qty + delta) &&
      (cart[i].attrs.qty + delta < 1 ==> r[i].attrs.qty == 1)
    ensures id !in Ids(cart) ==> r == cart
  {
    seq(|cart|, i requires 0 <= i < |cart| =>
      if cart[i].id == id then WithQty(cart[i], Max(1, cart[i].attrs.qty + delta))
      else cart[i])
  }

  /** Adding a product adds its price once: the stored price of its line if the
      cart has one, or the product's price for a new line. */
  lemma AddToCartTotal(cart: Cart, p: Product)
    requires Valid(cart)
    ensures p.id !in Ids(cart) ==> Total(AddToCart(cart, p)) == Total(cart) + p.price
    ensures forall j :: 0 <= j < |cart| && cart[j].id == p.id ==>
      Total(AddToCart(cart, p)) == Total(cart) + cart[j].attrs.price
  {
    var r := AddToCart(cart, p);
    if p.id !in Ids(cart) {
      SumSnoc(cart, Record(p.id, Line(p.name, p.price, 1)), Amount);
    } else {
      forall j | 0 <= j < |cart| && cart[j].id == p.id
        ensures Total(r) == Total(cart) + cart[j].attrs.price
      {
        forall k | 0 <= k < |cart| && k != j ensures Amount(cart[k]) == Amount(r[k]) {
          assert Ids(cart)[k] != Ids(cart)[j];
        }
        SumChangeAt(cart, r, Amount, j);
      }
    }
  }

  /** Removing a product's line takes away exactly that line's amount. */
  lemma RemoveFromCartTotal(cart: Cart, id: int, j: int)
    requires Valid(cart) && 0 <= j < |cart| && cart[j].id == id
    ensures Total(RemoveFromCart(cart, id)) == Total(cart) - Amount(cart[j])
  {
    RemoveIdIsRemoveAt(cart, id, j);
    SumRemoveAt(cart, j, Amount);
  }

  /** Changing a quantity changes the total by the price times the change. */
  lemma UpdateQtyTotal(cart: Cart, id: int, delta: int, j: int)
    requires Valid(cart) && 0 <= j < |cart| && cart[j].id == id
    ensures var r := UpdateQty(cart, id, delta);
      Total(r) == Total(cart) + cart[j].attrs.price * (r[j].attrs.qty - cart[j].attrs.qty)
  {
    var r := UpdateQty(cart, id, delta);
    forall k | 0 <= k < |cart| && k != j ensures Amount(cart[k]) == Amount(r[k]) {
      assert Ids(cart)[k] != Ids(cart)[j];
    }
    SumChangeAt(cart, r, Amount, j);
    assert r[j].attrs.price == cart[j].attrs.price;
    AmountChange(cart[j], r[j]);
  }

  lemma AmountChange(before: Record<Line>, after: Record<Line>)
    requires after.attrs.price == before.attrs.price
    ensures Amount(after) - Amount(before) == before.attrs.price * (after.attrs.qty - before.attrs.qty)
  {
    var pr, a, b := before.attrs.price, before.attrs.qty, after.attrs.qty;
    assert pr * (b - a) == pr * b - pr * a;
  }

  /** Adding keeps one line per product and every quantity at least 1. */
  lemma AddToCartKeepsValid(cart: Cart, p: Product)
    requires Valid(cart)
    ensures Valid(AddToCart(cart, p))
  {
    var added := AddToCart(cart, p);
    if p.id !in Ids(cart) {
      AppendKeepsUniqueIff(cart, Record(p.id, Line(p.name, p.price, 1)));
    } else {
      assert Ids(added) == Ids(cart);
    }
  }

  /** Removing keeps one line per product and every quantity at least 1. */
  lemma RemoveFromCartKeepsValid(cart: Cart, id: int)
    requires Valid(cart)
    ensures Valid(RemoveFromCart(cart, id))
  {
    RemoveIdKeepsUnique(cart, id);
    var removed := RemoveFromCart(cart, id);
    forall i | 0 <= i < |removed| ensures removed[i].attrs.qty >= 1 {
      assert removed[i] in cart;
      var k :| 0 <= k < |cart| && cart[k] == removed[i];
    }
  }

  /** Changing a quantity keeps one line per product and every quantity at
      least 1, whatever the step. */
  lemma UpdateQtyKeepsValid(cart: Cart, id: int, delta: int)
    requires Valid(cart)
    ensures Valid(UpdateQty(cart, id, delta))
  {
  }
}

=== FILE: product_slice.dfy ===
/**
 * The product slice: four `withAuth` thunks (fetch, add, delete, update) and
 * their reducers over `{ data, loading, error }`.
 */
module ProductSlice {
  import opened Wrappers
  import opened Seqs
  import opened Http
  import opened TokenRefresh
  import opened ResourceSlice

  datatype Op = Fetch | Add | Delete | Update

  /** The actions the slice handles: every thunk's `pending` and `rejected`,
      and each thunk's own `fulfilled`. */
  datatype Action<A> =
    | Pending(op: Op)
    | Failed(op: Op, payload: ErrorValue)
    | Fetched(list: Option<seq<Record<A>>>)
    | Added(rec: Record<A>)
    | Deleted(id: int)
    | Updated(rec: Record<A>)

  function Reduce<A(==,!new)>(s: State<Record<A>>, a: Action<A>): (r: State<Record<A>>)
    ensures a.Pending? ==> r.data == s.data && r.loading && r.error.None?
    ensures a.Failed? ==> r.data == s.data && !r.loading && r.error == Some(a.payload)
    ensures !a.Pending? && !a.Failed? ==> !r.loading && r.error == s.error
    ensures a.Fetched? ==> r.data == if a.list.Some? then a.list.value else []
    ensures a.Added? ==> |r.data| == |s.data| + 1 && r.data[..|s.data|] == s.data && r.data[|s.data|] == a.rec
    ensures a.Deleted? ==>
      (forall x :: x in r.data <==> x in s.data && x.id != a.id) && Subseq(r.data, s.data) &&
      (forall x :: multiset(r.data)[x] == if x.id != a.id then multiset(s.data)[x] else 0) &&
      (a.id !in Ids(s.data) ==> r.data == s.data)
    ensures a.Updated? ==>
      |r.data| == |s.data| && Ids(r.data) == Ids(s.data) &&
      (a.rec.id in Ids(s.data) ==> r.data[FindIndex(s.data, a.rec.id)] == a.rec) &&
      (forall j :: 0 <= j < |s.data| && s.data[j].id != a.rec.id ==> r.data[j] == s.data[j]) &&
      (a.rec.id !in Ids(s.data) ==> r.data == s.data)
  {
    match a
    case Pending(_) => SetPending(s, true)
    case Failed(_, p) => SetRejected(s, p)
    case Fetched(list) => s.(loading := false, data := list.GetOr([]))
    case Added(rec) => s.(loading := false, data := s.data + [rec])
    case Deleted(id) => s.(loading := false, data := RemoveId(s.data, id))
    case Updated(rec) => s.(loading := false, data := ReplaceById(s.data, rec))
  }

  /** The action a settled fetch dispatches. */
  function FetchAction<A>(st: Settled<Option<seq<Record<A>>>>): (a: Action<A>)
    ensures st.Fulfilled? ==> a == Fetched(st.value)
    ensures st.Rejected? ==> a == Failed(Fetch, st.payload)
  {
    match st
    case Fulfilled(v) => Fetched(v)
    case Rejected(p) => Failed(Fetch, p)
  }

  /** The action a settled delete dispatches; the delete thunk settles as
      `DeleteThenId` as written and as `DeleteSettled` as intended. */
  function DeleteAction<A>(st: Settled<int>): Action<A> {
    match st
    case Fulfilled(v) => Deleted(v)
    case Rejected(p) => Failed(Delete, p)
  }

  /** `fetchnewProducts` as written: `await withAuth(...).then((res) => res.data)`.
      A `rejectWithValue` result has no `data`, so the thunk fulfils with
      `undefined`, whatever went wrong. */
  function FetchAsWritten<A>(o: Outcome<seq<Record<A>>>): (a: Action<A>)
    ensures a.Fetched?
    ensures o.Resolved? ==> a == Fetched(Some(o.value))
    ensures o.RejectedWith? ==> a == Fetched(None)
  {
    FetchAction(SettleThen(o, (d: seq<Record<A>>) => Some(d), None))
  }

  /** `deletenewProduct` as written is `DeleteThenId`: a refused delete still
      removes the product from the list, and the refusal is not recorded
      anywhere. */
  lemma DeleteRefusedRemovesLocally<A(!new)>(s: State<Record<A>>, id: int, refusal: ErrorValue)
    requires id in Ids(s.data)
    ensures var r := Reduce(s, DeleteAction(DeleteThenId(RejectedWith(refusal), id)));
      id !in Ids(r.data) && r.error == s.error
  {
    RemoveIdGone(s.data, id);
  }

  /** A failed fetch, after its `pending`, empties the product list and leaves
      `error` null: the failure looks like an empty catalogue. */
  lemma FetchFailureLooksEmpty<A(!new)>(s: State<Record<A>>, refusal: ErrorValue)
    ensures var r := Reduce(Reduce(s, Pending(Fetch)), FetchAsWritten(RejectedWith(refusal)));
      r.data == [] && r.error == None && !r.loading
  {
  }

  /** The thunks as evidently intended, settled the way the vendor thunks are:
      a `rejectWithValue` result rejects the thunk. */
  function FetchIntended<A>(o: Outcome<seq<Record<A>>>): (a: Action<A>)
    ensures o.Resolved? ==> a == Fetched(Some(o.value)) && a == FetchAsWritten(o)
    ensures o.RejectedWith? ==> a == Failed(Fetch, o.payload)
  {
    FetchAction(Settle(MapOutcome(o, (d: seq<Record<A>>) => Some(d))))
  }

  /** With the intended settling, a refused request keeps the list and records
      the refusal in `error`. */
  lemma IntendedKeepsListOnRefusal<A(!new)>(s: State<Record<A>>, id: int, refusal: ErrorValue)
    ensures var afterDelete := Reduce(s, DeleteAction(DeleteSettled(RejectedWith(refusal), id)));
      afterDelete.data == s.data && afterDelete.error == Some(refusal)
    ensures var afterFetch := Reduce(Reduce(s, Pending(Fetch)), FetchIntended(RejectedWith(refusal)));
      afterFetch.data == s.data && afterFetch.error == Some(refusal) && !afterFetch.loading
  {
  }

  /** Deletes and updates, and the flag-only cases, keep product ids unique. */
  lemma EditsKeepIdsUnique<A(!new)>(s: State<Record<A>>, a: Action<A>)
    requires UniqueIds(s.data)
    requires a.Deleted? || a.Updated? || a.Pending? || a.Failed?
    ensures UniqueIds(Reduce(s, a).data)
  {
    if a.Deleted? {
      RemoveIdKeepsUnique(s.data, a.id);
    } else if a.Updated? {
      ReplaceKeepsUnique(s.data, a.rec);
    }
  }
}

=== FILE: products_table.dfy ===
/**
 * The product table: a column header that sorts on its field and, clicked
 * again, reverses the order; a case-insensitive name search; and the listed
 * rows, the store's products filtered and then sorted by the chosen field,
 * strings compared case-insensitively.
 *
 * A product's sortable fields other than its name are held as sort keys:
 * text as `Str`, numbers as `Num`, the `is_active` flag as `Num(0)` or
 * `Num(1)` (how `<` compares booleans), and an absent field as `Missing`.
 */
module ProductsTable {
  import opened Text
  import opened Seqs
  import opened Sorting

  datatype Product = Product(id: int, name: string, fields: map<string, Key>)

  /** The column sorted on and its direction; the table starts on the name,
      ascending. */
  datatype SortState = SortState(field: string, asc: bool)

  const NameField: string := "name"

  function InitialSort(): SortState {
    SortState(NameField, true)
  }

  /** `handleSort(field)` */
  function HandleSort(s: SortState, field: string): (r: SortState)
    ensures r.field == field
    ensures s.field == field ==> r.asc == !s.asc
    ensures s.field != field ==> r.asc
  {
    if s.field == field then s.(asc := !s.asc) else SortState(field, true)
  }

  /** Two clicks on the header already sorted on restore the order; two
      clicks on a new header give descending; a click on another header and
      back again always lands on ascending. */
  lemma HandleSortTwice(s: SortState, field: string, other: string)
    requires other != field
    ensures s.field == field ==> HandleSort(HandleSort(s, field), field) == s
    ensures s.field != field ==> HandleSort(HandleSort(s, field), field) == SortState(field, false)
    ensures HandleSort(HandleSort(HandleSort(s, field), other), field) == SortState(field, true)
  {
  }

  /** `a[sortField]`, lower-cased when it is a string. */
  function SortKey(field: string): Product -> Key {
    (p: Product) =>
      var k := if field == NameField then Str(p.name)
               else if field in p.fields then p.fields[field]
               else Missing;
      if k.Str? then Str(LowerStr(k.s)) else k
  }

  predicate NameMatches(p: Product, search: string) {
    ContainsCI(p.name, search)
  }

  /** `filteredProducts`: the products whose name contains the search, each
      as often as in the store, sorted by the chosen field. */
  function FilteredProducts(products: seq<Product>, search: string, s: SortState): (r: seq<Product>)
    ensures forall p :: multiset(r)[p] == if NameMatches(p, search) then multiset(products)[p] else 0
    ensures forall p :: p in r <==> p in products && NameMatches(p, search)
    ensures SortedBy(r, SortKey(s.field), s.asc)
  {
    var keep := (p: Product) => NameMatches(p, search);
    var kept := Filter(products, keep);
    FilterMultiset(products, keep);
    var r := SortBy(kept, SortKey(s.field), s.asc);
    PermutationMembers(r, kept);
    r
  }

  /** An empty search lists every product, in some order. */
  lemma EmptySearchListsAll(products: seq<Product>, s: SortState)
    ensures multiset(FilteredProducts(products, "", s)) == multiset(products)
  {
    forall p | true ensures NameMatches(p, "") {
      ContainsCIEmpty(p.name);
    }
  }

  /** Sorting on the name ignores case: of two neighbouring rows in ascending
      order, the first's lower-cased name is not after the second's. */
  lemma NameOrderIgnoresCase(products: seq<Product>, search: string, i: int)
    requires var r := FilteredProducts(products, search, InitialSort()); 0 <= i < |r| - 1
    ensures var r := FilteredProducts(products, search, InitialSort());
      !StrLess(LowerStr(r[i + 1].name), LowerStr(r[i].name))
  {
    var r := FilteredProducts(products, search, InitialSort());
    assert !Before(SortKey(NameField)(r[i + 1]), SortKey(NameField)(r[i]), true);
    NameKey(r[i]);
    NameKey(r[i + 1]);
  }

  /** On the name column the key is the lower-cased name. */
  lemma NameKey(p: Product)
    ensures SortKey(NameField)(p) == Str(LowerStr(p.name))
  {
  }
}

=== FILE: purchase_form.dfy ===
/**
 * The vendor purchase form: rows of product, quantity and unit cost, the
 * change of one field of one row (choosing a product fills in its cost),
 * adding a blank row, the `addPurchase` payload, and the reset after the
 * server accepts it.
 *
 * Every input is held as its text. The first row's quantity starts as the
 * number 1, which reads exactly like the text "1" wherever the form uses it.
 */
module PurchaseForm {
  import opened Wrappers
  import opened Text
  import opened Catalog

  datatype Row = Row(product: string, quantity: string, unitCost: string)

  /** The form's state; `date` is today's date when the form is created. */
  datatype Form = Form(vendor: string, invoiceNo: string, date: string, items: seq<Row>)

  const BlankRow: Row := Row("", "1", "")

  function InitialForm(today: string): (f: Form)
    ensures f.vendor == "" && f.invoiceNo == "" && f.date == today && f.items == [BlankRow]
  {
    Form("", "", today, [BlankRow])
  }

  /** The `name` of the row input that changed. */
  datatype RowField = ProductName | QuantityName | UnitCostName

  /** The row after one input changed: that field set to the value, and
      choosing a known product fills in `unit_cost || ""`. */
  function ChangeRow(row: Row, name: RowField, value: string, products: seq<CatalogProduct>): Row {
    match name
    case ProductName =>
      var chosen := FindProduct(products, value);
      if chosen.Some? then Row(value, row.quantity, OrElse(chosen.value.unitCost, ""))
      else row.(product := value)
    case QuantityName => row.(quantity := value)
    case UnitCostName => row.(unitCost := value)
  }

  /** `handleItemChange(index, e)`; the index is always a row's own. */
  function HandleItemChange(f: Form, index: int, name: RowField, value: string,
                            products: seq<CatalogProduct>): (r: Form)
    requires 0 <= index < |f.items|
    ensures r.vendor == f.vendor && r.invoiceNo == f.invoiceNo && r.date == f.date
    ensures |r.items| == |f.items|
    ensures forall i :: 0 <= i < |f.items| && i != index ==> r.items[i] == f.items[i]
    ensures name == QuantityName ==> r.items[index] == f.items[index].(quantity := value)
    ensures name == UnitCostName ==> r.items[index] == f.items[index].(unitCost := value)
    ensures name == ProductName ==>
      r.items[index].product == value && r.items[index].quantity == f.items[index].quantity
  {
    f.(items := f.items[index := ChangeRow(f.items[index], name, value, products)])
  }

  /** Choosing a product that is in the catalogue sets the row's cost to the
      product's cost, or to empty text when it has none; a value that names no
      product changes only the product field. */
  lemma ChoosingProductSetsCost(f: Form, index: int, value: string, products: seq<CatalogProduct>)
    requires 0 <= index < |f.items|
    ensures var row := HandleItemChange(f, index, ProductName, value, products).items[index];
      ((exists p :: p in products && Some(p.id) == ParseInt(value)) ==>
        row.unitCost == OrElse(FindProduct(products, value).value.unitCost, "")) &&
      ((forall p :: p in products ==> Some(p.id) != ParseInt(value)) ==>
        row == f.items[index].(product := value))
  {
  }

  /** `addItemRow()` */
  function AddItemRow(f: Form): (r: Form)
    ensures r.items == f.items + [BlankRow]
    ensures r.vendor == f.vendor && r.invoiceNo == f.invoiceNo && r.date == f.date
  {
    f.(items := f.items + [BlankRow])
  }

  /** One payload item; `None` is `NaN`. */
  datatype PurchaseLine = PurchaseLine(product: Option<int>, quantity: Option<int>, unitCost: Option<int>)

  datatype PurchasePayload = PurchasePayload(vendor: Option<int>, invoiceNo: string, date: string, items: seq<PurchaseLine>)

  function LineOf(row: Row): PurchaseLine {
    PurchaseLine(ParseInt(row.product), ParseInt(row.quantity), ParseInt(row.unitCost))
  }

  /** The body `handleSubmit` sends: the vendor parsed to a number, and one
      item per row, in order, each field parsed. */
  function Payload(f: Form): (p: PurchasePayload)
    ensures p.vendor == ParseInt(f.vendor) && p.invoiceNo == f.invoiceNo && p.date == f.date
    ensures |p.items| == |f.items|
    ensures forall i :: 0 <= i < |f.items| ==> p.items[i] == LineOf(f.items[i])
  {
    PurchasePayload(ParseInt(f.vendor), f.invoiceNo, f.date,
                    seq(|f.items|, i requires 0 <= i < |f.items| => LineOf(f.items[i])))
  }

  /** The blank row sends no product, quantity 1 and no cost. */
  lemma BlankRowLine()
    ensures LineOf(BlankRow) == PurchaseLine(None, Some(1), None)
  {
    assert ParseInt(BlankRow.product) == None && ParseInt(BlankRow.unitCost) == None by {
      ParseEmpty();
    }
    assert ParseInt(BlankRow.quantity) == Some(1) by {
      ParseOne();
    }
  }

  /** A new blank row sends one more item: no product, quantity 1, no cost. */
  lemma AddItemRowPayload(f: Form)
    ensures var p := Payload(AddItemRow(f));
      p.items == Payload(f).items + [PurchaseLine(None, Some(1), None)]
  {
    PayloadAppend(f, BlankRow);
    BlankRowLine();
  }

  /** Appending a row appends its line to the payload. */
  lemma PayloadAppend(f: Form, row: Row)
    ensures Payload(f.(items := f.items + [row])).items == Payload(f).items + [LineOf(row)]
  {
    var g := f.(items := f.items + [row]);
    var p := Payload(g).items;
    var q := Payload(f).items + [LineOf(row)];
    forall i | 0 <= i < |p| ensures p[i] == q[i] {
      if i < |f.items| {
        assert g.items[i] == f.items[i];
      }
    }
  }

  /** The form after the server's answer: reset to one blank row when the
      purchase was accepted, kept for another try when it was not. */
  function AfterSubmit(f: Form, accepted: bool, today: string): (r: Form)
    ensures accepted ==> r.items == [BlankRow] && r.vendor == "" && r.invoiceNo == ""
    ensures accepted ==> r.date == today
    ensures !accepted ==> r == f
  {
    if accepted then InitialForm(today) else f
  }

  /** After an accepted purchase the form sends an empty vendor and one blank
      item, however many rows it had. */
  lemma ResetPayload(f: Form, today: string)
    ensures Payload(AfterSubmit(f, true, today)).items == [PurchaseLine(None, Some(1), None)]
    ensures Payload(AfterSubmit(f, true, today)).vendor.None?
  {
    var g := AfterSubmit(f, true, today);
    assert Payload(g).items == [LineOf(BlankRow)] by {
      assert g.items == [BlankRow];
    }
    assert LineOf(BlankRow) == PurchaseLine(None, Some(1), None) by {
      BlankRowLine();
    }
    assert Payload(g).vendor.None? by {
      assert g.vendor == "";
      ParseEmpty();
    }
  }
}

=== FILE: purchase_slice.dfy ===
/**
 * The purchase slice: fetch, add and delete thunks without token refresh, and
 * reducers over `{ purchases, loading, error }`. Every `pending` clears
 * `error`; every rejection falls back to one message.
 */
module PurchaseSlice {
  import opened Wrappers
  import opened Seqs
  import opened Http
  import opened ResourceSlice

  const SomethingWentWrong: string := "Something went wrong"

  datatype Op = Fetch | Add | Delete

  datatype Action<A> =
    | Pending(op: Op)
    | Failed(op: Op, payload: ErrorValue)
    | Fetched(list: seq<Record<A>>)
    | Added(rec: Record<A>)
    | Deleted(id: int)

  function Reduce<A(==,!new)>(s: State<Record<A>>, a: Action<A>): (r: State<Record<A>>)
    ensures a.Pending? ==> r.data == s.data && r.loading && r.error.None?
    ensures a.Failed? ==> r.data == s.data && !r.loading && r.error == Some(a.payload)
    ensures a.Fetched? || a.Added? || a.Deleted? ==> !r.loading && r.error == s.error
    ensures a.Fetched? ==> r.data == a.list
    ensures a.Added? ==> r.data == s.data + [a.rec]
    ensures a.Deleted? ==>
      (forall x :: x in r.data <==> x in s.data && x.id != a.id) && Subseq(r.data, s.data) &&
      (forall x :: multiset(r.data)[x] == if x.id != a.id then multiset(s.data)[x] else 0) &&
      (a.id !in Ids(s.data) ==> r.data == s.data)
  {
    match a
    case Pending(_) => SetPending(s, true)
    case Failed(_, p) => SetRejected(s, p)
    case Fetched(list) => s.(loading := false, data := list)
    case Added(rec) => s.(loading := false, data := s.data + [rec])
    case Deleted(id) => s.(loading := false, data := RemoveId(s.data, id))
  }

  /** The action a purchase thunk ends with, given the server's reply and what
      the thunk fulfils with on success (`res.data`, or the id for a delete). */
  function Finish<A, D>(op: Op, reply: Reply<D>, fulfilled: D -> Action<A>): (a: Action<A>)
    ensures reply.Ok? ==> a == fulfilled(reply.data)
    ensures reply.Fail? ==> a == Failed(op, DataOr(reply.err, SomethingWentWrong))
  {
    match SettleReply(reply, SomethingWentWrong)
    case Fulfilled(d) => fulfilled(d)
    case Rejected(p) => Failed(op, p)
  }

  /** Whatever fails, the error becomes the response body or the fallback
      message, and the list is kept. */
  lemma FailureKeepsList<A(!new)>(s: State<Record<A>>, op: Op, err: HttpError)
    ensures var r := Reduce(s, Finish<A, ()>(op, Fail(err), (_: ()) => Pending(op)));
      r.data == s.data && !r.loading &&
      r.error == Some(if err.data.Some? then Data(err.data.value) else Message(SomethingWentWrong))
  {
  }

  /** A pending request followed by an accepted delete of purchase `id`. */
  lemma DeleteAccepted<A(!new)>(s: State<Record<A>>, id: int)
    ensures var r := Reduce(Reduce(s, Pending(Delete)), Finish(Delete, Ok(()), (_: ()) => Deleted(id)));
      id !in Ids(r.data) && r.error.None? && !r.loading
  {
    RemoveIdGone(s.data, id);
  }
}

=== FILE: resource_slice.dfy ===
/**
 * What every resource slice shares: a list of records with ids, a `loading`
 * flag and an `error`, and the list edits its reducers make — replace, append
 * (`push`), replace in place by id (`findIndex` then assignment) and delete by
 * id (`filter`).
 */
module ResourceSlice {
  import opened Wrappers
  import opened Seqs
  import opened Http

  /** A record as the server sends it: an `id` and the rest of its fields. */
  datatype Record<A> = Record(id: int, attrs: A)

  /** `{ data: [], loading: false, error: null }`; each slice names `data` after
      its resource (`vendors`, `sales`, `entries`, ...). */
  datatype State<R> = State(data: seq<R>, loading: bool, error: Option<ErrorValue>)

  function Initial<R>(): State<R> {
    State([], false, None)
  }

  function Ids<A>(rs: seq<Record<A>>): (ids: seq<int>)
    ensures |ids| == |rs|
    ensures forall i :: 0 <= i < |rs| ==> ids[i] == rs[i].id
  {
    seq(|rs|, i requires 0 <= i < |rs| => rs[i].id)
  }

  /** `data.filter((r) => r.id !== id)`: exactly the records with another id,
      each as often as before and in the same order. */
  function RemoveId<A(==,!new)>(rs: seq<Record<A>>, id: int): (out: seq<Record<A>>)
    ensures forall r :: r in out <==> r in rs && r.id != id
    ensures forall r :: multiset(out)[r] == if r.id != id then multiset(rs)[r] else 0
    ensures Subseq(out, rs)
    ensures id !in Ids(rs) ==> out == rs
  {
    var keep := (r: Record<A>) => r.id != id;
    var out := Filter(rs, keep);
    FilterMultiset(rs, keep);
    if id !in Ids(rs) then
      FilterAll(rs, keep);
      out
    else out
  }

  /** `data.findIndex((r) => r.id === id)`: the first index with that id, or -1. */
  function FindIndex<A>(rs: seq<Record<A>>, id: int): (i: int)
    ensures -1 <= i < |rs|
    ensures i >= 0 ==> rs[i].id == id && forall j :: 0 <= j < i ==> rs[j].id != id
    ensures i == -1 <==> id !in Ids(rs)
  {
    if |rs| == 0 then -1
    else if rs[0].id == id then 0
    else
      var k := FindIndex(rs[1..], id);
      assert Ids(rs) == [rs[0].id] + Ids(rs[1..]);
      if k == -1 then -1 else k + 1
  }

  /** `const index = data.findIndex((r) => r.id === rec.id); if (index !== -1) data[index] = rec;` */
  function ReplaceById<A>(rs: seq<Record<A>>, rec: Record<A>): (out: seq<Record<A>>)
    ensures |out| == |rs|
    ensures rec.id !in Ids(rs) ==> out == rs
    ensures rec.id in Ids(rs) ==>
      var i := FindIndex(rs, rec.id);
      out[i] == rec && forall j :: 0 <= j < |rs| && j != i ==> out[j] == rs[j]
    ensures Ids(out) == Ids(rs)
  {
    var i := FindIndex(rs, rec.id);
    if i == -1 then rs else rs[i := rec]
  }

  /** Deleting an id leaves no record with it, and deleting it again changes nothing. */
  lemma RemoveIdGone<A(!new)>(rs: seq<Record<A>>, id: int)
    ensures id !in Ids(RemoveId(rs, id))
    ensures RemoveId(RemoveId(rs, id), id) == RemoveId(rs, id)
  {
    var out := RemoveId(rs, id);
    forall j | 0 <= j < |out| ensures Ids(out)[j] != id {
      assert out[j] in out;
    }
  }

  /** Adding a record and then deleting its id is the same as deleting the id. */
  lemma {:induction false} RemoveIdAfterAppend<A(!new)>(rs: seq<Record<A>>, rec: Record<A>)
    ensures RemoveId(rs + [rec], rec.id) == RemoveId(rs, rec.id)
  {
    var keep := (r: Record<A>) => r.id != rec.id;
    FilterSnocDrop(rs, rec, keep);
  }

  lemma {:induction false} FilterSnocDrop<T(!new)>(s: seq<T>, x: T, p: T -> bool)
    requires !p(x)
    ensures Filter(s + [x], p) == Filter(s, p)
  {
    if |s| == 0 {
      assert s + [x] == [x];
      assert [x][1..] == [];
    } else {
      assert (s + [x])[1..] == s[1..] + [x];
      FilterSnocDrop(s[1..], x, p);
    }
  }

  ghost predicate UniqueIds<A>(rs: seq<Record<A>>) {
    NoDup(Ids(rs))
  }

  /** Deleting keeps ids unique. */
  lemma RemoveIdKeepsUnique<A(!new)>(rs: seq<Record<A>>, id: int)
    requires UniqueIds(rs)
    ensures UniqueIds(RemoveId(rs, id))
  {
    SubseqNoDupIds(RemoveId(rs, id), rs);
  }

  /** Replacing in place keeps ids unique. */
  lemma ReplaceKeepsUnique<A>(rs: seq<Record<A>>, rec: Record<A>)
    requires UniqueIds(rs)
    ensures UniqueIds(ReplaceById(rs, rec))
  {
  }

  /** Appending keeps ids unique exactly when the new id is not present yet. */
  lemma AppendKeepsUniqueIff<A>(rs: seq<Record<A>>, rec: Record<A>)
    requires UniqueIds(rs)
    ensures UniqueIds(rs + [rec]) <==> rec.id !in Ids(rs)
  {
    var app := rs + [rec];
    assert Ids(app) == Ids(rs) + [rec.id];
    if rec.id in Ids(rs) {
      var k :| 0 <= k < |rs| && Ids(rs)[k] == rec.id;
      assert Ids(app)[k] == Ids(app)[|rs|];
    }
  }

  lemma {:induction false} SubseqNoDupIds<A>(r: seq<Record<A>>, s: seq<Record<A>>)
    requires Subseq(r, s) && UniqueIds(s)
    ensures UniqueIds(r)
    decreases |s|
  {
    if |r| > 0 && |s| > 0 {
      assert Ids(s[1..]) == Ids(s)[1..];
      if r[0] == s[0] {
        SubseqNoDupIds(r[1..], s[1..]);
        assert Ids(r[1..]) == Ids(r)[1..];
        SubseqMember(r[1..], s[1..]);
        forall j | 0 < j < |r| ensures r[j].id != r[0].id {
          assert r[j] in r[1..];
          var k :| 0 <= k < |s[1..]| && s[1..][k] == r[j];
          assert Ids(s)[k + 1] == r[j].id;
        }
      } else {
        SubseqNoDupIds(r, s[1..]);
      }
    }
  }

  /** With unique ids, deleting by id drops exactly the one position holding it. */
  lemma RemoveIdIsRemoveAt<A(!new)>(rs: seq<Record<A>>, id: int, j: int)
    requires UniqueIds(rs) && 0 <= j < |rs| && rs[j].id == id
    ensures RemoveId(rs, id) == RemoveAt(rs, j)
  {
    var keep := (r: Record<A>) => r.id != id;
    forall k | 0 <= k < |rs| && k != j ensures keep(rs[k]) {
      assert Ids(rs)[k] != Ids(rs)[j];
    }
    FilterDropsOne(rs, keep, j);
  }

  /** `state.loading = true`, and `state.error = null` where the case clears it. */
  function SetPending<R>(s: State<R>, clearError: bool): (r: State<R>)
    ensures r.data == s.data && r.loading
    ensures r.error == if clearError then None else s.error
  {
    State(s.data, true, if clearError then None else s.error)
  }

  /** `state.loading = false; state.error = action.payload;` */
  function SetRejected<R>(s: State<R>, payload: ErrorValue): (r: State<R>)
    ensures r.data == s.data && !r.loading && r.error == Some(payload)
  {
    State(s.data, false, Some(payload))
  }
}

=== FILE: sale_form.dfy ===
/**
 * The sale form: a list of item rows (product, quantity, unit price), the
 * subtotal and total kept in step with them, the discount, and the submit
 * that refuses an overpayment and otherwise sends one item per row.
 *
 * The unit price is held as the text of its input, as the form holds it; the
 * quantity is held as the number its input shows. Money is in whole units of
 * the smallest currency unit, so `parseFloat` reads like `parseInt`.
 */
module SaleForm {
  import opened Wrappers
  import opened Text
  import opened Seqs
  import opened SaleSlice
  import opened Catalog

  datatype Item = Item(product: string, quantity: int, unitPrice: string)

  /** The header fields the form only copies into the request. */
  datatype Details = Details(
    invoiceNo: string, customerName: string, customerPhone: string, branch: string,
    paymentMethod: string, createdBy: string, notes: string)

  datatype Form = Form(details: Details, subtotal: int, discount: int, total: int, paid: int, items: seq<Item>)

  /** The row `addItem` appends, and the form's first row. */
  const BlankItem: Item := Item("", 1, "")

  /** `parseFloat(item.unit_price) || 0` */
  function PriceOf(item: Item): int {
    ParseInt(item.unitPrice).GetOr(0)
  }

  function Amount(item: Item): int {
    item.quantity * PriceOf(item)
  }

  /** The totals agree with the rows: subtotal is the sum of quantity times
      price, and total is subtotal less discount, with no clamping. */
  ghost predicate Consistent(f: Form) {
    f.subtotal == Sum(f.items, Amount) && f.total == f.subtotal - f.discount
  }

  function InitialForm(details: Details): (f: Form)
    ensures Consistent(f) && f.items == [BlankItem] && f.total == 0
  {
    assert Sum([BlankItem], Amount) == Sum([BlankItem][..0], Amount) + Amount(BlankItem);
    Form(details, 0, 0, 0, 0, [BlankItem])
  }

  /** `recalcTotals(newItems, discountValue)` together with the `setItems` that
      precedes it. */
  function Recalc(f: Form, items: seq<Item>, discount: int): (r: Form)
    ensures Consistent(r)
    ensures r.items == items && r.discount == discount
    ensures r.details == f.details && r.paid == f.paid
  {
    var sub := Sum(items, Amount);
    f.(items := items, subtotal := sub, discount := discount, total := sub - discount)
  }

  /** `addItem()` */
  function AddItem(f: Form): (r: Form)
    ensures r.items == f.items + [BlankItem]
    ensures Consistent(r) && r.discount == f.discount && r.paid == f.paid
  {
    Recalc(f, f.items + [BlankItem], f.discount)
  }

  /** The field an item input changes, with the input's value. */
  datatype Field = ProductField(value: string) | QuantityField(quantity: int) | PriceField(text: string)

  /** The row after one input changed: the field set, and choosing a known
      product copies `unit_cost || 0` into the price. */
  function SetField(item: Item, field: Field, products: seq<CatalogProduct>): Item {
    match field
    case ProductField(v) =>
      var chosen := FindProduct(products, v);
      if chosen.Some? then Item(v, item.quantity, OrElse(chosen.value.unitCost, "0"))
      else item.(product := v)
    case QuantityField(q) => item.(quantity := q)
    case PriceField(t) => item.(unitPrice := t)
  }

  /** `updateItem(index, field, value)`; the index is always a row's own. */
  function UpdateItem(f: Form, index: int, field: Field, products: seq<CatalogProduct>): (r: Form)
    requires 0 <= index < |f.items|
    ensures |r.items| == |f.items|
    ensures forall i :: 0 <= i < |f.items| && i != index ==> r.items[i] == f.items[i]
    ensures field.QuantityField? ==> r.items[index] == f.items[index].(quantity := field.quantity)
    ensures field.PriceField? ==> r.items[index] == f.items[index].(unitPrice := field.text)
    ensures field.ProductField? ==>
      r.items[index].product == field.value && r.items[index].quantity == f.items[index].quantity
    ensures Consistent(r) && r.discount == f.discount && r.paid == f.paid
  {
    Recalc(f, f.items[index := SetField(f.items[index], field, products)], f.discount)
  }

  /** `removeItem(index)` */
  function RemoveItem(f: Form, index: int): (r: Form)
    ensures r.items == RemoveAt(f.items, index)
    ensures Consistent(r) && r.discount == f.discount && r.paid == f.paid
  {
    Recalc(f, RemoveAt(f.items, index), f.discount)
  }

  /** The discount input: `setDiscount(v)` and `recalcTotals(items, v)`. */
  function SetDiscount(f: Form, discount: int): (r: Form)
    ensures r.items == f.items && r.discount == discount
    ensures Consistent(r) && r.paid == f.paid
  {
    Recalc(f, f.items, discount)
  }

  /** Choosing a catalogue product copies its cost into the row's price, or 0
      when it has none; a value that names no product changes only the
      product field. */
  lemma ChoosingProductSetsPrice(f: Form, index: int, value: string, products: seq<CatalogProduct>)
    requires 0 <= index < |f.items|
    ensures var row := UpdateItem(f, index, ProductField(value), products).items[index];
      var chosen := FindProduct(products, value);
      (chosen.Some? ==> row.product == value && row.unitPrice == OrElse(chosen.value.unitCost, "0")) &&
      (chosen.Some? && !Truthy(chosen.value.unitCost) ==> PriceOf(row) == 0) &&
      (chosen.None? ==> row == f.items[index].(product := value))
  {
    ParseShowInt(0);
    assert ShowInt(0) == "0";
  }

  /** Adding a blank row leaves the subtotal unchanged: it adds one of nothing. */
  lemma AddItemKeepsSubtotal(f: Form)
    requires Consistent(f)
    ensures AddItem(f).subtotal == f.subtotal && AddItem(f).total == f.total
  {
    SumSnoc(f.items, BlankItem, Amount);
  }

  /** Removing a row takes exactly its amount off the subtotal and the total. */
  lemma RemoveItemSubtotal(f: Form, index: int)
    requires Consistent(f) && 0 <= index < |f.items|
    ensures RemoveItem(f, index).subtotal == f.subtotal - Amount(f.items[index])
    ensures RemoveItem(f, index).total == f.total - Amount(f.items[index])
  {
    SumRemoveAt(f.items, index, Amount);
  }

  /** Changing a row changes the subtotal by the change in that row's amount. */
  lemma UpdateItemSubtotal(f: Form, index: int, field: Field, products: seq<CatalogProduct>)
    requires Consistent(f) && 0 <= index < |f.items|
    ensures var r := UpdateItem(f, index, field, products);
      r.subtotal == f.subtotal - Amount(f.items[index]) + Amount(r.items[index])
  {
    var r := UpdateItem(f, index, field, products);
    SumChangeAt(f.items, r.items, Amount, index);
  }

  /** `handleSubmit`: refused, with nothing sent, when more is paid than is
      owed; otherwise the `createSale` body with one item per row. */
  function Submit(f: Form): (p: Option<SalePayload>)
    ensures p.None? <==> f.paid > f.total
    ensures p.Some? ==>
      p.value.header == SaleHeader(
        f.details.invoiceNo, f.details.customerName, f.details.customerPhone, f.details.branch,
        f.subtotal, f.discount, f.total, f.paid,
        f.details.paymentMethod, f.details.createdBy, f.details.notes)
    ensures p.Some? ==>
      |p.value.items| == |f.items| &&
      forall i :: 0 <= i < |f.items| ==>
        p.value.items[i] == SaleLine(ParseInt(f.items[i].product), Some(f.items[i].quantity),
                                     ParseInt(f.items[i].unitPrice))
  {
    if f.paid > f.total then None
    else
      var d := f.details;
      var header := SaleHeader(d.invoiceNo, d.customerName, d.customerPhone, d.branch,
                               f.subtotal, f.discount, f.total, f.paid,
                               d.paymentMethod, d.createdBy, d.notes);
      var lines := seq(|f.items|, i requires 0 <= i < |f.items| =>
        SaleItemInput(SaleLine(ParseInt(f.items[i].product), Some(f.items[i].quantity),
                               ParseInt(f.items[i].unitPrice)), ()));
      Some(ShapePayload(SaleInput(header, lines, ())))
  }

  /** A submitted sale never records more paid than owed, and its totals
      agree with the lines it sends, an empty price counting as 0. */
  lemma SubmittedTotalsAgree(f: Form)
    requires Consistent(f) && Submit(f).Some?
    ensures var p := Submit(f).value;
      p.header.paidAmount <= p.header.totalAmount &&
      p.header.subtotal == Sum(f.items, Amount) &&
      p.header.totalAmount == p.header.subtotal - p.header.discount
  {
  }
}

=== FILE: sale_slice.dfy ===
/**
 * The sale slice: fetch, create and delete thunks without token refresh, the
 * create payload shaping, and reducers over `{ sales, loading, error }`.
 * Only the fetch `pending` clears `error`.
 */
module SaleSlice {
  import opened Wrappers
  import opened Seqs
  import opened Http
  import opened ResourceSlice

  /** The sale fields sent to the server, all but the items. */
  datatype SaleHeader = SaleHeader(
    invoiceNo: string, customerName: string, customerPhone: string, branch: string,
    subtotal: int, discount: int, totalAmount: int, paidAmount: int,
    paymentMethod: string, createdBy: string, notes: string)

  /** One item as sent: `{ product, quantity, unit_price }`; `None` is `NaN`. */
  datatype SaleLine = SaleLine(product: Option<int>, quantity: Option<int>, unitPrice: Option<int>)

  /** An item as the caller passes it: the three sent fields and whatever else it carries. */
  datatype SaleItemInput<X> = SaleItemInput(line: SaleLine, rest: X)

  /** The `saleData` argument of `createSale`: the header fields, the items, and
      any other fields the caller added. */
  datatype SaleInput<X, Y> = SaleInput(header: SaleHeader, items: seq<SaleItemInput<X>>, rest: Y)

  datatype SalePayload = SalePayload(header: SaleHeader, items: seq<SaleLine>)

  /** The body `createSale` posts: exactly the listed fields, and each item cut
      down to product, quantity and unit price, in the same order. */
  function ShapePayload<X, Y>(d: SaleInput<X, Y>): (p: SalePayload)
    ensures p.header == d.header
    ensures |p.items| == |d.items|
    ensures forall i :: 0 <= i < |d.items| ==> p.items[i] == d.items[i].line
  {
    SalePayload(d.header, seq(|d.items|, i requires 0 <= i < |d.items| => d.items[i].line))
  }

  /** Inputs that differ only in their extra fields give the same payload. */
  lemma ShapeIgnoresExtras<X, Y>(d: SaleInput<X, Y>, e: SaleInput<X, Y>)
    requires d.header == e.header && |d.items| == |e.items|
    requires forall i :: 0 <= i < |d.items| ==> d.items[i].line == e.items[i].line
    ensures ShapePayload(d) == ShapePayload(e)
  {
  }

  /** `err.response?.data || err.message`, the rejection payload of every sale thunk. */
  function RejectionPayload(err: HttpError): (v: ErrorValue)
    ensures err.data.Some? ==> v == Data(err.data.value)
    ensures err.data.None? ==> v == Message(err.message)
  {
    DataOr(err, err.message)
  }

  datatype Op = Fetch | Create | Delete

  datatype Action<A> =
    | Pending(op: Op)
    | Failed(op: Op, payload: ErrorValue)
    | Fetched(list: seq<Record<A>>)
    | Created(rec: Record<A>)
    | Deleted(id: int)

  function Reduce<A(==,!new)>(s: State<Record<A>>, a: Action<A>): (r: State<Record<A>>)
    ensures a.Pending? ==> r.data == s.data && r.loading
    ensures a.Pending? ==> r.error == if a.op == Fetch then None else s.error
    ensures a.Failed? ==> r.data == s.data && !r.loading && r.error == Some(a.payload)
    ensures a.Fetched? || a.Created? || a.Deleted? ==> !r.loading && r.error == s.error
    ensures a.Fetched? ==> r.data == a.list
    ensures a.Created? ==> r.data == s.data + [a.rec]
    ensures a.Deleted? ==>
      (forall x :: x in r.data <==> x in s.data && x.id != a.id) && Subseq(r.data, s.data) &&
      (forall x :: multiset(r.data)[x] == if x.id != a.id then multiset(s.data)[x] else 0) &&
      (a.id !in Ids(s.data) ==> r.data == s.data)
  {
    match a
    case Pending(op) => SetPending(s, op == Fetch)
    case Failed(_, p) => SetRejected(s, p)
    case Fetched(list) => s.(loading := false, data := list)
    case Created(rec) => s.(loading := false, data := s.data + [rec])
    case Deleted(id) => s.(loading := false, data := RemoveId(s.data, id))
  }

  /** `deleteSale(id)`: fulfils with the id it was given once the server accepts. */
  function DeleteThunk(id: int, reply: Reply<()>): (st: Settled<int>)
    ensures st.Fulfilled? <==> reply.Ok?
    ensures st.Fulfilled? ==> st.value == id
    ensures st.Rejected? ==> st.payload == RejectionPayload(reply.err)
  {
    match reply
    case Ok(_) => Fulfilled(id)
    case Fail(err) => Rejected(RejectionPayload(err))
  }

  /** The action a settled delete dispatches. */
  function DeleteAction<A>(st: Settled<int>): Action<A> {
    match st
    case Fulfilled(id) => Deleted(id)
    case Rejected(p) => Failed(Delete, p)
  }

  /** An error from an earlier failure survives a later create or delete
      attempt and its success; only a new fetch clears it. */
  lemma ErrorSurvivesCreate<A(!new)>(s: State<Record<A>>, rec: Record<A>)
    requires s.error.Some?
    ensures Reduce(Reduce(s, Pending(Create)), Created(rec)).error == s.error
    ensures Reduce(Reduce(s, Pending(Fetch)), Fetched([])).error.None?
  {
  }
}

=== FILE: sales_purchase_page.dfy ===
/**
 * The sales and purchase manager: two forms that each record a transaction
 * at the head of the list and clear themselves, the sales, purchase and net
 * profit totals, and the chart with one point per day.
 *
 * Amounts are whole numbers; `None` stands for the `NaN` that
 * `Number.parseFloat` gives for text that is not a number, and a `NaN`
 * amount makes every sum it enters `NaN`. The day text comes from
 * `toLocaleDateString()` and is a parameter here, as is the id; the
 * instant `new Date(date).getTime()` of a day's text is the parameter
 * `dayTime`.
 */
module SalesPurchasePage {
  import opened Wrappers
  import opened Text
  import opened Seqs
  import opened Sorting
  import opened Grouping

  /** A transaction is only ever created by one of the two forms, so its
      type is "sale" or "purchase". */
  datatype Kind = Sale | Purchase

  datatype Transaction = Transaction(id: string, kind: Kind, item: string, amount: Option<int>,
                                     quantity: Option<int>, description: string, date: string)

  /** A form's fields, all text. */
  datatype Form = Form(item: string, amount: string, quantity: string, description: string)

  const BlankForm: Form := Form("", "", "", "")

  /** The transaction a form records: its amount and quantity parsed, the
      type of the form, the given id and today's date. */
  function NewTransaction(f: Form, kind: Kind, id: string, today: string): (t: Transaction)
    ensures t.kind == kind && t.date == today && t.id == id
    ensures t.amount == ParseInt(f.amount) && t.quantity == ParseInt(f.quantity)
    ensures t.item == f.item && t.description == f.description
  {
    Transaction(id, kind, f.item, ParseInt(f.amount), ParseInt(f.quantity), f.description, today)
  }

  /** `handleSaleSubmit` and `handlePurchaseSubmit`: the new transaction goes
      first, the earlier ones follow unchanged, and the form is cleared. */
  function Submit(ts: seq<Transaction>, f: Form, kind: Kind, id: string, today: string): (r: (seq<Transaction>, Form))
    ensures r.1 == BlankForm
    ensures |r.0| == |ts| + 1 && r.0[0] == NewTransaction(f, kind, id, today) && r.0[1..] == ts
  {
    ([NewTransaction(f, kind, id, today)] + ts, BlankForm)
  }

  /** The amounts as chart entries keyed by day, `NaN` read as 0; whether
      any amount was `NaN` is tracked apart. */
  function Entries(ts: seq<Transaction>): (es: seq<Entry<string>>)
    ensures |es| == |ts|
    ensures forall i :: 0 <= i < |ts| ==>
      es[i] == Entry(ts[i].date, ts[i].kind == Sale, ts[i].amount.GetOr(0))
  {
    seq(|ts|, i requires 0 <= i < |ts| => Entry(ts[i].date, ts[i].kind == Sale, ts[i].amount.GetOr(0)))
  }

  function AmountOf(kind: Kind): Entry<string> -> int {
    if kind == Sale then SaleAmount else PurchaseAmount
  }

  /** `transactions.filter(type).reduce((sum, t) => sum + t.amount, 0)`:
      `NaN` as soon as one amount of that type is, and otherwise the sum. */
  function KindTotal(ts: seq<Transaction>, kind: Kind): (r: Option<int>)
    ensures r.Some? <==> forall i :: 0 <= i < |ts| && ts[i].kind == kind ==> ts[i].amount.Some?
    ensures r.Some? ==> r.value == Sum(Entries(ts), AmountOf(kind))
  {
    if |ts| == 0 then Some(0)
    else
      var init := ts[..|ts| - 1];
      var t := ts[|ts| - 1];
      var rest := KindTotal(init, kind);
      assert Entries(ts)[..|ts| - 1] == Entries(init);
      if t.kind != kind then rest
      else if rest.Some? && t.amount.Some? then Some(rest.value + t.amount.value)
      else None
  }

  function TotalSales(ts: seq<Transaction>): Option<int> {
    KindTotal(ts, Sale)
  }

  function TotalPurchases(ts: seq<Transaction>): Option<int> {
    KindTotal(ts, Purchase)
  }

  /** `totalSales - totalPurchases`, `NaN` when either is. */
  function NetProfit(ts: seq<Transaction>): (r: Option<int>)
    ensures r.Some? <==> TotalSales(ts).Some? && TotalPurchases(ts).Some?
    ensures r.Some? ==> r.value == TotalSales(ts).value - TotalPurchases(ts).value
  {
    if TotalSales(ts).Some? && TotalPurchases(ts).Some? then Some(TotalSales(ts).value - TotalPurchases(ts).value)
    else None
  }

  /** A transaction put in front adds its amount to its own type's total,
      or makes that total `NaN`, and leaves the other type's total alone. */
  lemma KindTotalPrepend(t: Transaction, ts: seq<Transaction>, kind: Kind)
    ensures KindTotal([t] + ts, kind).Some? <==>
      (t.kind == kind ==> t.amount.Some?) && KindTotal(ts, kind).Some?
    ensures KindTotal([t] + ts, kind).Some? ==>
      KindTotal([t] + ts, kind).value == KindTotal(ts, kind).value + if t.kind == kind then t.amount.value else 0
  {
    var after := [t] + ts;
    var e := Entry(t.date, t.kind == Sale, t.amount.GetOr(0));
    assert Entries(after) == [e] + Entries(ts) by {
      forall i | 0 <= i < |after| ensures Entries(after)[i] == ([e] + Entries(ts))[i] {
        if i > 0 { assert after[i] == ts[i - 1]; }
      }
    }
    SumPrepend(e, Entries(ts), AmountOf(kind));
    EntryAmount(t, kind);
    PrependAllNumeric(t, ts, kind);
  }

  lemma PrependAllNumeric(t: Transaction, ts: seq<Transaction>, kind: Kind)
    ensures (forall i :: 0 <= i < |[t] + ts| && ([t] + ts)[i].kind == kind ==> ([t] + ts)[i].amount.Some?) <==>
      (t.kind == kind ==> t.amount.Some?) && (forall i :: 0 <= i < |ts| && ts[i].kind == kind ==> ts[i].amount.Some?)
  {
    var after := [t] + ts;
    assert after[0] == t;
    assert forall i :: 0 <= i < |ts| ==> after[i + 1] == ts[i];
    if (t.kind == kind ==> t.amount.Some?) && (forall i :: 0 <= i < |ts| && ts[i].kind == kind ==> ts[i].amount.Some?) {
      forall i | 0 <= i < |after| && after[i].kind == kind ensures after[i].amount.Some? {
        if i > 0 { assert after[i] == ts[i - 1]; }
      }
    }
  }

  lemma EntryAmount(t: Transaction, kind: Kind)
    ensures AmountOf(kind)(Entry(t.date, t.kind == Sale, t.amount.GetOr(0))) ==
      if t.kind == kind then t.amount.GetOr(0) else 0
  {
  }

  /** Recording a transaction adds its amount to its own type's total, or
      makes that total `NaN`, and leaves the other type's total alone. */
  lemma SubmitUpdatesTotals(ts: seq<Transaction>, f: Form, kind: Kind, id: string, today: string, other: Kind)
    requires other != kind
    ensures var after := Submit(ts, f, kind, id, today).0;
      var amount := NewTransaction(f, kind, id, today).amount;
      KindTotal(after, kind).Some? <==> KindTotal(ts, kind).Some? && amount.Some?
    ensures var after := Submit(ts, f, kind, id, today).0;
      var amount := NewTransaction(f, kind, id, today).amount;
      KindTotal(after, kind).Some? ==> KindTotal(after, kind).value == KindTotal(ts, kind).value + amount.value
    ensures KindTotal(Submit(ts, f, kind, id, today).0, other) == KindTotal(ts, other)
  {
    var after := Submit(ts, f, kind, id, today).0;
    var t := NewTransaction(f, kind, id, today);
    assert after == [t] + ts;
    KindTotalPrepend(t, ts, kind);
    KindTotalPrepend(t, ts, other);
  }

  // ---------------------------------------------------------------------
  // Chart

  /** One chart point: a day and its sales and purchases. */
  datatype ChartPoint = ChartPoint(date: string, sales: Option<int>, purchases: Option<int>)

  /** Whether some amount of the given type on the given day is `NaN`. */
  predicate Poisoned(ts: seq<Transaction>, date: string, kind: Kind) {
    exists t :: t in ts && t.date == date && t.kind == kind && t.amount.None?
  }

  /** The day's sum of one type, as the `Map` accumulates it. */
  function DayTotal(ts: seq<Transaction>, date: string, kind: Kind): Option<int> {
    if Poisoned(ts, date, kind) then None
    else if kind == Sale then Some(SalesFor(Entries(ts), date))
    else Some(PurchasesFor(Entries(ts), date))
  }

  function PointSales(p: ChartPoint): int { p.sales.GetOr(0) }

  function PointPurchases(p: ChartPoint): int { p.purchases.GetOr(0) }

  function Dates(ps: seq<ChartPoint>): (ds: seq<string>)
    ensures |ds| == |ps|
    ensures forall i :: 0 <= i < |ps| ==> ds[i] == ps[i].date
  {
    seq(|ps|, i requires 0 <= i < |ps| => ps[i].date)
  }

  /** The days' points before sorting, in order of each day's first
      transaction: the `Map`'s entries. */
  function DayPoints(ts: seq<Transaction>): (r: seq<ChartPoint>)
    ensures forall i, j :: 0 <= i < j < |r| ==> r[i].date != r[j].date
    ensures forall d :: d in Dates(r) <==> d in EntryKeys(Entries(ts))
    ensures forall i :: 0 <= i < |r| ==>
      r[i].sales == DayTotal(ts, r[i].date, Sale) && r[i].purchases == DayTotal(ts, r[i].date, Purchase)
  {
    var bs := Group(Entries(ts));
    var r := seq(|bs|, i requires 0 <= i < |bs| =>
      var d := bs[i].key;
      ChartPoint(d, if Poisoned(ts, d, Sale) then None else Some(bs[i].sales),
                 if Poisoned(ts, d, Purchase) then None else Some(bs[i].purchases)));
    assert Dates(r) == Keys(bs);
    r
  }

  /** Each day's point carries the day's sums whenever they are numbers, so
      the points add up to what the days' buckets hold. */
  lemma DayPointsSums(ts: seq<Transaction>)
    ensures (forall d :: !Poisoned(ts, d, Sale)) ==>
      Sum(DayPoints(ts), PointSales) == Sum(Group(Entries(ts)), BucketSales)
    ensures (forall d :: !Poisoned(ts, d, Purchase)) ==>
      Sum(DayPoints(ts), PointPurchases) == Sum(Group(Entries(ts)), BucketPurchases)
  {
    var bs := Group(Entries(ts));
    var ps := DayPoints(ts);
    if forall d :: !Poisoned(ts, d, Sale) {
      SumEqual(ps, bs, PointSales, BucketSales);
    }
    if forall d :: !Poisoned(ts, d, Purchase) {
      SumEqual(ps, bs, PointPurchases, BucketPurchases);
    }
  }

  /** Reordering points keeps which days they cover. */
  lemma DatesPermutation(a: seq<ChartPoint>, b: seq<ChartPoint>)
    requires multiset(a) == multiset(b)
    ensures forall d :: d in Dates(a) <==> d in Dates(b)
  {
    forall d | d in Dates(a) ensures d in Dates(b) {
      var i :| 0 <= i < |a| && Dates(a)[i] == d;
      assert a[i] in multiset(b);
      var j :| 0 <= j < |b| && b[j] == a[i];
      assert Dates(b)[j] == d;
    }
    forall d | d in Dates(b) ensures d in Dates(a) {
      var i :| 0 <= i < |b| && Dates(b)[i] == d;
      assert b[i] in multiset(a);
      var j :| 0 <= j < |a| && a[j] == b[i];
      assert Dates(a)[j] == d;
    }
  }

  /** `chartData`: one point per day on which something was recorded, no
      day twice, each with that day's sales and purchases, in order of day. */
  function ChartData(ts: seq<Transaction>, dayTime: string -> int): (r: seq<ChartPoint>)
    ensures multiset(r) == multiset(DayPoints(ts))
    ensures forall i, j :: 0 <= i < j < |r| ==> r[i].date != r[j].date
    ensures forall d :: d in Dates(r) <==> d in EntryKeys(Entries(ts))
    ensures forall i :: 0 <= i < |r| ==>
      r[i].sales == DayTotal(ts, r[i].date, Sale) && r[i].purchases == DayTotal(ts, r[i].date, Purchase)
    ensures forall i :: 0 <= i < |r| - 1 ==> dayTime(r[i].date) <= dayTime(r[i + 1].date)
  {
    var r := SortBy(DayPoints(ts), DayKey(dayTime), true);
    SortedPointsDistinct(ts, r);
    SortedPointsDates(ts, r);
    SortedPointsValues(ts, r);
    SortedPointsOrdered(r, dayTime);
    r
  }

  /** The sort key of a point: the instant of its day. */
  function DayKey(dayTime: string -> int): ChartPoint -> Key {
    (p: ChartPoint) => Num(dayTime(p.date))
  }

  lemma SortedPointsDistinct(ts: seq<Transaction>, r: seq<ChartPoint>)
    requires multiset(r) == multiset(DayPoints(ts))
    ensures forall i, j :: 0 <= i < j < |r| ==> r[i].date != r[j].date
  {
    DistinctKeysPermutation(DayPoints(ts), r, (p: ChartPoint) => p.date);
  }

  lemma SortedPointsDates(ts: seq<Transaction>, r: seq<ChartPoint>)
    requires multiset(r) == multiset(DayPoints(ts))
    ensures forall d :: d in Dates(r) <==> d in EntryKeys(Entries(ts))
  {
    DatesPermutation(DayPoints(ts), r);
  }

  lemma SortedPointsValues(ts: seq<Transaction>, r: seq<ChartPoint>)
    requires multiset(r) == multiset(DayPoints(ts))
    ensures forall i :: 0 <= i < |r| ==>
      r[i].sales == DayTotal(ts, r[i].date, Sale) && r[i].purchases == DayTotal(ts, r[i].date, Purchase)
  {
    forall i | 0 <= i < |r|
      ensures r[i].sales == DayTotal(ts, r[i].date, Sale) && r[i].purchases == DayTotal(ts, r[i].date, Purchase)
    {
      assert r[i] in multiset(DayPoints(ts));
    }
  }

  lemma SortedPointsOrdered(r: seq<ChartPoint>, dayTime: string -> int)
    requires SortedBy(r, DayKey(dayTime), true)
    ensures forall i :: 0 <= i < |r| - 1 ==> dayTime(r[i].date) <= dayTime(r[i + 1].date)
  {
    forall i | 0 <= i < |r| - 1 ensures dayTime(r[i].date) <= dayTime(r[i + 1].date) {
      assert !Before(DayKey(dayTime)(r[i + 1]), DayKey(dayTime)(r[i]), true);
    }
  }

  /** When the sales total is a number, so is every day's sales, and the
      days' sales add up to it; likewise for purchases. */
  lemma ChartAgreesWithTotals(ts: seq<Transaction>, dayTime: string -> int)
    ensures TotalSales(ts).Some? ==>
      (forall i :: 0 <= i < |ChartData(ts, dayTime)| ==> ChartData(ts, dayTime)[i].sales.Some?) &&
      Sum(ChartData(ts, dayTime), PointSales) == TotalSales(ts).value
    ensures TotalPurchases(ts).Some? ==>
      (forall i :: 0 <= i < |ChartData(ts, dayTime)| ==> ChartData(ts, dayTime)[i].purchases.Some?) &&
      Sum(ChartData(ts, dayTime), PointPurchases) == TotalPurchases(ts).value
  {
    if TotalSales(ts).Some? {
      ChartSalesAgree(ts, dayTime);
    }
    if TotalPurchases(ts).Some? {
      ChartPurchasesAgree(ts, dayTime);
    }
  }

  /** A numeric total means no amount of that type is `NaN` on any day. */
  lemma NumericTotalUnpoisoned(ts: seq<Transaction>, kind: Kind)
    requires KindTotal(ts, kind).Some?
    ensures forall d :: !Poisoned(ts, d, kind)
  {
    forall d ensures !Poisoned(ts, d, kind) {
      if Poisoned(ts, d, kind) {
        assert false;
      }
    }
  }

  lemma ChartSalesAgree(ts: seq<Transaction>, dayTime: string -> int)
    requires TotalSales(ts).Some?
    ensures forall i :: 0 <= i < |ChartData(ts, dayTime)| ==> ChartData(ts, dayTime)[i].sales.Some?
    ensures Sum(ChartData(ts, dayTime), PointSales) == TotalSales(ts).value
  {
    var r := ChartData(ts, dayTime);
    NumericTotalUnpoisoned(ts, Sale);
    assert Sum(DayPoints(ts), PointSales) == Sum(Group(Entries(ts)), BucketSales) by {
      DayPointsSums(ts);
    }
    assert Sum(Group(Entries(ts)), BucketSales) == Sum(Entries(ts), SaleAmount) by {
      GroupTotals(Entries(ts));
    }
    SumPermutation(r, DayPoints(ts), PointSales);
  }

  lemma ChartPurchasesAgree(ts: seq<Transaction>, dayTime: string -> int)
    requires TotalPurchases(ts).Some?
    ensures forall i :: 0 <= i < |ChartData(ts, dayTime)| ==> ChartData(ts, dayTime)[i].purchases.Some?
    ensures Sum(ChartData(ts, dayTime), PointPurchases) == TotalPurchases(ts).value
  {
    var r := ChartData(ts, dayTime);
    NumericTotalUnpoisoned(ts, Purchase);
    assert Sum(DayPoints(ts), PointPurchases) == Sum(Group(Entries(ts)), BucketPurchases) by {
      DayPointsSums(ts);
    }
    assert Sum(Group(Entries(ts)), BucketPurchases) == Sum(Entries(ts), PurchaseAmount) by {
      GroupTotals(Entries(ts));
    }
    SumPermutation(r, DayPoints(ts), PointPurchases);
  }
}

=== FILE: sales_purchases_chart.dfy ===
/**
 * The dashboard's sales-and-purchases pie: every line item of every sale
 * and every purchase adds `quantity * price` to its category, an item
 * without a category going to "Others", and each category then gives two
 * slices, its sales and its purchases.
 *
 * Prices are whole numbers. Categories keep the order in which they first
 * appear, sales before purchases.
 */
module SalesPurchasesChart {
  import opened Wrappers
  import opened Text
  import opened Seqs
  import opened Grouping

  /** A line item: its category, quantity, and the unit price (of a sale) or
      unit cost (of a purchase). */
  datatype LineItem = LineItem(categoryName: Option<string>, quantity: int, price: int)

  /** A sale or a purchase; `items` may be missing. */
  datatype Doc = Doc(items: Option<seq<LineItem>>)

  const OtherCategory: string := "Others"

  /** `item.category_name || "Others"` */
  function Category(item: LineItem): (c: string)
    ensures Truthy(item.categoryName) ==> c == item.categoryName.value
    ensures !Truthy(item.categoryName) ==> c == OtherCategory
  {
    OrElse(item.categoryName, OtherCategory)
  }

  /** One document's items as amounts to bucket; no items, no amounts. */
  function ItemEntries(d: Doc, isSale: bool): (es: seq<Entry<string>>)
    ensures d.items.None? ==> es == []
    ensures d.items.Some? ==> |es| == |d.items.value|
    ensures d.items.Some? ==> forall i :: 0 <= i < |es| ==>
      es[i] == Entry(Category(d.items.value[i]), isSale, d.items.value[i].quantity * d.items.value[i].price)
  {
    match d.items
    case None => []
    case Some(xs) => seq(|xs|, i requires 0 <= i < |xs| => Entry(Category(xs[i]), isSale, xs[i].quantity * xs[i].price))
  }

  /** The amounts of all the documents, in order. */
  function DocEntries(ds: seq<Doc>, isSale: bool): (es: seq<Entry<string>>)
    ensures forall i :: 0 <= i < |es| ==> es[i].isSale == isSale
  {
    if |ds| == 0 then []
    else DocEntries(ds[..|ds| - 1], isSale) + ItemEntries(ds[|ds| - 1], isSale)
  }

  /** `categoryTotals`: sales first, then purchases. */
  function CategoryTotals(sales: seq<Doc>, purchases: seq<Doc>): seq<Bucket<string>> {
    Group(DocEntries(sales, true) + DocEntries(purchases, false))
  }

  /** One pie slice. */
  datatype Slice = Slice(name: string, value: int)

  function SliceValue(s: Slice): int { s.value }

  /** `dataArray`: per category, its "(Sales)" slice and then its
      "(Purchases)" slice. */
  function Slices(bs: seq<Bucket<string>>): (r: seq<Slice>)
    ensures |r| == 2 * |bs|
    ensures forall i :: 0 <= i < |bs| ==>
      r[2 * i] == Slice(bs[i].key + " (Sales)", bs[i].sales) &&
      r[2 * i + 1] == Slice(bs[i].key + " (Purchases)", bs[i].purchases)
  {
    if |bs| == 0 then []
    else
      var rest := Slices(bs[1..]);
      var pair := [Slice(bs[0].key + " (Sales)", bs[0].sales), Slice(bs[0].key + " (Purchases)", bs[0].purchases)];
      var r := pair + rest;
      assert forall i :: 0 <= i < |bs| ==>
        r[2 * i] == Slice(bs[i].key + " (Sales)", bs[i].sales) &&
        r[2 * i + 1] == Slice(bs[i].key + " (Purchases)", bs[i].purchases) by {
        forall i | 1 <= i < |bs|
          ensures r[2 * i] == Slice(bs[i].key + " (Sales)", bs[i].sales)
          ensures r[2 * i + 1] == Slice(bs[i].key + " (Purchases)", bs[i].purchases)
        {
          assert bs[1..][i - 1] == bs[i];
          assert r[2 * i] == rest[2 * (i - 1)];
          assert r[2 * i + 1] == rest[2 * (i - 1) + 1];
        }
      }
      r
  }

  /** `mergedData` */
  function MergedData(sales: seq<Doc>, purchases: seq<Doc>): (r: seq<Slice>)
    ensures |r| == 2 * |CategoryTotals(sales, purchases)|
  {
    Slices(CategoryTotals(sales, purchases))
  }

  /** Each category that any item falls under gets exactly one pair of
      slices, holding everything filed under it. */
  lemma OnePairPerCategory(sales: seq<Doc>, purchases: seq<Doc>)
    ensures var bs := CategoryTotals(sales, purchases);
      var es := DocEntries(sales, true) + DocEntries(purchases, false);
      (forall c :: c in Keys(bs) <==> c in EntryKeys(es)) &&
      (forall i, j :: 0 <= i < j < |bs| ==> bs[i].key != bs[j].key) &&
      (forall i :: 0 <= i < |bs| ==>
        MergedData(sales, purchases)[2 * i].value == SalesFor(es, bs[i].key) &&
        MergedData(sales, purchases)[2 * i + 1].value == PurchasesFor(es, bs[i].key))
  {
    var bs := CategoryTotals(sales, purchases);
    forall i, j | 0 <= i < j < |bs| ensures bs[i].key != bs[j].key {
      assert Keys(bs)[i] != Keys(bs)[j];
    }
  }

  /** The slices add up to all the bucketed amounts. */
  lemma {:induction false} SlicesSum(bs: seq<Bucket<string>>)
    ensures Sum(Slices(bs), SliceValue) == Sum(bs, BucketSales) + Sum(bs, BucketPurchases)
  {
    if |bs| > 0 {
      SlicesSum(bs[1..]);
      var r := Slices(bs);
      var pair := r[..2];
      assert r == pair + Slices(bs[1..]);
      SumAppend(pair, Slices(bs[1..]), SliceValue);
      assert Sum(pair, SliceValue) == bs[0].sales + bs[0].purchases by {
        assert pair[..1] == [pair[0]];
        assert Sum(pair[..1], SliceValue) == Sum(pair[..1][..0], SliceValue) + pair[0].value;
      }
      SumPrepend(bs[0], bs[1..], BucketSales);
      SumPrepend(bs[0], bs[1..], BucketPurchases);
      assert bs == [bs[0]] + bs[1..];
    }
  }

  /** The whole pie is every sale item's and every purchase item's
      `quantity * price`. */
  lemma PieIsEverything(sales: seq<Doc>, purchases: seq<Doc>)
    ensures Sum(MergedData(sales, purchases), SliceValue) ==
      Sum(DocEntries(sales, true), SaleAmount) + Sum(DocEntries(purchases, false), PurchaseAmount)
  {
    var ss := DocEntries(sales, true);
    var ps := DocEntries(purchases, false);
    SlicesSum(CategoryTotals(sales, purchases));
    GroupTotals(ss + ps);
    SumAppend(ss, ps, SaleAmount);
    SumAppend(ss, ps, PurchaseAmount);
    SaleOnly(ss);
    PurchaseOnly(ps);
  }

  lemma {:induction false} SaleOnly(es: seq<Entry<string>>)
    requires forall i :: 0 <= i < |es| ==> es[i].isSale
    ensures Sum(es, PurchaseAmount) == 0
  {
    if |es| > 0 {
      SaleOnly(es[..|es| - 1]);
    }
  }

  lemma {:induction false} PurchaseOnly(es: seq<Entry<string>>)
    requires forall i :: 0 <= i < |es| ==> !es[i].isSale
    ensures Sum(es, SaleAmount) == 0
  {
    if |es| > 0 {
      PurchaseOnly(es[..|es| - 1]);
    }
  }

  /** A sale or purchase without items, or with none listed, changes
      nothing in the pie. */
  lemma EmptyDocContributesNothing(sales: seq<Doc>, purchases: seq<Doc>, d: Doc)
    requires d.items.None? || d.items == Some([])
    ensures MergedData(sales + [d], purchases) == MergedData(sales, purchases)
    ensures MergedData(sales, purchases + [d]) == MergedData(sales, purchases)
  {
    assert (sales + [d])[..|sales|] == sales;
    assert (purchases + [d])[..|purchases|] == purchases;
    assert DocEntries(sales + [d], true) == DocEntries(sales, true);
    assert DocEntries(purchases + [d], false) == DocEntries(purchases, false);
  }
}

=== FILE: seqs.dfy ===
/**
 * Sequence operations shared by the reducers and the list pages:
 * `reduce` into a sum, `filter`, removal by index, and `new Set(...)`
 * de-duplication.
 */
module Seqs {

  /** `s.reduce((sum, x) => sum + f(x), 0)`, folded from the left. */
  function Sum<T>(s: seq<T>, f: T -> int): int {
    if |s| == 0 then 0 else Sum(s[..|s| - 1], f) + f(s[|s| - 1])
  }

  lemma {:induction false} SumAppend<T>(a: seq<T>, b: seq<T>, f: T -> int)
    ensures Sum(a + b, f) == Sum(a, f) + Sum(b, f)
    decreases |b|
  {
    if |b| > 0 {
      SumAppend(a, b[..|b| - 1], f);
      assert (a + b)[..|a + b| - 1] == a + b[..|b| - 1];
    } else {
      assert a + b == a;
    }
  }

  lemma SumPrepend<T>(x: T, s: seq<T>, f: T -> int)
    ensures Sum([x] + s, f) == f(x) + Sum(s, f)
  {
    SumAppend([x], s, f);
    assert Sum([x], f) == Sum([x][..0], f) + f(x);
  }

  /** Sums do not depend on the order of the summands. */
  lemma {:induction false} SumPermutation<T>(a: seq<T>, b: seq<T>, f: T -> int)
    requires multiset(a) == multiset(b)
    ensures Sum(a, f) == Sum(b, f)
    decreases |a|
  {
    if |a| > 0 {
      var x := a[0];
      assert x in multiset(b);
      var j :| 0 <= j < |b| && b[j] == x;
      var rest := RemoveAt(b, j);
      Uncons(a);
      assert multiset(a[1..]) == multiset(rest) by {
        RemoveAtMultiset(b, j);
      }
      assert Sum(a[1..], f) == Sum(rest, f) by {
        SumPermutation(a[1..], rest, f);
      }
      assert Sum(a, f) == f(x) + Sum(a[1..], f) by {
        SumPrepend(x, a[1..], f);
      }
      SumRemoveAt(b, j, f);
    } else {
      assert |b| == 0;
    }
  }

  /** Dropping position `j` drops one copy of that element. */
  lemma RemoveAtMultiset<T>(s: seq<T>, j: int)
    requires 0 <= j < |s|
    ensures multiset(RemoveAt(s, j)) == multiset(s) - multiset([s[j]])
  {
    assert s == s[..j] + [s[j]] + s[j + 1..];
  }

  /** `s.filter(p)`: the elements satisfying `p`, in order. */
  function Filter<T(==,!new)>(s: seq<T>, p: T -> bool): (r: seq<T>)
    ensures |r| <= |s|
    ensures forall x :: x in r <==> x in s && p(x)
    ensures forall i :: 0 <= i < |r| ==> p(r[i])
    ensures Subseq(r, s)
  {
    if |s| == 0 then []
    else
      var rest := Filter(s[1..], p);
      assert s == [s[0]] + s[1..];
      if p(s[0]) then [s[0]] + rest else rest
  }

  /** Each element `p` keeps occurs in `s.filter(p)` as often as in `s`. */
  lemma {:induction false} FilterMultiset<T(!new)>(s: seq<T>, p: T -> bool)
    ensures forall x :: multiset(Filter(s, p))[x] == if p(x) then multiset(s)[x] else 0
  {
    if |s| > 0 {
      FilterMultiset(s[1..], p);
      assert s == [s[0]] + s[1..];
    }
  }

  /** `r` is `s` with some elements dropped and the rest kept in order. */
  predicate Subseq<T(==)>(r: seq<T>, s: seq<T>)
    decreases |s|
  {
    if |r| == 0 then true
    else if |s| == 0 then false
    else if r[0] == s[0] then Subseq(r[1..], s[1..])
    else Subseq(r, s[1..])
  }

  /** Sequences with the same elements, counted, have the same members. */
  lemma PermutationMembers<T>(a: seq<T>, b: seq<T>)
    requires multiset(a) == multiset(b)
    ensures forall x :: x in a <==> x in b
  {
    forall x ensures x in a <==> x in b {
      assert x in a <==> x in multiset(a);
      assert x in b <==> x in multiset(b);
    }
  }

  /** Filtering twice is filtering once by both conditions. */
  lemma {:induction false} FilterFilter<T(!new)>(s: seq<T>, p: T -> bool, q: T -> bool, pq: T -> bool)
    requires forall x :: pq(x) == (p(x) && q(x))
    ensures Filter(Filter(s, p), q) == Filter(s, pq)
  {
    if |s| > 0 {
      FilterFilter(s[1..], p, q, pq);
    }
  }

  /** Filtering depends only on which elements the predicate keeps. */
  lemma {:induction false} FilterSame<T(!new)>(s: seq<T>, p: T -> bool, q: T -> bool)
    requires forall x :: p(x) == q(x)
    ensures Filter(s, p) == Filter(s, q)
  {
    if |s| > 0 {
      FilterSame(s[1..], p, q);
    }
  }

  /** The number of elements satisfying `p`. */
  function Count<T>(s: seq<T>, p: T -> bool): (n: nat)
    ensures n <= |s|
  {
    if |s| == 0 then 0 else (if p(s[0]) then 1 else 0) + Count(s[1..], p)
  }

  /** `s.filter(p).length` counts the elements satisfying `p`. */
  lemma {:induction false} FilterLength<T(!new)>(s: seq<T>, p: T -> bool)
    ensures |Filter(s, p)| == Count(s, p)
  {
    if |s| > 0 {
      FilterLength(s[1..], p);
    }
  }

  /** Elements satisfying one of two exclusive predicates are at most all of them. */
  lemma {:induction false} CountExclusive<T>(s: seq<T>, p: T -> bool, q: T -> bool)
    requires forall i :: 0 <= i < |s| ==> !(p(s[i]) && q(s[i]))
    ensures Count(s, p) + Count(s, q) <= |s|
  {
    if |s| > 0 {
      assert forall i :: 0 <= i < |s[1..]| ==> s[1..][i] == s[i + 1];
      CountExclusive(s[1..], p, q);
    }
  }

  /** Every element of a subsequence is an element of the whole. */
  lemma {:induction false} SubseqMember<T>(r: seq<T>, s: seq<T>)
    requires Subseq(r, s)
    ensures forall x :: x in r ==> x in s
    decreases |s|
  {
    if |r| > 0 && |s| > 0 {
      if r[0] == s[0] {
        SubseqMember(r[1..], s[1..]);
        assert r == [r[0]] + r[1..];
      } else {
        SubseqMember(r, s[1..]);
      }
    }
  }

  /** A subsequence of a sequence without duplicates has none either. */
  lemma {:induction false} SubseqNoDup<T>(r: seq<T>, s: seq<T>)
    requires Subseq(r, s) && NoDup(s)
    ensures NoDup(r)
    decreases |s|
  {
    if |r| > 0 && |s| > 0 {
      if r[0] == s[0] {
        SubseqNoDup(r[1..], s[1..]);
        SubseqMember(r[1..], s[1..]);
        forall j | 0 < j < |r| ensures r[j] != r[0] {
          assert r[j] in r[1..];
        }
      } else {
        SubseqNoDup(r, s[1..]);
      }
    }
  }

  /** Filtering with a predicate every element satisfies keeps the sequence. */
  lemma {:induction false} FilterAll<T(!new)>(s: seq<T>, p: T -> bool)
    requires forall i :: 0 <= i < |s| ==> p(s[i])
    ensures Filter(s, p) == s
  {
    if |s| > 0 {
      FilterAll(s[1..], p);
    }
  }

  /** `s.filter((_, k) => k !== i)`: drops exactly position `i`; out of range, nothing. */
  function RemoveAt<T>(s: seq<T>, i: int): (r: seq<T>)
    ensures 0 <= i < |s| ==> |r| == |s| - 1
    ensures 0 <= i < |s| ==> forall k :: 0 <= k < i ==> r[k] == s[k]
    ensures 0 <= i < |s| ==> forall k :: i <= k < |r| ==> r[k] == s[k + 1]
    ensures !(0 <= i < |s|) ==> r == s
  {
    if 0 <= i < |s| then s[..i] + s[i + 1..] else s
  }

  /** Filtering a concatenation filters each part. */
  lemma {:induction false} FilterAppend<T(!new)>(a: seq<T>, b: seq<T>, p: T -> bool)
    ensures Filter(a + b, p) == Filter(a, p) + Filter(b, p)
    decreases |a|
  {
    if |a| == 0 {
      assert a + b == b;
    } else {
      var ab := a + b;
      assert ab[0] == a[0] && ab[1..] == a[1..] + b;
      FilterAppend(a[1..], b, p);
    }
  }

  /** Filtering out exactly one position is removing that position. */
  lemma FilterDropsOne<T(!new)>(s: seq<T>, p: T -> bool, j: int)
    requires 0 <= j < |s| && !p(s[j])
    requires forall k :: 0 <= k < |s| && k != j ==> p(s[k])
    ensures Filter(s, p) == RemoveAt(s, j)
  {
    var pre := s[..j];
    var post := s[j + 1..];
    assert s == (pre + [s[j]]) + post;
    forall k | 0 <= k < |pre| ensures p(pre[k]) {
      assert pre[k] == s[k];
    }
    forall k | 0 <= k < |post| ensures p(post[k]) {
      assert post[k] == s[j + 1 + k];
    }
    FilterAroundOne(pre, s[j], post, p);
  }

  lemma FilterAroundOne<T(!new)>(pre: seq<T>, x: T, post: seq<T>, p: T -> bool)
    requires forall k :: 0 <= k < |pre| ==> p(pre[k])
    requires forall k :: 0 <= k < |post| ==> p(post[k])
    requires !p(x)
    ensures Filter((pre + [x]) + post, p) == pre + post
  {
    assert Filter(pre + [x], p) == pre by {
      FilterAll(pre, p);
      assert Filter([x], p) == [];
      FilterAppend(pre, [x], p);
    }
    assert Filter(post, p) == post by {
      FilterAll(post, p);
    }
    FilterAppend(pre + [x], post, p);
  }

  /** Summing over `s + [x]` adds `f(x)`. */
  lemma SumSnoc<T>(s: seq<T>, x: T, f: T -> int)
    ensures Sum(s + [x], f) == Sum(s, f) + f(x)
  {
    assert (s + [x])[..|s|] == s;
  }

  /** Summing over a sequence with position `i` dropped loses exactly that summand. */
  lemma SumRemoveAt<T>(s: seq<T>, i: int, f: T -> int)
    requires 0 <= i < |s|
    ensures Sum(RemoveAt(s, i), f) == Sum(s, f) - f(s[i])
  {
    var pre, tail, post := s[..i], s[i..], s[i + 1..];
    SplitAt(s, i);
    SumAppend(pre, tail, f);
    SumPrepend(s[i], post, f);
    assert Sum(RemoveAt(s, i), f) == Sum(pre, f) + Sum(post, f) by {
      SumAppend(pre, post, f);
    }
  }

  /** A non-empty sequence is its head followed by its tail. */
  lemma Uncons<T>(s: seq<T>)
    requires |s| > 0
    ensures s == [s[0]] + s[1..]
  {
  }

  /** A sequence is its prefix before `i`, its element at `i`, and the rest. */
  lemma SplitAt<T>(s: seq<T>, i: int)
    requires 0 <= i < |s|
    ensures s == s[..i] + s[i..]
    ensures s[i..] == [s[i]] + s[i + 1..]
  {
  }

  /** Sequences whose summands agree position by position have equal sums. */
  lemma {:induction false} SumEqual<T, U>(a: seq<T>, b: seq<U>, f: T -> int, g: U -> int)
    requires |a| == |b|
    requires forall k :: 0 <= k < |a| ==> f(a[k]) == g(b[k])
    ensures Sum(a, f) == Sum(b, g)
  {
    if |a| > 0 {
      SumEqual(a[..|a| - 1], b[..|b| - 1], f, g);
    }
  }

  /** Changing one position changes the sum by the difference of its summands. */
  lemma {:induction false} SumChangeAt<T>(a: seq<T>, b: seq<T>, f: T -> int, j: int)
    requires |a| == |b| && 0 <= j < |a|
    requires forall k :: 0 <= k < |a| && k != j ==> f(a[k]) == f(b[k])
    ensures Sum(b, f) == Sum(a, f) - f(a[j]) + f(b[j])
  {
    var n := |a|;
    if j == n - 1 {
      SumEqual(a[..n - 1], b[..n - 1], f, f);
    } else {
      SumChangeAt(a[..n - 1], b[..n - 1], f, j);
    }
  }

  ghost predicate NoDup<T>(s: seq<T>) {
    forall i, j :: 0 <= i < j < |s| ==> s[i] != s[j]
  }

  /** `Array.from(new Set(s))`: every element of `s` once. */
  function Distinct<T(==,!new)>(s: seq<T>): (r: seq<T>)
    ensures NoDup(r)
    ensures forall x :: x in r <==> x in s
    ensures |r| <= |s|
  {
    if |s| == 0 then []
    else
      var d := Distinct(s[..|s| - 1]);
      var x := s[|s| - 1];
      assert s == s[..|s| - 1] + [x];
      if x in d then d else d + [x]
  }

  /** A duplicate-free sequence has as many elements as the set of its elements. */
  lemma {:induction false} NoDupCard<T>(s: seq<T>)
    requires NoDup(s)
    ensures |set x | x in s| == |s|
  {
    if |s| > 0 {
      var init := s[..|s| - 1];
      var x := s[|s| - 1];
      NoDupCard(init);
      assert x !in init;
      assert (set y | y in s) == (set y | y in init) + {x};
    }
  }

  /** `[...new Set(s)].length` is the number of distinct values in `s`. */
  lemma DistinctCount<T(!new)>(s: seq<T>)
    ensures |Distinct(s)| == |set x | x in s|
  {
    var d := Distinct(s);
    NoDupCard(d);
    assert (set x | x in d) == (set x | x in s);
  }

  /** In a duplicate-free sequence every element occurs once. */
  lemma {:induction false} NoDupOnce<T>(s: seq<T>)
    requires NoDup(s)
    ensures forall x :: multiset(s)[x] <= 1
  {
    if |s| > 0 {
      var init := s[..|s| - 1];
      var x := s[|s| - 1];
      NoDupOnce(init);
      assert s == init + [x];
      assert x !in init;
    }
  }

  /** A value found at two positions occurs at least twice. */
  lemma TwiceCounted<T>(s: seq<T>, i: int, j: int)
    requires 0 <= i < j < |s| && s[i] == s[j]
    ensures multiset(s)[s[i]] >= 2
  {
    assert s == s[..j] + s[j..];
    assert s[i] in s[..j];
    assert s[j] in s[j..];
    assert multiset(s) == multiset(s[..j]) + multiset(s[j..]);
  }

  /** Reordering keeps the keys of distinct-keyed elements distinct. */
  lemma DistinctKeysPermutation<T, K>(a: seq<T>, b: seq<T>, key: T -> K)
    requires multiset(a) == multiset(b)
    requires forall i, j :: 0 <= i < j < |a| ==> key(a[i]) != key(a[j])
    ensures forall i, j :: 0 <= i < j < |b| ==> key(b[i]) != key(b[j])
  {
    assert NoDup(a);
    NoDupOnce(a);
    forall i, j | 0 <= i < j < |b| ensures key(b[i]) != key(b[j]) {
      if key(b[i]) == key(b[j]) {
        assert b[i] in multiset(a) && b[j] in multiset(a);
        var p :| 0 <= p < |a| && a[p] == b[i];
        var q :| 0 <= q < |a| && a[q] == b[j];
        if p == q {
          TwiceCounted(b, i, j);
          assert false;
        } else if p < q {
          assert false;
        } else {
          assert false;
        }
      }
    }
  }
}

=== FILE: sorting.dfy ===
/**
 * `Array.prototype.sort` with a comparator that orders rows by one key,
 * ascending or descending, as the product table and the audit-log table do.
 * The model is a stable insertion sort; the comparator's "strictly before"
 * relation is JavaScript `<` on numbers and on strings.
 */
module Sorting {

  /** A sort key: a number, a string compared character by character, or a
      missing (`undefined`) field. */
  datatype Key = Num(n: int) | Str(s: string) | Missing

  /** JavaScript `a < b` on strings: lexicographic by character code. */
  predicate StrLess(a: string, b: string)
    decreases |a|
  {
    if |a| == 0 then |b| > 0
    else if |b| == 0 then false
    else if a[0] != b[0] then a[0] < b[0]
    else StrLess(a[1..], b[1..])
  }

  /** JavaScript `a < b` on keys; a string and a number never compare as less,
      which is what `<` gives for a non-numeric string against a number, and
      `undefined` compares as less than nothing and greater than nothing. */
  predicate KeyLess(a: Key, b: Key) {
    match (a, b)
    case (Num(x), Num(y)) => x < y
    case (Str(x), Str(y)) => StrLess(x, y)
    case _ => false
  }

  lemma {:induction false} StrLessAsymmetric(a: string, b: string)
    ensures StrLess(a, b) ==> !StrLess(b, a)
    decreases |a|
  {
    if |a| > 0 && |b| > 0 && a[0] == b[0] {
      StrLessAsymmetric(a[1..], b[1..]);
    }
  }

  lemma KeyLessAsymmetric(a: Key, b: Key)
    ensures KeyLess(a, b) ==> !KeyLess(b, a)
  {
    if a.Str? && b.Str? {
      StrLessAsymmetric(a.s, b.s);
    }
  }

  /** The comparator returns a negative number: `a` goes strictly before `b`
      (`asc`), or strictly after it (descending). */
  predicate Before(a: Key, b: Key, asc: bool) {
    if asc then KeyLess(a, b) else KeyLess(b, a)
  }

  /** No row goes strictly before the row preceding it. */
  ghost predicate SortedBy<T>(s: seq<T>, key: T -> Key, asc: bool) {
    forall i :: 0 <= i < |s| - 1 ==> !Before(key(s[i + 1]), key(s[i]), asc)
  }

  /** Places `x` after every element it does not go strictly before. */
  function Insert<T>(x: T, s: seq<T>, key: T -> Key, asc: bool): (r: seq<T>)
    ensures |r| == |s| + 1
    ensures r[0] == x || (|s| > 0 && r[0] == s[0])
    ensures multiset(r) == multiset(s) + multiset([x])
  {
    if |s| == 0 then [x]
    else if Before(key(x), key(s[0]), asc) then [x] + s
    else
      var rest := Insert(x, s[1..], key, asc);
      assert multiset([s[0]] + rest) == multiset(s) + multiset([x]) by {
        assert s == [s[0]] + s[1..];
      }
      [s[0]] + rest
  }

  /** Inserting into a sorted sequence keeps it sorted. */
  lemma {:induction false} InsertKeepsSorted<T>(x: T, s: seq<T>, key: T -> Key, asc: bool)
    requires SortedBy(s, key, asc)
    ensures SortedBy(Insert(x, s, key, asc), key, asc)
  {
    if |s| == 0 {
    } else if Before(key(x), key(s[0]), asc) {
      KeyLessAsymmetric(key(x), key(s[0]));
      SortedCons(x, s, key, asc);
    } else {
      var tail := s[1..];
      assert SortedBy(tail, key, asc) by {
        forall i | 0 <= i < |tail| - 1 ensures !Before(key(tail[i + 1]), key(tail[i]), asc) {
          assert tail[i] == s[i + 1] && tail[i + 1] == s[i + 2];
        }
      }
      InsertKeepsSorted(x, tail, key, asc);
      SortedCons(s[0], Insert(x, tail, key, asc), key, asc);
    }
  }

  /** Putting `y` before a sorted sequence whose head does not go strictly
      before it keeps it sorted. */
  lemma SortedCons<T>(y: T, rest: seq<T>, key: T -> Key, asc: bool)
    requires SortedBy(rest, key, asc)
    requires |rest| > 0 ==> !Before(key(rest[0]), key(y), asc)
    ensures SortedBy([y] + rest, key, asc)
  {
    var r := [y] + rest;
    forall i | 0 <= i < |r| - 1 ensures !Before(key(r[i + 1]), key(r[i]), asc) {
      if i > 0 {
        assert r[i] == rest[i - 1] && r[i + 1] == rest[i];
      }
    }
  }

  /** `[...rows].sort(compare)`: the rows, in comparator order. */
  function SortBy<T>(s: seq<T>, key: T -> Key, asc: bool): (r: seq<T>)
    ensures multiset(r) == multiset(s)
    ensures |r| == |s|
    ensures SortedBy(r, key, asc)
  {
    if |s| == 0 then []
    else
      assert s == s[..|s| - 1] + [s[|s| - 1]];
      InsertKeepsSorted(s[|s| - 1], SortBy(s[..|s| - 1], key, asc), key, asc);
      Insert(s[|s| - 1], SortBy(s[..|s| - 1], key, asc), key, asc)
  }
}

=== FILE: stock_slice.dfy ===
/**
 * The stock-movement slice: a fetch thunk that normalises the response to a
 * list, a delete thunk that fulfils with the server's response body, the
 * `clearStock` reducer, and the thunks' reducers over
 * `{ movements, loading, error }`.
 */
module StockSlice {
  import opened Wrappers
  import opened Text
  import opened Seqs
  import opened Http
  import opened ResourceSlice

  const FetchFallback: string := "Failed to fetch stock movements"
  const DeleteFallback: string := "Failed to delete stock movement"

  datatype Op = Fetch | Delete

  /** A delete response body, reduced to its `id` field; `None` when the body
      has no `id` (an empty body included). */
  datatype DeleteBody = DeleteBody(id: Option<int>)

  datatype Action<A> =
    | Pending(op: Op)
    | Failed(op: Op, payload: ErrorValue)
    | Fetched(list: seq<Record<A>>)
    | Deleted(body: DeleteBody)
    | ClearStock

  function Fallback(op: Op): string {
    match op
    case Fetch => FetchFallback
    case Delete => DeleteFallback
  }

  /** `action.payload || fallback`: only an empty message is falsy. */
  function PayloadOr(p: ErrorValue, op: Op): ErrorValue {
    if p == Message("") then Message(Fallback(op)) else p
  }

  function Reduce<A(==,!new)>(s: State<Record<A>>, a: Action<A>): (r: State<Record<A>>)
    ensures a.Pending? ==> r.data == s.data && r.loading && r.error.None?
    ensures a.Failed? ==>
      r.data == s.data && !r.loading &&
      r.error == Some(if a.payload == Message("") then Message(Fallback(a.op)) else a.payload)
    ensures a.Fetched? ==> r.data == a.list && !r.loading && r.error == s.error
    ensures a.Deleted? ==> !r.loading && r.error == s.error
    ensures a.Deleted? && a.body.id.Some? ==>
      (forall x :: x in r.data <==> x in s.data && x.id != a.body.id.value) && Subseq(r.data, s.data) &&
      (forall x :: multiset(r.data)[x] == if x.id != a.body.id.value then multiset(s.data)[x] else 0)
    ensures a.Deleted? && a.body.id.None? ==> r.data == s.data
    ensures a.ClearStock? ==> r.data == [] && r.error.None? && !r.loading
  {
    match a
    case Pending(_) => SetPending(s, true)
    case Failed(op, p) => SetRejected(s, PayloadOr(p, op))
    case Fetched(list) => s.(loading := false, data := list)
    case Deleted(body) =>
      if body.id.Some? then s.(loading := false, data := RemoveId(s.data, body.id.value))
      else s.(loading := false)
    case ClearStock => State([], false, None)
  }

  /** `fetchStockMovements()`: the normalised list, or a rejection with
      `detail || message || fallback`. */
  function FetchThunk<A>(reply: Reply<Listing<Record<A>>>): (a: Action<A>)
    ensures reply.Ok? ==> a == Fetched(Normalise(reply.data))
    ensures reply.Fail? ==> a == Failed(Fetch, Message(DetailOr(reply.err, FetchFallback)))
  {
    match reply
    case Ok(body) => Fetched(Normalise(body))
    case Fail(err) => Failed(Fetch, Message(DetailOr(err, FetchFallback)))
  }

  /** `deleteStockMovement(id)` as written: it fulfils with `response.data`, and
      the reducer removes the movements whose id is that body's `id`. */
  function DeleteThunk(id: int, reply: Reply<DeleteBody>): (st: Settled<DeleteBody>)
    ensures st.Fulfilled? <==> reply.Ok?
    ensures st.Fulfilled? ==> st.value == reply.data
    ensures st.Rejected? ==> st.payload == Message(DetailOr(reply.err, DeleteFallback))
  {
    match reply
    case Ok(body) => Fulfilled(body)
    case Fail(err) => Rejected(Message(DetailOr(err, DeleteFallback)))
  }

  /** The action a settled delete dispatches. */
  function DeleteAction<A>(st: Settled<DeleteBody>): Action<A> {
    match st
    case Fulfilled(body) => Deleted(body)
    case Rejected(p) => Failed(Delete, p)
  }

  /** A delete the server accepted with an empty body (no `id`) leaves the
      deleted movement in the list. */
  lemma AcceptedDeleteWithEmptyBodyKeepsMovement<A(!new)>(s: State<Record<A>>, id: int)
    requires id in Ids(s.data)
    ensures var r := Reduce(s, DeleteAction(DeleteThunk(id, Ok(DeleteBody(None)))));
      r.data == s.data && id in Ids(r.data)
  {
  }

  /** `deleteStockMovement(id)` as evidently intended: fulfils with the id that
      was deleted, whatever the body holds. */
  function DeleteThunkIntended(id: int, reply: Reply<DeleteBody>): (st: Settled<DeleteBody>)
    ensures reply.Ok? ==> st == Fulfilled(DeleteBody(Some(id)))
    ensures reply.Fail? ==> st == DeleteThunk(id, reply)
  {
    match reply
    case Ok(_) => Fulfilled(DeleteBody(Some(id)))
    case Fail(err) => Rejected(Message(DetailOr(err, DeleteFallback)))
  }

  /** With the intended thunk, an accepted delete always removes the movement. */
  lemma IntendedDeleteRemoves<A(!new)>(s: State<Record<A>>, id: int, body: DeleteBody)
    ensures id !in Ids(Reduce(s, DeleteAction(DeleteThunkIntended(id, Ok(body)))).data)
  {
    RemoveIdGone(s.data, id);
  }

  /** The reducer's own fallback message is never used for a rejection the
      thunks produce: theirs always carries a non-empty message. */
  lemma ThunkMessageReachesState<A(!new)>(s: State<Record<A>>, err: HttpError)
    ensures Reduce(s, FetchThunk<A>(Fail(err))).error == Some(Message(DetailOr(err, FetchFallback)))
    ensures Reduce(s, DeleteAction(DeleteThunk(0, Fail(err)))).error == Some(Message(DetailOr(err, DeleteFallback)))
  {
  }

  /** The ids of a bulk delete whose request the server accepted, in order. */
  function AcceptedIds(ids: seq<int>, replies: seq<Reply<DeleteBody>>): (acc: seq<int>)
    requires |replies| == |ids|
    ensures forall id :: id in acc <==> exists i :: 0 <= i < |ids| && ids[i] == id && replies[i].Ok?
  {
    if |ids| == 0 then []
    else
      var rest := AcceptedIds(ids[1..], replies[1..]);
      assert forall id :: id in rest <==> exists i :: 1 <= i < |ids| && ids[i] == id && replies[i].Ok? by {
        forall id | id in rest ensures exists i :: 1 <= i < |ids| && ids[i] == id && replies[i].Ok? {
          var j :| 0 <= j < |ids| - 1 && ids[1..][j] == id && replies[1..][j].Ok?;
          assert ids[j + 1] == id && replies[j + 1].Ok?;
        }
        forall id | exists i :: 1 <= i < |ids| && ids[i] == id && replies[i].Ok? ensures id in rest {
          var i :| 1 <= i < |ids| && ids[i] == id && replies[i].Ok?;
          assert ids[1..][i - 1] == id && replies[1..][i - 1].Ok?;
        }
      }
      if replies[0].Ok? then [ids[0]] + rest else rest
  }

  /** The bulk delete of the stock page: for each selected id in turn, the
      delete thunk's `pending` and then its outcome reach the reducer.
      `intended` picks the corrected thunk. */
  function BulkDelete<A(==,!new)>(s: State<Record<A>>, ids: seq<int>, replies: seq<Reply<DeleteBody>>, intended: bool): (r: State<Record<A>>)
    requires |replies| == |ids|
    ensures |ids| > 0 ==> !r.loading
    ensures |ids| == 0 ==> r == s
    ensures forall x :: x in r.data ==> x in s.data
    decreases |ids|
  {
    if |ids| == 0 then s
    else
      var t := Reduce(s, Pending(Delete));
      var settled := if intended then DeleteThunkIntended(ids[0], replies[0]) else DeleteThunk(ids[0], replies[0]);
      BulkDelete(Reduce(t, DeleteAction(settled)), ids[1..], replies[1..], intended)
  }

  /** With the corrected thunk, a bulk delete removes exactly the movements
      whose delete the server accepted, and keeps every other one. */
  lemma {:induction false} BulkDeleteIntended<A(!new)>(s: State<Record<A>>, ids: seq<int>, replies: seq<Reply<DeleteBody>>)
    requires |replies| == |ids|
    ensures forall x :: x in BulkDelete(s, ids, replies, true).data <==>
      x in s.data && x.id !in AcceptedIds(ids, replies)
    decreases |ids|
  {
    if |ids| > 0 {
      var u := Reduce(Reduce(s, Pending(Delete)), DeleteAction(DeleteThunkIntended(ids[0], replies[0])));
      BulkDeleteIntended(u, ids[1..], replies[1..]);
      var rest := AcceptedIds(ids[1..], replies[1..]);
      assert forall id :: id in AcceptedIds(ids, replies) <==> (replies[0].Ok? && id == ids[0]) || id in rest;
    }
  }

  /** As written, a bulk delete whose every request the server accepted with
      an empty body leaves the list exactly as it was. */
  lemma {:induction false} BulkDeleteEmptyBodiesKeepList<A(!new)>(s: State<Record<A>>, ids: seq<int>, replies: seq<Reply<DeleteBody>>)
    requires |replies| == |ids|
    requires forall i :: 0 <= i < |replies| ==> replies[i] == Ok(DeleteBody(None))
    ensures BulkDelete(s, ids, replies, false).data == s.data
    decreases |ids|
  {
    if |ids| > 0 {
      var u := Reduce(Reduce(s, Pending(Delete)), DeleteAction(DeleteThunk(ids[0], replies[0])));
      assert u.data == s.data;
      BulkDeleteEmptyBodiesKeepList(u, ids[1..], replies[1..]);
    }
  }
}

=== FILE: text.dfy ===
/**
 * The string operations the pages and forms use: `toLowerCase`, `toUpperCase`,
 * `includes`, JavaScript truthiness of optional strings, `parseInt` and
 * `String(n)` for integers.
 *
 * Case mapping is modelled on ASCII letters only; every other character is
 * left unchanged.
 */
module Text {
  import opened Wrappers

  function Lower(c: char): (d: char)
    ensures 'A' <= c <= 'Z' ==> 'a' <= d <= 'z'
    ensures !('A' <= c <= 'Z') ==> d == c
  {
    if 'A' <= c <= 'Z' then (c as int - 'A' as int + 'a' as int) as char else c
  }

  function Upper(c: char): (d: char)
    ensures 'a' <= c <= 'z' ==> 'A' <= d <= 'Z'
    ensures !('a' <= c <= 'z') ==> d == c
  {
    if 'a' <= c <= 'z' then (c as int - 'a' as int + 'A' as int) as char else c
  }

  /** `s.toLowerCase()` */
  function LowerStr(s: string): (r: string)
    ensures |r| == |s|
    ensures forall i :: 0 <= i < |s| ==> r[i] == Lower(s[i])
  {
    seq(|s|, i requires 0 <= i < |s| => Lower(s[i]))
  }

  /** `s.toUpperCase()` */
  function UpperStr(s: string): (r: string)
    ensures |r| == |s|
    ensures forall i :: 0 <= i < |s| ==> r[i] == Upper(s[i])
  {
    seq(|s|, i requires 0 <= i < |s| => Upper(s[i]))
  }

  /** Lower-casing twice is the same as lower-casing once. */
  lemma LowerStrIdempotent(s: string)
    ensures LowerStr(LowerStr(s)) == LowerStr(s)
  {
  }

  predicate IsPrefix(p: string, s: string) {
    |p| <= |s| && s[..|p|] == p
  }

  /** `s.includes(t)`: `t` occurs somewhere in `s` as a contiguous block. */
  predicate Includes(s: string, t: string)
    decreases |s|
  {
    IsPrefix(t, s) || (|s| > 0 && Includes(s[1..], t))
  }

  /** `t` occurs in `s` starting at index `i`. */
  ghost predicate OccursAt(s: string, t: string, i: int) {
    0 <= i && i + |t| <= |s| && s[i..i + |t|] == t
  }

  /** `Includes` is exactly "occurs at some position", in both directions. */
  lemma {:induction false} IncludesIff(s: string, t: string)
    ensures Includes(s, t) <==> exists i :: OccursAt(s, t, i)
    decreases |s|
  {
    if IsPrefix(t, s) {
      assert OccursAt(s, t, 0);
    } else if |s| > 0 {
      IncludesIff(s[1..], t);
      if exists i :: OccursAt(s[1..], t, i) {
        var i :| OccursAt(s[1..], t, i);
        assert s[1..][i..i + |t|] == s[i + 1..i + 1 + |t|];
        assert OccursAt(s, t, i + 1);
      }
      if exists i :: OccursAt(s, t, i) {
        var i :| OccursAt(s, t, i);
        if i > 0 {
          assert s[1..][i - 1..i - 1 + |t|] == s[i..i + |t|];
          assert OccursAt(s[1..], t, i - 1);
        }
      }
    }
  }

  /** Every string includes the empty string, so an empty search keeps every row. */
  lemma IncludesEmpty(s: string)
    ensures Includes(s, "")
  {
    assert IsPrefix("", s);
  }

  /** Case-insensitive `includes`, as the tables search:
      `hay.toLowerCase().includes(needle.toLowerCase())`. */
  predicate ContainsCI(hay: string, needle: string) {
    Includes(LowerStr(hay), LowerStr(needle))
  }

  lemma ContainsCIEmpty(hay: string)
    ensures ContainsCI(hay, "")
  {
    IncludesEmpty(LowerStr(hay));
  }

  /** JavaScript truthiness of an optional string: present and non-empty. */
  predicate Truthy(o: Option<string>) {
    o.Some? && o.value != ""
  }

  /** `a || b` for an optional string `a` and a string `b`. */
  function OrElse(a: Option<string>, b: string): (r: string)
    ensures Truthy(a) ==> r == a.value
    ensures !Truthy(a) ==> r == b
  {
    if Truthy(a) then a.value else b
  }

  // ---------------------------------------------------------------------
  // parseInt of decimal text (no 0x prefix) and String(n)

  predicate IsDigit(c: char) {
    '0' <= c <= '9'
  }

  predicate IsSpace(c: char) {
    c == ' ' || c == '\t' || c == '\n' || c == '\r'
  }

  function DigitChar(d: nat): (c: char)
    requires d < 10
    ensures IsDigit(c)
  {
    ('0' as int + d) as char
  }

  function DigitValue(c: char): (d: nat)
    requires IsDigit(c)
    ensures d < 10 && DigitChar(d) == c
  {
    c as int - '0' as int
  }

  /** Leading white space removed. */
  function TrimStart(s: string): (r: string)
    ensures |r| <= |s| && r == s[|s| - |r|..]
    ensures |r| > 0 ==> !IsSpace(r[0])
    decreases |s|
  {
    if |s| > 0 && IsSpace(s[0]) then TrimStart(s[1..]) else s
  }

  /** Number of leading decimal digits. */
  function DigitRun(s: string): (n: nat)
    ensures n <= |s|
    ensures forall i :: 0 <= i < n ==> IsDigit(s[i])
    ensures n < |s| ==> !IsDigit(s[n])
    decreases |s|
  {
    if |s| > 0 && IsDigit(s[0]) then 1 + DigitRun(s[1..]) else 0
  }

  /** The value of a string of decimal digits, most significant first. */
  function DigitsValue(d: string): nat
    requires forall i :: 0 <= i < |d| ==> IsDigit(d[i])
  {
    if |d| == 0 then 0 else DigitsValue(d[..|d| - 1]) * 10 + DigitValue(d[|d| - 1])
  }

  /** `parseInt(s)` of decimal text: leading white space, an optional sign, then the longest run of
      decimal digits; `None` is `NaN` (no digit where one was expected). */
  function ParseInt(s: string): Option<int> {
    var t := TrimStart(s);
    if |t| > 0 && t[0] == '-' then
      match ParseDigitRun(t[1..])
      case None => None
      case Some(v) => Some(-v)
    else if |t| > 0 && t[0] == '+' then ParseDigitRun(t[1..])
    else ParseDigitRun(t)
  }

  /** The value of the leading run of digits, if there is one. */
  function ParseDigitRun(u: string): (r: Option<int>)
    ensures r.Some? <==> |u| > 0 && IsDigit(u[0])
    ensures r.Some? ==> r.value >= 0
  {
    var n := DigitRun(u);
    if n == 0 then None else Some(DigitsValue(u[..n]) as int)
  }

  /** `String(n)` for a natural number. */
  function ShowNat(n: nat): (r: string)
    ensures |r| > 0
    ensures forall i :: 0 <= i < |r| ==> IsDigit(r[i])
  {
    if n < 10 then [DigitChar(n)] else ShowNat(n / 10) + [DigitChar(n % 10)]
  }

  /** `String(n)` for an integer. */
  function ShowInt(n: int): string {
    if n < 0 then "-" + ShowNat(-n) else ShowNat(n)
  }

  lemma {:induction false} DigitsValueShowNat(n: nat)
    ensures DigitsValue(ShowNat(n)) == n
  {
    var r := ShowNat(n);
    if n >= 10 {
      DigitsValueShowNat(n / 10);
      assert r[..|r| - 1] == ShowNat(n / 10);
    }
  }

  lemma {:induction false} DigitRunAll(d: string)
    requires forall i :: 0 <= i < |d| ==> IsDigit(d[i])
    ensures DigitRun(d) == |d|
    decreases |d|
  {
    if |d| > 0 {
      DigitRunAll(d[1..]);
    }
  }

  /** A string of digits is read whole. */
  lemma DigitRunValue(d: string)
    requires |d| > 0 && forall i :: 0 <= i < |d| ==> IsDigit(d[i])
    ensures ParseDigitRun(d) == Some(DigitsValue(d) as int)
  {
    DigitRunAll(d);
    assert d[..|d|] == d;
  }

  /** `parseInt("")` is `NaN`. */
  lemma ParseEmpty()
    ensures ParseInt("") == None
  {
    var t := TrimStart("");
    assert |t| == 0;
  }

  /** `parseInt("1")` is 1. */
  lemma ParseOne()
    ensures ParseInt("1") == Some(1)
  {
    ParseDigits("1");
    assert DigitsValue("1") == 1 by {
      assert DigitsValue("1"[..0]) == 0;
    }
  }

  /** `parseInt` of a sign-free run of digits is its decimal value. */
  lemma ParseDigits(d: string)
    requires |d| > 0 && forall i :: 0 <= i < |d| ==> IsDigit(d[i])
    ensures ParseInt(d) == Some(DigitsValue(d) as int)
  {
    assert !IsSpace(d[0]) && TrimStart(d) == d;
    DigitRunValue(d);
  }

  /** `parseInt` of a minus sign followed by digits is the negated value. */
  lemma ParseNegDigits(d: string)
    requires |d| > 0 && forall i :: 0 <= i < |d| ==> IsDigit(d[i])
    ensures ParseInt("-" + d) == Some(-(DigitsValue(d) as int))
  {
    var m := "-" + d;
    assert m[0] == '-' && m[1..] == d;
    DigitRunValue(d);
    ParseMinus(m);
  }

  /** A leading minus sign negates what follows it. */
  lemma ParseMinus(m: string)
    requires |m| > 0 && m[0] == '-'
    ensures ParseInt(m) == (match ParseDigitRun(m[1..]) case None => None case Some(v) => Some(-v))
  {
    assert TrimStart(m) == m;
  }

  /** `parseInt(String(n)) == n`: the product selects, whose option values are
      the stringified product ids, give back the id they were built from. */
  lemma ParseShowInt(n: int)
    ensures ParseInt(ShowInt(n)) == Some(n)
  {
    var m: nat := if n < 0 then -n else n;
    DigitsValueShowNat(m);
    if n < 0 {
      ParseNegDigits(ShowNat(m));
    } else {
      ParseDigits(ShowNat(m));
    }
  }
}

=== FILE: token_refresh.dfy ===
/**
 * `withAuth`, the token-refreshing request wrapper that the product, branch
 * and vendor slices each carry a copy of, and the two ways their thunks turn
 * its result into a settled thunk.
 *
 * The server is a pair of functions: the reply to a request sent with a given
 * access token, and the reply to a refresh request sent with a given refresh
 * token. A run records every call made, in order, and the `setTokens` payload
 * dispatched, if any.
 */
module TokenRefresh {
  import opened Wrappers
  import opened Text
  import opened Http

  const RefreshExpired: string := "Refresh token expired, login required."
  const RequestFailed: string := "Request failed."
  const TokenNotValidCode: string := "token_not_valid"

  /** The `accessToken`/`refreshToken` pair of the auth state. */
  datatype Tokens = Tokens(access: Option<string>, refresh: Option<string>)

  /** The reply to `POST token/refresh/`: its body's `access` field, or an error. */
  datatype RefreshReply = Refreshed(access: Option<string>) | RefreshFailed

  /** One call to the server: a request sent with an access token, or a refresh. */
  datatype Call = Request(token: Option<string>) | RefreshCall(refresh: string)

  /** What `withAuth` returns: the request's value, or a `rejectWithValue` result. */
  datatype Outcome<V> = Resolved(value: V) | RejectedWith(payload: ErrorValue)

  datatype Run<V> = Run(outcome: Outcome<V>, calls: seq<Call>, dispatched: Option<Tokens>)

  /** `err.response?.data?.code === "token_not_valid"` */
  predicate TokenNotValid(err: HttpError) {
    err.data.Some? && err.data.value.code == Some(TokenNotValidCode)
  }

  function RefreshCount(calls: seq<Call>): (n: nat)
    ensures n <= |calls|
  {
    if |calls| == 0 then 0
    else RefreshCount(calls[..|calls| - 1]) + (if calls[|calls| - 1].RefreshCall? then 1 else 0)
  }

  function RequestCount(calls: seq<Call>): (n: nat)
    ensures n <= |calls|
  {
    if |calls| == 0 then 0
    else RequestCount(calls[..|calls| - 1]) + (if calls[|calls| - 1].Request? then 1 else 0)
  }

  /** The refresh-and-retry step, entered after a `token_not_valid` error when a
      refresh token is present. Any failure of the refresh or of the retry ends
      in the same message. */
  function RefreshAndRetry<V>(t: Tokens, request: Option<string> -> Reply<V>, refresh: string -> RefreshReply): (run: Run<V>)
    requires Truthy(t.refresh)
    ensures |run.calls| >= 1 && run.calls[0] == RefreshCall(t.refresh.value)
    ensures refresh(t.refresh.value).RefreshFailed? ==>
      run.calls == [RefreshCall(t.refresh.value)] && run.dispatched == None &&
      run.outcome == RejectedWith(Message(RefreshExpired))
    ensures refresh(t.refresh.value).Refreshed? ==>
      var a := refresh(t.refresh.value).access;
      run.calls == [RefreshCall(t.refresh.value), Request(a)] &&
      run.dispatched == Some(Tokens(a, t.refresh)) &&
      run.outcome == (match request(a)
                      case Ok(v) => Resolved(v)
                      case Fail(_) => RejectedWith(Message(RefreshExpired)))
  {
    var r := t.refresh.value;
    match refresh(r)
    case RefreshFailed => Run(RejectedWith(Message(RefreshExpired)), [RefreshCall(r)], None)
    case Refreshed(a) =>
      var calls := [RefreshCall(r), Request(a)];
      match request(a)
      case Ok(v) => Run(Resolved(v), calls, Some(Tokens(a, t.refresh)))
      case Fail(_) => Run(RejectedWith(Message(RefreshExpired)), calls, Some(Tokens(a, t.refresh)))
  }

  /** `withAuth(requestFn, { getState, dispatch, rejectWithValue })` */
  function WithAuth<V>(t: Tokens, request: Option<string> -> Reply<V>, refresh: string -> RefreshReply): (run: Run<V>)
    ensures |run.calls| >= 1 && run.calls[0] == Request(t.access)
    ensures RefreshCount(run.calls) <= 1 && RequestCount(run.calls) <= 2
    ensures run.dispatched.Some? ==> run.dispatched.value.refresh == t.refresh
    ensures request(t.access).Ok? ==>
      run == Run(Resolved(request(t.access).data), [Request(t.access)], None)
    ensures request(t.access).Fail? && !(TokenNotValid(request(t.access).err) && Truthy(t.refresh)) ==>
      run == Run(RejectedWith(DataOr(request(t.access).err, RequestFailed)), [Request(t.access)], None)
    ensures request(t.access).Fail? && TokenNotValid(request(t.access).err) && Truthy(t.refresh) ==>
      run.calls[1..] == RefreshAndRetry(t, request, refresh).calls &&
      run.outcome == RefreshAndRetry(t, request, refresh).outcome &&
      run.dispatched == RefreshAndRetry(t, request, refresh).dispatched
  {
    var first := Request(t.access);
    match request(t.access)
    case Ok(v) => Run(Resolved(v), [first], None)
    case Fail(err) =>
      if TokenNotValid(err) && Truthy(t.refresh) then
        var rest := RefreshAndRetry(t, request, refresh);
        var calls := [first] + rest.calls;
        assert [first][..0] == [];
        assert calls[..2][..1] == calls[..1] == [first];
        assert RequestCount(calls[..1]) == 1 && RefreshCount(calls[..1]) == 0;
        assert RequestCount(calls[..2]) == 1 && RefreshCount(calls[..2]) == 1;
        assert |rest.calls| == 2 ==> calls[..3][..2] == calls[..2] && calls[..3] == calls;
        Run(rest.outcome, calls, rest.dispatched)
      else
        Run(RejectedWith(DataOr(err, RequestFailed)), [first], None)
  }

  /** A refresh happens exactly when the first request failed with
      `token_not_valid` and a refresh token was present. */
  lemma RefreshIff<V>(t: Tokens, request: Option<string> -> Reply<V>, refresh: string -> RefreshReply)
    ensures RefreshCount(WithAuth(t, request, refresh).calls) == 1 <==>
      request(t.access).Fail? && TokenNotValid(request(t.access).err) && Truthy(t.refresh)
  {
    var run := WithAuth(t, request, refresh);
    if request(t.access).Fail? && TokenNotValid(request(t.access).err) && Truthy(t.refresh) {
      var calls := run.calls;
      assert calls[..1] == [Request(t.access)];
      if |calls| == 3 {
        assert calls[..2] == [Request(t.access), RefreshCall(t.refresh.value)];
      }
    }
  }

  /** A resolved value is the reply to the last request made, and every failure
      after a refresh is reported as an expired login. */
  lemma {:induction false} ResolvedIsLastReply<V>(t: Tokens, request: Option<string> -> Reply<V>, refresh: string -> RefreshReply)
    ensures var run := WithAuth(t, request, refresh);
      run.outcome.Resolved? ==>
        run.calls[|run.calls| - 1].Request? &&
        request(run.calls[|run.calls| - 1].token) == Ok(run.outcome.value)
    ensures var run := WithAuth(t, request, refresh);
      run.outcome.RejectedWith? && |run.calls| > 1 ==> run.outcome.payload == Message(RefreshExpired)
  {
    var run := WithAuth(t, request, refresh);
    if request(t.access).Fail? && TokenNotValid(request(t.access).err) && Truthy(t.refresh) {
      var rest := RefreshAndRetry(t, request, refresh);
      assert run.calls == [Request(t.access)] + rest.calls;
    }
  }

  /** After a successful refresh, the next wrapped call starts from the
      dispatched tokens: while the server accepts the new access token it goes
      straight through, with no second refresh. */
  lemma RefreshedTokenReused<V, W>(t: Tokens, request: Option<string> -> Reply<V>, refresh: string -> RefreshReply,
                                   next: Option<string> -> Reply<W>)
    requires WithAuth(t, request, refresh).dispatched.Some?
    requires next(WithAuth(t, request, refresh).dispatched.value.access).Ok?
    ensures var t' := WithAuth(t, request, refresh).dispatched.value;
      t'.refresh == t.refresh &&
      WithAuth(t', next, refresh).calls == [Request(t'.access)] &&
      RefreshCount(WithAuth(t', next, refresh).calls) == 0
  {
  }

  /** The three `withAuth` outcomes a `token_not_valid` error can lead to, on a
      concrete script: refresh token `"r1"`, stale access `"a1"`, fresh access `"a2"`. */
  lemma ExpiredAccessScenario()
    ensures var stale := HttpError(Some(ErrorBody(Some(TokenNotValidCode), None)), "401");
      var t := Tokens(Some("a1"), Some("r1"));
      var request := (tok: Option<string>) => if tok == Some("a2") then Ok(42) else Fail(stale);
      var run := WithAuth(t, request, (r: string) => Refreshed(Some("a2")));
      run.outcome == Resolved(42) &&
      run.calls == [Request(Some("a1")), RefreshCall("r1"), Request(Some("a2"))] &&
      run.dispatched == Some(Tokens(Some("a2"), Some("r1")))
    ensures var stale := HttpError(Some(ErrorBody(Some(TokenNotValidCode), None)), "401");
      var noRefresh := WithAuth<int>(Tokens(Some("a1"), None), (tok: Option<string>) => Fail(stale),
                                (r: string) => Refreshed(Some("a2")));
      noRefresh.outcome == RejectedWith(Data(ErrorBody(Some(TokenNotValidCode), None))) && |noRefresh.calls| == 1
  {
    var stale := HttpError(Some(ErrorBody(Some(TokenNotValidCode), None)), "401");
    var t := Tokens(Some("a1"), Some("r1"));
    assert TokenNotValid(stale);
    assert Truthy(t.refresh);
    assert !Truthy(Tokens(Some("a1"), None).refresh);
  }

  // ---------------------------------------------------------------------
  // Settling the thunk

  /** `Promise.prototype.then` on a resolved value. */
  function MapOutcome<V, W>(o: Outcome<V>, f: V -> W): (r: Outcome<W>)
    ensures r.Resolved? <==> o.Resolved?
    ensures o.Resolved? ==> r.value == f(o.value)
    ensures o.RejectedWith? ==> r.payload == o.payload
  {
    match o
    case Resolved(v) => Resolved(f(v))
    case RejectedWith(p) => RejectedWith(p)
  }

  /** `return withAuth(...)` inside the payload creator, as the vendor thunks do:
      a `rejectWithValue` result rejects the thunk with that payload. */
  function Settle<V>(o: Outcome<V>): (s: Settled<V>)
    ensures s.Fulfilled? <==> o.Resolved?
    ensures o.Resolved? ==> s.value == o.value
    ensures o.RejectedWith? ==> s.payload == o.payload
  {
    match o
    case Resolved(v) => Fulfilled(v)
    case RejectedWith(p) => Rejected(p)
  }

  /** `await withAuth(...).then(f)`, as the product and branch thunks do: `f` is
      applied to whatever `withAuth` returned, the `rejectWithValue` result
      included, on which it yields `onRejectObject` (`res.data` is `undefined`
      there, `() => id` still gives `id`). The thunk therefore always fulfils. */
  function SettleThen<V, W>(o: Outcome<V>, f: V -> W, onRejectObject: W): (s: Settled<W>)
    ensures s.Fulfilled?
    ensures o.Resolved? ==> s.value == f(o.value)
    ensures o.RejectedWith? ==> s.value == onRejectObject
  {
    match o
    case Resolved(v) => Fulfilled(f(v))
    case RejectedWith(_) => Fulfilled(onRejectObject)
  }

  /** `await withAuth(...).then(() => id)`, the product and branch deletes as
      written: the thunk fulfils with `id` whatever the server answered. */
  function DeleteThenId(o: Outcome<()>, id: int): (st: Settled<int>)
    ensures st == Fulfilled(id)
  {
    SettleThen(o, (_: ()) => id, id)
  }

  /** The same delete settled the way the vendor thunks settle: `id` once the
      server accepted, and the `rejectWithValue` payload otherwise. */
  function DeleteSettled(o: Outcome<()>, id: int): (st: Settled<int>)
    ensures st.Fulfilled? <==> o.Resolved?
    ensures st.Fulfilled? ==> st.value == id
    ensures o.RejectedWith? ==> st.payload == o.payload
  {
    Settle(MapOutcome(o, (_: ()) => id))
  }

  /** Both settle the same way whenever the request succeeded; they differ on
      every rejection, which only `Settle` passes on. */
  lemma SettleAgreesOnSuccess<V, W>(o: Outcome<V>, f: V -> W, w: W)
    ensures o.Resolved? ==> SettleThen(o, f, w) == Settle(MapOutcome(o, f))
    ensures o.RejectedWith? ==> Settle(MapOutcome(o, f)).Rejected? && SettleThen(o, f, w).Fulfilled?
  {
  }
}

=== FILE: vendor_purchase_page.dfy ===
/**
 * The vendor table: six vendors per page, each row numbered by its place in
 * the whole list, one button per page, and Previous and Next buttons that are
 * disabled on the first and the last page. The controls appear only when
 * there is more than one page.
 */
module VendorPurchasePage {
  import opened Wrappers
  import opened Paging

  datatype Vendor = Vendor(id: int, name: string, email: Option<string>, phone: Option<string>)

  const VendorsPerPage: nat := 6

  /** `indexOfFirstVendor` */
  function IndexOfFirst(page: int): int {
    page * VendorsPerPage - VendorsPerPage
  }

  /** `currentVendors`: the slice from `indexOfFirstVendor` to
      `indexOfLastVendor`. */
  function CurrentVendors(vendors: seq<Vendor>, page: int): (r: seq<Vendor>)
    ensures |r| <= VendorsPerPage
    ensures page >= 1 ==> forall j :: 0 <= j < |r| ==>
      0 <= IndexOfFirst(page) + j < |vendors| && r[j] == vendors[IndexOfFirst(page) + j]
    ensures 1 <= page <= TotalPagesOf(vendors) ==> |r| > 0
  {
    var r := Page(vendors, page, VendorsPerPage);
    assert page >= 1 ==> IndexOfFirst(page) == Min((page - 1) * VendorsPerPage, |vendors|) || |r| == 0;
    r
  }

  function TotalPagesOf(vendors: seq<Vendor>): nat {
    TotalPages(|vendors|, VendorsPerPage)
  }

  /** The number in a row's first cell: `indexOfFirstVendor + index + 1`. */
  function RowNumber(page: int, index: int): int {
    IndexOfFirst(page) + index + 1
  }

  /** The numbering runs on across pages without gap or repeat: vendor `i`
      of the list is shown on page `i / 6 + 1`, row `i % 6`, with the number
      `i + 1`. */
  lemma RowNumbersRunOn(vendors: seq<Vendor>, i: int)
    requires 0 <= i < |vendors|
    ensures var p := i / VendorsPerPage + 1;
      var j := i % VendorsPerPage;
      1 <= p <= TotalPagesOf(vendors) && j < |CurrentVendors(vendors, p)| &&
      CurrentVendors(vendors, p)[j] == vendors[i] && RowNumber(p, j) == i + 1
  {
    RowOnPage(vendors, i, VendorsPerPage);
  }

  /** The page buttons, labelled `1` to `totalPages`. */
  function PageButtons(total: nat): (r: seq<int>)
    ensures |r| == total
    ensures forall i :: 0 <= i < total ==> r[i] == i + 1
  {
    seq(total, i requires 0 <= i < total => i + 1)
  }

  /** `totalPages > 1`: the controls are shown exactly when the vendors do
      not fit on one page. */
  function ControlsShown(vendors: seq<Vendor>): (b: bool)
    ensures b <==> |vendors| > VendorsPerPage
  {
    TotalPagesOf(vendors) > 1
  }

  /** The Previous and Next clicks: no change when the button is disabled. */
  function Previous(page: int): (r: int)
    ensures page == 1 ==> r == 1
    ensures page != 1 ==> r == page - 1
  {
    if page == 1 then page else page - 1
  }

  function Next(page: int, total: int): (r: int)
    ensures page == total ==> r == total
    ensures page != total ==> r == page + 1
  {
    if page == total then page else page + 1
  }

  /** From a page in range, every click — Previous, Next or a page button —
      leaves the page in range and showing at least one vendor. */
  lemma ClicksStayInRange(vendors: seq<Vendor>, page: int, button: int)
    requires 1 <= page <= TotalPagesOf(vendors)
    requires 0 <= button < |PageButtons(TotalPagesOf(vendors))|
    ensures var t := TotalPagesOf(vendors);
      1 <= Previous(page) <= t && 1 <= Next(page, t) <= t &&
      1 <= PageButtons(t)[button] <= t
    ensures |CurrentVendors(vendors, Previous(page))| > 0
    ensures |CurrentVendors(vendors, Next(page, TotalPagesOf(vendors)))| > 0
    ensures |CurrentVendors(vendors, PageButtons(TotalPagesOf(vendors))[button])| > 0
  {
  }
}

=== FILE: vendor_slice.dfy ===
/**
 * The vendor slice: `withAuth` thunks for fetch, add and delete, whose payload
 * creators return `withAuth`'s result directly, and reducers over
 * `{ vendors, loading, error }`. Only the fetch thunk has `pending`/`rejected`
 * cases.
 */
module VendorSlice {
  import opened Wrappers
  import opened Seqs
  import opened Http
  import opened TokenRefresh
  import opened ResourceSlice

  datatype Op = Fetch | Add | Delete

  datatype Action<A> =
    | Pending(op: Op)
    | Failed(op: Op, payload: ErrorValue)
    | Fetched(list: seq<Record<A>>)
    | Added(rec: Record<A>)
    | Deleted(id: int)

  function Reduce<A(==,!new)>(s: State<Record<A>>, a: Action<A>): (r: State<Record<A>>)
    ensures a.Pending? && a.op == Fetch ==> r.data == s.data && r.loading && r.error.None?
    ensures a.Failed? && a.op == Fetch ==> r.data == s.data && !r.loading && r.error == Some(a.payload)
    ensures (a.Pending? || a.Failed?) && a.op != Fetch ==> r == s
    ensures a.Fetched? ==> r.data == a.list && !r.loading && r.error == s.error
    ensures a.Added? || a.Deleted? ==> r.loading == s.loading && r.error == s.error
    ensures a.Added? ==> r.data == s.data + [a.rec]
    ensures a.Deleted? ==>
      (forall x :: x in r.data <==> x in s.data && x.id != a.id) && Subseq(r.data, s.data) &&
      (forall x :: multiset(r.data)[x] == if x.id != a.id then multiset(s.data)[x] else 0) &&
      (a.id !in Ids(s.data) ==> r.data == s.data)
  {
    match a
    case Pending(op) => if op == Fetch then SetPending(s, true) else s
    case Failed(op, p) => if op == Fetch then SetRejected(s, p) else s
    case Fetched(list) => s.(loading := false, data := list)
    case Added(rec) => s.(data := s.data + [rec])
    case Deleted(id) => s.(data := RemoveId(s.data, id))
  }

  /** The delete request function: `await axios.delete(...)` then `return vendorId`. */
  function DeleteRequest(vendorId: int, server: Option<string> -> Reply<()>): (f: Option<string> -> Reply<int>)
    ensures forall tok :: f(tok).Ok? <==> server(tok).Ok?
    ensures forall tok :: f(tok).Ok? ==> f(tok).data == vendorId
    ensures forall tok :: f(tok).Fail? ==> f(tok).err == server(tok).err
  {
    (tok: Option<string>) => match server(tok)
                             case Ok(_) => Ok(vendorId)
                             case Fail(e) => Fail(e)
  }

  /** `deleteVendor(vendorId)`: how its promise settles. */
  function DeleteThunk(t: Tokens, vendorId: int, server: Option<string> -> Reply<()>,
                       refresh: string -> RefreshReply): (st: Settled<int>)
    ensures var o := WithAuth(t, DeleteRequest(vendorId, server), refresh).outcome;
      (o.Resolved? ==> st == Fulfilled(vendorId)) &&
      (o.RejectedWith? ==> st == Rejected(o.payload))
  {
    Settle(WithAuth(t, DeleteRequest(vendorId, server), refresh).outcome)
  }

  /** The action a settled delete dispatches. */
  function DeleteAction<A>(st: Settled<int>): Action<A> {
    match st
    case Fulfilled(id) => Deleted(id)
    case Rejected(p) => Failed(Delete, p)
  }

  /** A delete removes the vendor exactly when the server accepted a delete
      request; a refused delete leaves the state as it was. */
  lemma DeleteOnlyWhenAccepted<A(!new)>(s: State<Record<A>>, t: Tokens, vendorId: int,
                                        server: Option<string> -> Reply<()>, refresh: string -> RefreshReply)
    ensures var run := WithAuth(t, DeleteRequest(vendorId, server), refresh);
      var r := Reduce(s, DeleteAction(DeleteThunk(t, vendorId, server, refresh)));
      (run.outcome.Resolved? ==> vendorId !in Ids(r.data)) &&
      (run.outcome.RejectedWith? ==> r == s)
  {
    RemoveIdGone(s.data, vendorId);
  }
}

=== FILE: wrappers.dfy ===
/** A value that may be absent: JavaScript's `undefined`/`null` for an optional field. */
module Wrappers {

  datatype Option<+T> = None | Some(value: T) {

    /** The wrapped value, or `default` when absent (JavaScript `x ?? default`). */
    function GetOr(default: T): T {
      match this
      case Some(v) => v
      case None => default
    }
  }
}
